=== FILE: README.md ===
# Demplar character manager: server core in Dafny

This project models the server core of the Demplar character manager. That core is an Express + PostgreSQL API that keeps tabletop-RPG characters, their session logs, and the accounts allowed to read or edit them.

The model covers four parts of the server:

- **Persistence layer (`DatabaseStorage`):** the three tables `users`, `characters` and `session_logs`. It covers their column defaults, NOT NULL constraints and serial keys, and the zod insert and update schemas derived from them.
- **Authentication layer:** the session record, the one-week session settings, and the two gates `requireAuth` and `requireMaster`.
- **JSON routes:** login, logout, auth status, character and session-log CRUD, search, lookup by player, and the image-proxy guard.
- **Master-only batch routes:** the name-pattern cleanup, the "Knights of Degen" card import, and the merge step of the discovery route.

The Dafny modules follow the program's own structure:

| module | file | models |
|---|---|---|
| `Wrappers` | wrappers.dfy | `Option`, `Result`, and `Field<T>`, where `Field<T>` is `Absent` / `Null` / `Present(v)`. These stand for a JSON key that is undefined, null or set. |
| `Text` | text.dfy | the JavaScript string built-ins the routes use: `trim`, `toLowerCase`, `includes`, `startsWith`, `parseInt` and `String(n)` |
| `Tables` | tables.dfy | SQL over one table held as a sequence in insertion order: `WHERE`, `UPDATE ... WHERE key = k`, `ORDER BY ... DESC`, and serial primary keys |
| `Schema` | schema.dfy | the tables, enums and schemas of schema.ts: rows, request bodies, column defaults, NOT NULL checks, insert/update row semantics, and the zod schemas |
| `Storage` | storage.dfy | every `DatabaseStorage` method of storage.ts, as a transition `Store -> Store x result` |
| `Auth` | auth.dfy | `setupAuth`, `requireAuth` and `requireMaster` of auth.ts |
| `Routes` | routes.dfy | the handlers of routes.ts, lines 11-223, as transitions `Store x Session x request -> Store x Session x Response` |
| `Maintenance` | maintenance.dfy | cleanup, import and the discovery merge of routes.ts, lines 397-747 |

The database is a `Store` value: the three tables as sequences plus the next value of each serial sequence. `Storage.Valid` is what the database guarantees of every reachable state:

- the ids of each table increase along it and lie below the sequence's next value;
- usernames are unique.

Every write is proved to preserve `Valid`.

Several things the program takes from outside become parameters:

- the clock, as `now: Timestamp`; only the order of timestamps matters to the server, so they are integers;
- bcrypt's `hash` and `compare`;
- the image fetch;
- the lists produced by the scraping modules.

Two column types matter to which writes succeed:

- every `integer` column is a PostgreSQL int4, so a number outside -2^31 .. 2^31-1 fails when the statement's parameters are bound, before any row is read;
- `username` is `varchar(255)`: a longer value fails unless the excess is spaces, which are cut.

drizzle refuses to build an `UPDATE` whose `SET` list is empty. So a session-log PATCH that sets nothing fails with 500 even for an unknown id.

A query parameter repeated in the URL (`?q=a&q=b`) reaches the handler as an array, not a string. `trim` and `startsWith` then throw, and the route answers 500.

## Model

| member | source | states |
|---|---|---|
| Text.Trim | routes.ts:77-81 | `query.trim()` is empty exactly when the query is all white space. Otherwise it is the query with only white space cut from both ends, and it starts and ends with a non-space character. |
| Text.TrimIdempotent | routes.ts:78-81 | Trimming an already trimmed query changes nothing, so the handler's second `trim()` agrees with the test before it. |
| Text.ToLower | storage.ts:94 | `toLowerCase` keeps the length, lowers each character, and leaves no upper-case ASCII letter. |
| Text.ToLowerIdempotent | storage.ts:94 | Lowering an already lowered query changes nothing. |
| Text.Contains | storage.ts:100-103 | `LIKE '%q%'` matches every text when `q` is empty, no text shorter than `q`, and every text that starts with `q`. |
| Text.ContainsInfix | storage.ts:100-103 | A text matches `'%q%'` whatever surrounds `q` in it. |
| Text.ContainsLowered | storage.ts:94-103 | If a column holds the lowered query as written, the lowered column holds it too. |
| Text.StartsWith | routes.ts:191 | `startsWith` holds exactly when the text is at least as long as the prefix and agrees with it character by character. |
| Text.StartsWithAppend | routes.ts:191 | Any URL built as the origin followed by a path starts with the origin. |
| Text.ParseInt | routes.ts:91 | `parseInt` gives `NaN` on a blank string. A number needs a sign or digit first after leading white space, and a negative number needs a minus sign. |
| Text.ParseIntStopsAtNonDigit | routes.ts:91 | `parseInt` reads an integer's decimal spelling as that integer, even when other non-digit characters follow it. |
| Text.ParseIntRoundTrip | routes.ts:91 | `parseInt` reads the decimal spelling of any integer back as that integer. |
| Tables.Find | storage.ts:45-53 | `const [row] = select ... where key = k` is a stored row with key `k`. It is undefined exactly when no row has that key. |
| Tables.Filter | storage.ts:85-91 | A `WHERE` keeps exactly the rows that satisfy the condition, and never more rows than the table has. |
| Tables.FilterMultiset | storage.ts:85-91 | A `WHERE` keeps every copy of each row that passes, and none of the others. |
| Tables.SortDesc | storage.ts:81-83 | `ORDER BY ... DESC` returns the same rows, as a multiset, largest key first. |
| Tables.UpdateWhere | storage.ts:163-167 | `UPDATE ... WHERE id = k` rewrites every row with key `k`, keeps every other row, and keeps their order. |
| Tables.AppendSerial | schema.ts:7 | An insert that takes the sequence's next value keeps the `serial` key increasing and below the sequence. |
| Tables.UpdateWhereSerial | storage.ts:157-169 | An update that does not touch the key keeps the table serial. |
| Tables.FilterSerial | storage.ts:171-178 | A delete keeps the table serial. |
| Tables.FindAppendFresh | storage.ts:76-79 | After inserting a row with a new key, looking up that key finds the row, and every other lookup is unchanged. |
| Tables.FindUpdateWhere | storage.ts:157-169 | A key-preserving update leaves the lookup of every other key unchanged. |
| Tables.CountUniqueKey | schema.ts:8 | Under a UNIQUE column, exactly one row or none holds a given value. |
| Schema.VarChar | schema.ts:8 | A `varchar(255)` value is stored unchanged when it fits. A longer one fails exactly when a non-space lies past the limit; otherwise the stored value is exactly its first 255 characters, with only spaces cut. |
| Schema.ParseItemType | schema.ts:140-155 | Parsing an item type accepts exactly the five listed names, and gives back a value whose name is the input. |
| Schema.ParseRarity | schema.ts:147 | Parsing a rarity accepts exactly the five listed rarities, and gives back a value whose name is the input. |
| Schema.ParseBattleResult | schema.ts:109-113 | Parsing a battle result accepts exactly "Won", "Lost" and "Fled", and gives back a value whose name is the input. |
| Schema.EnumRoundTrips | schema.ts:109-155 | Each enum value's name parses back to that value. |
| Schema.InsertCharacterRow | schema.ts:26-124 | Inserting a character fails exactly when a NOT NULL column without a default is missing, a NOT NULL column is null, or a number leaves int4; the range is checked first. A stored row carries the serial id, the given identity and timestamps, and only int4 numbers. |
| Schema.CharacterColumnDefaultsApply | schema.ts:34-121 | Columns the insert omits take their declared defaults. |
| Schema.InsertSessionLogRow | schema.ts:127-137 | Inserting a log fails exactly on a missing or null NOT NULL column or a number outside int4. Otherwise the defaults apply: xp 0, tags `[]`, duration null. |
| Schema.InsertCharacterSchemaMatchesTable | schema.ts:158-162 | `insertCharacterSchema.parse` (Schema.ParseInsertCharacter) accepts a body exactly when the table stores it once the id and both timestamps are added. Parsing only strips keys the server sets, so the stored row is the same. |
| Schema.InsertSessionLogSchemaMatchesTable | schema.ts:165-168 | `insertSessionLogSchema.parse` (Schema.ParseInsertSessionLog) accepts a log body exactly when the table stores it once the id and `createdAt` are added, and the stored row is the same. |
| Schema.UpdateSchemasArePartial | schema.ts:171-172 | Every body the insert schema accepts, the update schema (Schema.ParseUpdateCharacter, Schema.ParseUpdateSessionLog) accepts with the same result. |
| Storage.GetUser | storage.ts:45-48 | Returns a stored user with that id, or nothing exactly when no user has it. |
| Storage.GetUserByUsername | storage.ts:50-53 | Returns a stored user with that username, or nothing exactly when no user has it. |
| Storage.CreateUser | storage.ts:55-65 | Succeeds exactly when the username fits `varchar(255)`, the stored form of it is free, and neither role nor `createdAt` is null. The row stores `hash(password)`, the stored username, the role defaulting to "readonly", and `createdAt` defaulting to now. A failure changes nothing, and reports an over-long username first, then a null column, then a taken username. Consistency is preserved. |
| Storage.ValidateUser | storage.ts:67-73 | Returns a user exactly when the account with that username exists and `compare` accepts the password against its stored hash. |
| Storage.InitializeDefaultUser | storage.ts:32-42 | Afterwards "master" exists. If it already existed nothing changed; otherwise exactly the account master/hash("password")/master was appended. |
| Storage.InitializeDefaultUserIdempotent | storage.ts:32-42 | Running the bootstrap twice, with any hash or clock, is running it once. |
| Storage.InitializeDefaultUserSingleMaster | storage.ts:32-42 | In a consistent store, exactly one account is named "master" after the bootstrap. |
| Storage.GetCharacter | storage.ts:76-79 | Returns the stored character with that id, or nothing exactly when none has it. |
| Storage.GetCharacters | storage.ts:81-83 | Returns every character, a permutation of the table, most recently active first. |
| Storage.GetCharactersByPlayer | storage.ts:85-91 | Returns exactly the characters with that player name, each as often as stored, most recently active first. |
| Storage.SearchCharacters | storage.ts:93-107 | As written: returns exactly the characters where the lower-cased query occurs in the name, player name, class or non-null faction, compared case-sensitively, each as often as stored, most recently active first. |
| Storage.SearchIsCaseSensitive | storage.ts:93-107 | A character named "Alice" is not found by the query "Alice" as written, and is found by the corrected search. |
| Storage.SearchCharactersIgnoringCase | storage.ts:93-107 | Corrected: returns exactly the characters where the lowered query occurs in a lowered searched column, each as often as stored, most recently active first. |
| Storage.SearchIgnoringCaseLowersQuery | storage.ts:94 | The corrected search gives the same answer for a query and its lower-case form. |
| Storage.SearchIgnoringCaseExtendsSearch | storage.ts:93-107 | Every character the search as written finds, the corrected search finds. |
| Storage.SearchIgnoringCaseFindsName | storage.ts:93-107 | A character whose name equals the query up to case is found. |
| Storage.CreateCharacterValues | storage.ts:112-143 | The object `createCharacter` builds lacks or nulls a required column exactly when one of name, player name and class is not given. Its numbers fit int4 exactly when the supplied ones it forwards do. It has no id and carries `now` in both timestamps. |
| Storage.CreateCharacter | storage.ts:109-155 | Succeeds exactly when name, player name and class are given and every forwarded number fits int4. The new row takes the next id, the identity keys and `now` twice, holds only int4 numbers, and is appended. A failure leaves the store as it was, with the fixed error "Failed to create character". |
| Storage.CreateCharacterDefaults | storage.ts:116-140 | Each `??` default in a created row: a supplied value is kept even if it is 0 or ""; otherwise 1/0/1000/0 progression, 50 per core stat, "N/A", "unknown", empty collections, and null texts. |
| Storage.CreateCharacterDropsFields | storage.ts:112-143 | The keys `createCharacter` does not forward have no effect on the result. Those columns hold their column defaults. |
| Storage.InsertSchemaPreventsCreateFailure | schema.ts:158-162 | A body the insert schema accepts always creates a character, before or after parsing. |
| Storage.UpdateSchemaPreventsUpdateFailure | schema.ts:171 | A body the update schema accepts never makes `updateCharacter` fail. |
| Storage.CharacterUpdateSet | storage.ts:158-161 | The `SET` object of `updateCharacter` has no id or `createdAt` and has `lastActive = now`. It nulls a NOT NULL column exactly when the patch does outside those two keys, and its numbers fit int4 exactly when the patch's do. |
| Storage.UpdateCharacter | storage.ts:157-169 | A number outside int4 fails before any row is read. Otherwise an unknown id gives "not found" and no change, and a null in a NOT NULL column is a violation with no change. Otherwise the row keeps `id` and `createdAt`, gets `lastActive = now`, follows the patch elsewhere, and no other row or table changes. |
| Storage.UpdateCharacterSchemaMatchesUpdate | storage.ts:157-169 | For a stored character, `updateCharacter` succeeds exactly when the update schema accepts the patch. |
| Storage.PatchedCharacter | storage.ts:158-161 | The stripped `id` and `createdAt` survive any patch, `lastActive` becomes `now`, and every other column follows the patch. |
| Storage.DeleteCharacter | storage.ts:171-178 | Removes the character and all its logs, and nothing else. Reports whether a character was removed. Afterwards the id finds nothing. |
| Storage.GetSessionLogs | storage.ts:181-187 | Returns exactly that character's logs, each as often as stored, newest first. |
| Storage.FindSessionLog | storage.ts:208-223 | Returns the log with that primary key, or nothing exactly when none has it. |
| Storage.CreateSessionLogValues | storage.ts:190-199 | The object `createSessionLog` builds lacks or nulls a required column exactly when one of the four required keys is not given. Its numbers fit int4 exactly when the body's do, and it is stamped `now`. |
| Storage.CreateSessionLog | storage.ts:189-206 | Succeeds exactly when the four required keys are given and both numbers fit int4. The log takes the next id, `now`, and the `??` defaults. A failure is "out of range" when a number does not fit, otherwise a NOT NULL violation, and changes nothing. Nothing checks that the character exists. |
| Storage.UpdateSessionLog | storage.ts:208-218 | A patch that sets nothing fails, then a number outside int4 fails, both before any row is read. Then an unknown id gives "not found" and no change, and a null in a NOT NULL column is a violation. Only `id` is protected, so `createdAt` and `characterId` can be rewritten. No other log changes. |
| Storage.UpdateSessionLogSchemaMatchesUpdate | storage.ts:208-218 | For a stored log, `updateSessionLog` succeeds exactly when the update schema accepts the patch, the patch does not null `createdAt`, and it sets something. |
| Storage.EmptyLogPatchPassesSchemaButFails | storage.ts:208-218 | `{}` passes the log update schema, yet `updateSessionLog` with it fails. |
| Storage.SessionLogSchemasPreventFailure | schema.ts:165-172 | A log body the insert schema accepts is always stored; one the update schema accepts is always written unless it sets nothing. |
| Storage.DeleteSessionLog | storage.ts:220-223 | Removes exactly that log, reports whether it existed, and touches nothing else. |
| Auth.RequireAuth | auth.ts:37-50 | Passes exactly when the session's truthy id names a stored user. Without an id: 401 "Authentication required" and the session is kept. With a stale id: 401 "Invalid session" and the session is destroyed. |
| Auth.RequireMaster | auth.ts:52-60 | Passes exactly when that stored user has role "master". A non-live session gets `requireAuth`'s answer; a live non-master gets 403 "Master access required". |
| Auth.RequireMasterStatuses | auth.ts:37-60 | A refusal is 401 or 403. Unauthenticated requests always get 401. A 403 goes exactly to live users who are not masters. |
| Auth.RoleSourceIsStore | auth.ts:52-60 | The gates ignore the role cached in the session: a stale "master" there cannot open a master route. |
| Auth.ZeroIdNamesNoUser | auth.ts:38 | In a consistent store, the truthiness test on id 0 loses nothing. |
| Auth.SetupAuth | auth.ts:14-35 | Store TTL and cookie max age are both one week in ms. The secret falls back to the default when unset or empty. The cookie is HTTP-only and not secure, with no resave and no saveUninitialized. |
| Routes.Authenticated | auth.ts:37-50 | A route behind `requireAuth` runs its handler exactly for live sessions. Otherwise it answers 401 and the store is unchanged. |
| Routes.MasterOnly | auth.ts:52-60 | A route behind `requireMaster` runs its handler exactly for master sessions. Otherwise the store is unchanged: a non-live session gets 401 and `requireAuth`'s session, a live non-master 403. |
| Routes.IdParam | routes.ts:91 | An id reaches the query exactly when `parseInt` reads a number that fits int4, and then it is that number. |
| Routes.IdParamRoundTrip | routes.ts:91 | Every int4 id, written in decimal, reaches the query as itself. |
| Routes.Login | routes.ts:11-34 | Bad credentials give 401 "Invalid credentials" and leave the session alone. Good credentials store id and role in the session and answer with the public account, never the hash. |
| Routes.Logout | routes.ts:36-40 | Destroys the session and answers "Logged out". |
| Routes.AuthStatus | routes.ts:42-61 | Unauthenticated without an id. A stale id destroys the session. Otherwise authenticated, with the stored public account. |
| Routes.AuthStatusAgreesWithRequireAuth | routes.ts:42-61 | The status route reports "authenticated" exactly when `requireAuth` would pass, and both leave the same session. |
| Routes.LoginOpensSession | routes.ts:11-61 | After a successful login, the status route reports the same account and `requireAuth` passes with it. |
| Routes.LogoutClosesSession | routes.ts:36-40 | After logout, every gated route answers 401 "Authentication required". |
| Routes.ListCharactersHandler | routes.ts:64-72 | Answers 200 with every character, most recently active first. |
| Routes.ListCharacters | routes.ts:64-72 | Answers 200 exactly for a live session, otherwise 401, and the store never changes. A live session keeps its session and gets every character, each as often as stored, most recently active first. |
| Routes.SearchHandler | routes.ts:75-87 | A missing or blank query answers `[]`. A repeated query key answers 500 "Failed to search characters". Any other query answers 200, most recently active first, with exactly the characters whose searched columns hold the lowered trimmed query as stored (case-sensitively, as `searchCharacters` does). |
| Routes.Search | routes.ts:75-87 | A live session gets the search handler's answer, any other 401; the store never changes. |
| Routes.SearchBlankIgnoresStore | routes.ts:78-80 | A blank query gets `[]` whatever the database holds. |
| Routes.SearchIgnoresPadding | routes.ts:77-81 | A query is answered the same with or without surrounding white space. |
| Routes.SearchFindsCharacterByName | routes.ts:75-87 | A character is found when its stored name holds the trimmed query in lower case. |
| Routes.SearchRouteIsCaseSensitive | routes.ts:75-87 | As written, the route answers `[]` to "Alice" for a character stored as "Alice"; the corrected route answers with that character. |
| Routes.SearchHandlerIgnoringCase | routes.ts:75-87 | Corrected route: the same guards and answers, with exactly the characters the corrected search finds for the trimmed query. |
| Routes.SearchHandlerIgnoringCaseExtends | routes.ts:75-87 | The corrected route gives the same status and the same non-list answers as the route as written, and finds every character it finds. |
| Routes.SearchIgnoringCaseFindsCharacterByName | routes.ts:75-87 | With the corrected route, a character is found by its name typed in any case and with any surrounding white space. |
| Routes.GetCharacterHandler | routes.ts:89-100 | An unusable id gives 500, an unknown id 404, a known id the row. |
| Routes.GetCharacterRoute | routes.ts:89-100 | A live session gets the handler's answer and keeps its session, any other 401; the store never changes. |
| Routes.CreateCharacterHandler | routes.ts:102-112 | Answers 201 exactly when the three identity keys are present and the forwarded numbers fit int4, with the appended row. Otherwise 500 with "Failed to create character" and no change. |
| Routes.CreateCharacterRoute | routes.ts:102-112 | Answers 201 exactly for a master session and a creatable body, and then the store holds the new row at the next id. Any other answer leaves the store unchanged. A master gets the handler's exchange with the session kept. |
| Routes.PatchCharacterHandler | routes.ts:114-125 | An unusable id or a number outside int4 gives 500, and otherwise an unknown id gives 404. For a stored character the answer is 200 exactly when the update schema accepts the patch, with the row `updateCharacter` wrote. 404 goes only to an unknown id, so a stored row whose patch fails answers 500. Only 200 changes the store. |
| Routes.PatchCharacterRoute | routes.ts:114-125 | Non-masters get 401 or 403 and change nothing. A master gets the handler's answer and store with the session kept. |
| Routes.DeleteCharacterHandler | routes.ts:127-138 | 200 exactly when the character existed, else 404. The delete runs in both cases. An unusable id gives 500. |
| Routes.DeleteCharacterRoute | routes.ts:127-138 | Non-masters get 401 or 403 and change nothing. A master gets the handler's delete and its answer with the session kept. |
| Routes.ByPlayerHandler | routes.ts:215-223 | Returns exactly the characters of that player name, each as often as stored, most recently active first. |
| Routes.ByPlayer | routes.ts:215-223 | Answers 200 exactly for a live session, otherwise 401, and the store never changes. A live session keeps its session and gets exactly that player's characters. |
| Routes.CreatedCharacterIsFetchable | routes.ts:89-112 | A master's create succeeds exactly for a creatable body, and then the same session fetches the new character back by its id. |
| Routes.DeletedCharacterIsGone | routes.ts:89-138 | A master deleting a stored character gets 200 "Character deleted", and fetching the same id afterwards answers 404. |
| Routes.ListLogsHandler | routes.ts:141-149 | Returns exactly that character's logs, newest first; an unusable id gives 500. |
| Routes.ListLogs | routes.ts:141-149 | A live session gets the handler's answer, any other 401; the store never changes. |
| Routes.CreateLogHandler | routes.ts:151-159 | Answers 201 exactly when the four required keys are present and both numbers fit int4, with the appended log; otherwise 500 and no change. |
| Routes.CreateLog | routes.ts:151-159 | Answers 201 exactly for a master session and such a body, and then the store holds the new log at the next id. Any other answer leaves the store unchanged. A master gets the handler's exchange with the session kept. |
| Routes.PatchLogHandler | routes.ts:161-172 | An unusable id, a patch that sets nothing or a number outside int4 gives 500, and otherwise an unknown id gives 404. For a stored log the answer is 200 exactly when the update schema accepts the patch, it keeps `createdAt` non-null and it sets something, with the log written. 404 goes only to an unknown id, so a stored log whose patch fails answers 500. Only 200 changes the store. |
| Routes.PatchLog | routes.ts:161-172 | Non-masters get 401 or 403 and change nothing. A master gets the handler's answer and store with the session kept. |
| Routes.DeleteLogHandler | routes.ts:174-185 | 200 exactly when the log existed, else 404 and the logs unchanged. |
| Routes.DeleteLog | routes.ts:174-185 | Non-masters get 401 or 403 and change nothing. A master gets the handler's delete and its answer with the session kept. |
| Routes.ProxyImage | routes.ts:188-213 | A missing, empty or foreign URL gets 400 and a repeated `url` key 500, both before any fetch. The answer is 200 exactly for an allowed URL whose fetch succeeds, and then it relays the fetched content type and bytes. For an allowed URL, a fetch that throws gets 500 "Failed to proxy image" and a non-2xx answer gets 404 "Image not found". |
| Routes.ProxyGuardPrecedesFetch | routes.ts:190-193 | A refused URL gets the same answer whatever the network would return. |
| Maintenance.ShouldDelete | routes.ts:720-723 | The cleanup never deletes a spared name. It deletes every name containing "Knights of Degen" and every name starting with "Knight " that is not spared, and no other name. |
| Maintenance.SparedNamesNeverDecide | routes.ts:720-723 | None of the spared names starts with "Knight ", so the exception list never changes a decision. |
| Maintenance.Cleanup | routes.ts:716-732 | Exactly the characters whose name matches the cleanup pattern are removed, with all their logs. Users and every other row stay. The count is the number of targets. Consistency is preserved. |
| Maintenance.CleanupRoute | routes.ts:714-747 | Master only; non-masters change nothing. Reports the number of deleted targets. |
| Maintenance.ImportKnights | routes.ts:667-694 | Each card with a verified image (a truthy URL other than the placeholder: Maintenance.HasVerifiedImage) is counted as imported or skipped. Only characters are appended, never two under one name, never under a name already stored (Maintenance.NameTaken), and each from a card. Afterwards every creatable card's name is stored. |
| Maintenance.ImportRoute | routes.ts:656-711 | Master only. `imported + skipped` is the number of verified cards, and `total` is the number of all cards. |
| Maintenance.MergeDiscoveries | routes.ts:406-415 | The result is the expanded list followed by the pattern entries with an image not seen before, in order, each image once. Every pattern image ends up covered. |
| Maintenance.UnseenFresh | routes.ts:410-415 | Each appended entry comes from the pattern list and brings an image not seen before. |
| Maintenance.UnseenCovers | routes.ts:410-415 | Every pattern entry's image is either already seen or taken. |
| Maintenance.DiscoveryBody | routes.ts:417-435 | The report succeeds exactly when the merged list is non-empty, and then lists it with its length and both source counts. Otherwise it fails and lists the expanded entries. |
| Maintenance.DiscoveryRoute | routes.ts:397-445 | Master only, and writes nothing. Success exactly when either source found something, then with the merged list. Otherwise failure with an empty list. |

## Findings

| source | as written | input that shows it | evidently intended | confidence | as-written member | corrected member |
|---|---|---|---|---|---|---|
| storage.ts:93-107 | The query is lowered (`lowercaseQuery`) and matched with `LIKE`, which is case-sensitive, against columns that are not lowered. | A character named "Alice" and the query "Alice": the pattern is `%alice%`, which "Alice" does not match, so the search returns `[]`. | A case-insensitive search: the lowered query matched against lowered columns, as `ilike` does. | not executed | Storage.SearchCharacters, Storage.SearchIsCaseSensitive, Routes.SearchRouteIsCaseSensitive | Storage.SearchCharactersIgnoringCase, Storage.SearchIgnoringCaseFindsName, Routes.SearchHandlerIgnoringCase |

The search route, `Routes.SearchHandler` and `Routes.Search`, keeps the search as written, since that is what the server answers. The corrected route is `Routes.SearchHandlerIgnoringCase`, and `Routes.SearchHandlerIgnoringCaseExtends` relates the two.

## Left out

- The 500 paths that come from a failing database connection or network call are left out. This covers `login` ("Login failed"), list, by-player, log listing, and the top-level catches of import, cleanup and discovery. The storage calls are total here. The modelled failures are the constraint violations, numbers outside int4, an over-long username, an empty log `SET`, an unusable id, and a repeated query key.
- Storage.SearchCharacters: `%`, `_` and `\` in the query are matched as ordinary characters, not as `LIKE` wildcards and escape. The same holds for Storage.SearchCharactersIgnoringCase, Routes.SearchHandler and Routes.SearchHandlerIgnoringCase.
- Text.ToLower: `toLowerCase` is modelled for ASCII letters only.
- Storage.CreateUser: a caller-supplied `id` in the spread of `userData` is not modelled. The id always comes from the sequence. No route calls `createUser`.
- Storage.CreateUser: the length limit counts list elements. PostgreSQL counts characters, which agrees only for text without surrogate pairs.
- Storage.CreateCharacter: the serial sequences are unbounded here. The int4 ceiling of a `serial` column is not modelled, which also holds for Storage.CreateUser, Storage.CreateSessionLog and Storage.InitializeDefaultUser.
- Routes.CreateCharacterHandler: request bodies carry typed values. A fractional number or a value of the wrong JSON type for a column is not modelled, nor in Routes.CreateLogHandler, Routes.PatchCharacterHandler and Routes.PatchLogHandler.
- Schema.ParseInsertCharacter: the zod schemas are modelled on drizzle-zod 0.6 and later, where an `integer` column becomes a number bounded to int4. Earlier versions accept any number. The same holds for the other three schemas.
- Routes.IdParam: JavaScript numbers are unbounded integers here. A `parseInt` result outside int32, or one that is `NaN`, is taken to make the query fail. Numbers too large to be exact doubles are not modelled.
- Storage.CreateCharacter: a failed insert does not consume a value of the serial sequence, unlike PostgreSQL.
- Storage.CreateSessionLog: a failed insert leaves `nextLogId` unchanged, while PostgreSQL advances `session_logs_id_seq` even when NOT NULL or the int4 range fails.
- Storage.CreateUser: a failed insert leaves `nextUserId` unchanged, while PostgreSQL advances `users_id_seq` even when NOT NULL or UNIQUE fails.
- Maintenance.ImportKnights: one `now` stamps every character created by one import run. In the original, the clock advances between creates.
- Maintenance.Cleanup requires a consistent store, so ids are unique. It is not stated for stores the database could not hold.
- The scraping routes are outside the model. These are `knights-images`, `discover-knights-api` and `auto-discover-knights`. Also outside is the scraping inside discovery, which uses dynamic imports and HTTP. Their outputs are the `expanded` / `pattern` / `knights` inputs.
- The session store is not modelled: the session table schema, connect-pg-simple, and cookie signing. The `ttl` option is modelled as the value passed. Which unit the store library reads it in is not modelled.
- Express route ordering is not modelled. `GET /api/characters/search` is registered before `/:id` and is modelled as its own route.
- The proxy's response headers are not modelled: `Content-Type`, CORS and `Cache-Control`.
- Request logging via `console.*` is not modelled.
- The login body is taken as two strings. A missing `username` or `password` ends in the untaken 500 path.
- `requireAuth`'s own storage errors are not modelled.
- The client hooks (`use-auth`, `use-characters`) are callers of the API and are not part of this model.

=== FILE: auth.dfy ===
/** The authentication layer: the session record, the session settings,
    and the two gates every protected route runs before its handler. */
module Auth {
  import opened Wrappers
  import opened Tables
  import opened Schema
  import opened Storage

  /** The server-side session: the id and role written at login. */
  datatype Session = Session(userId: Option<int>, userRole: Option<string>)

  /** A session with nothing in it: a fresh one, or one after `destroy`. */
  const NoSession: Session := Session(None, None)

  /** `req.session.userId` is truthy: present and not 0. */
  predicate HasUserId(sess: Session) {
    sess.userId.Some? && sess.userId.value != 0
  }

  /** What a gate decides: answer with `status` and `message` and stop, or
      call the next handler once with the loaded user attached. */
  datatype Gate = Deny(status: int, message: string) | Allow(user: User)

  /** A gate's decision together with the session it leaves behind. */
  datatype Checked = Checked(session: Session, gate: Gate)

  /** The user a session stands for: its id resolves to a stored user. */
  predicate LiveSession(s: Store, sess: Session) {
    HasUserId(sess) && GetUser(s, sess.userId.value).Some?
  }

  /** `requireAuth`. With no user id it answers 401 "Authentication required"
      without reading storage or touching the session; with an id that no
      longer names a user it destroys the session and answers 401 "Invalid
      session"; otherwise it lets the request through with the stored user. */
  function RequireAuth(s: Store, sess: Session): (r: Checked)
    ensures r.gate.Allow? <==> LiveSession(s, sess)
    ensures r.gate.Allow? ==> r.session == sess && r.gate.user in s.users && r.gate.user.id == sess.userId.value
    ensures !HasUserId(sess) ==> r == Checked(sess, Deny(401, "Authentication required"))
    ensures HasUserId(sess) && !LiveSession(s, sess) ==> r == Checked(NoSession, Deny(401, "Invalid session"))
  {
    if !HasUserId(sess) then Checked(sess, Deny(401, "Authentication required"))
    else
      match GetUser(s, sess.userId.value)
      case None => Checked(NoSession, Deny(401, "Invalid session"))
      case Some(user) => Checked(sess, Allow(user))
  }

  /** The session stands for a stored user whose role is "master". */
  predicate MasterSession(s: Store, sess: Session) {
    LiveSession(s, sess) && GetUser(s, sess.userId.value).value.role == "master"
  }

  /** `requireMaster`: `requireAuth`, then 403 "Master access required"
      unless the user just loaded has role "master". */
  function RequireMaster(s: Store, sess: Session): (r: Checked)
    ensures r.gate.Allow? <==> MasterSession(s, sess)
    ensures r.gate.Allow? ==> r.gate.user.role == "master" && r.session == sess
    ensures !LiveSession(s, sess) ==> r == RequireAuth(s, sess)
    ensures LiveSession(s, sess) && !MasterSession(s, sess) ==> r == Checked(sess, Deny(403, "Master access required"))
  {
    match RequireAuth(s, sess)
    case Checked(sess', Deny(status, message)) => Checked(sess', Deny(status, message))
    case Checked(sess', Allow(user)) =>
      if user.role != MasterRole then Checked(sess', Deny(403, "Master access required"))
      else Checked(sess', Allow(user))
  }

  /** An unauthenticated request is refused with 401, never 403; a 403 goes
      only to a live user who is not a master. */
  lemma RequireMasterStatuses(s: Store, sess: Session)
    ensures RequireMaster(s, sess).gate.Deny? ==> RequireMaster(s, sess).gate.status in {401, 403}
    ensures !LiveSession(s, sess) ==> RequireMaster(s, sess).gate == RequireAuth(s, sess).gate
    ensures !LiveSession(s, sess) ==> RequireMaster(s, sess).gate.status == 401
    ensures RequireMaster(s, sess).gate == Deny(403, "Master access required") <==>
            RequireAuth(s, sess).gate.Allow? && RequireAuth(s, sess).gate.user.role != "master"
  {
  }

  /** The gates read the role of the stored user, never the role cached in
      the session: the decision is the same whatever `userRole` holds, so a
      stale "master" in the session cannot open a master route. */
  lemma RoleSourceIsStore(s: Store, sess: Session, cached: Option<string>)
    ensures RequireAuth(s, sess.(userRole := cached)).gate == RequireAuth(s, sess).gate
    ensures RequireMaster(s, sess.(userRole := cached)).gate == RequireMaster(s, sess).gate
    ensures sess.userRole == Some("master") && LiveSession(s, sess)
            && GetUser(s, sess.userId.value).value.role != "master"
            ==> RequireMaster(s, sess).gate == Deny(403, "Master access required")
  {
  }

  /** In a consistent store the truthiness test on the id loses nothing:
      id 0 names no user, so a session passes `requireAuth` exactly when its
      id, if any, names a stored user. */
  lemma ZeroIdNamesNoUser(s: Store, sess: Session)
    requires Valid(s)
    ensures RequireAuth(s, sess).gate.Allow? <==> sess.userId.Some? && GetUser(s, sess.userId.value).Some?
  {
  }

  // -----------------------------------------------------------------------
  // session settings
  // -----------------------------------------------------------------------

  /** One week, in milliseconds. */
  const SessionTtl: int := 7 * 24 * 60 * 60 * 1000

  const DefaultSessionSecret: string := "demplar-character-manager-secret"

  /** The options `setupAuth` hands to the session store and middleware. */
  datatype SessionSettings = SessionSettings(
    storeTtl: int, storeTable: string, createTableIfMissing: bool,
    secret: string, resave: bool, saveUninitialized: bool,
    cookieHttpOnly: bool, cookieSecure: bool, cookieMaxAge: int)

  /** `setupAuth`: the same one-week value for the store TTL and the cookie
      lifetime, the secret from the environment unless it is unset or empty,
      an HTTP-only cookie, and no session saved before login. */
  function SetupAuth(secretEnv: Option<string>): (r: SessionSettings)
    ensures r.storeTtl == r.cookieMaxAge == 604800000
    ensures r.secret == (if secretEnv.Some? && secretEnv.value != "" then secretEnv.value
                         else "demplar-character-manager-secret")
    ensures r.secret != ""
    ensures r.storeTable == "sessions" && r.createTableIfMissing
    ensures r.cookieHttpOnly && !r.cookieSecure && !r.resave && !r.saveUninitialized
  {
    var secret := if secretEnv.Some? && secretEnv.value != "" then secretEnv.value else DefaultSessionSecret;
    SessionSettings(SessionTtl, "sessions", true, secret, false, false, true, false, SessionTtl)
  }
}

=== FILE: maintenance.dfy ===
/** The three master-only batch routes that rewrite the roster: the name
    cleanup, the import of the scraped "Knights of Degen" cards, and the
    merge of two discovery lists by image URL. The scrapers themselves are
    outside the model; their outputs are inputs here. */
module Maintenance {
  import opened Wrappers
  import opened Text
  import opened Tables
  import opened Schema
  import opened Storage
  import opened Auth
  import opened Routes

  // -----------------------------------------------------------------------
  // POST /api/characters/cleanup
  // -----------------------------------------------------------------------

  /** Names the cleanup is told to spare. */
  const SparedNames: seq<string> := ["Alex", "JayFeezy", "Rangiku", "Fork Knight", "Sparrow"]

  /** The cleanup's test on a name: it mentions "Knights of Degen", or it
      starts with "Knight " and is not one of the spared names. */
  function ShouldDelete(name: string): (r: bool)
    ensures name in SparedNames ==> !r
    ensures StartsWith(name, "Knights of Degen") ==> r
    ensures Contains(name, "Knights of Degen") ==> r
    ensures StartsWith(name, "Knight ") && name !in SparedNames ==> r
    ensures !Contains(name, "Knights of Degen") && !StartsWith(name, "Knight ") ==> !r
  {
    || Contains(name, "Knights of Degen")
    || (StartsWith(name, "Knight ") && name !in SparedNames)
  }

  /** None of the spared names starts with "Knight ", so sparing them never
      changes the decision: the test is just the two name patterns. */
  lemma SparedNamesNeverDecide(name: string)
    ensures ShouldDelete(name) <==> Contains(name, "Knights of Degen") || StartsWith(name, "Knight ")
  {
    assert !StartsWith("Fork Knight", "Knight ") by {
      assert "Fork Knight"[0] == 'F';
    }
    assert !StartsWith("JayFeezy", "Knight ") by {
      assert "JayFeezy"[0] == 'J';
    }
    assert !StartsWith("Rangiku", "Knight ") by {
      assert "Rangiku"[0] == 'R';
    }
    assert !StartsWith("Sparrow", "Knight ") by {
      assert "Sparrow"[0] == 'S';
    }
  }

  function IsCleanupTarget(c: Character): bool { ShouldDelete(c.name) }

  /** The ids of the characters the cleanup removes. */
  function DoomedIds(t: seq<Character>): set<int> {
    set c | c in t && IsCleanupTarget(c) :: c.id
  }

  /** The ids of the targets among the first `i` rows of `snapshot`. */
  function Swept(snapshot: seq<Character>, i: int): set<int>
    requires 0 <= i <= |snapshot|
  {
    set j | 0 <= j < i && IsCleanupTarget(snapshot[j]) :: snapshot[j].id
  }

  /** The store after sweeping the first `i` rows of `snapshot` from `s`:
      still consistent, the same users, and exactly the characters and logs
      whose (character) id was not swept. */
  ghost predicate SweptState(s: Store, cur: Store, snapshot: seq<Character>, i: int)
    requires 0 <= i <= |snapshot|
  {
    && Valid(cur) && cur.users == s.users
    && (forall c :: c in cur.characters <==> c in s.characters && c.id !in Swept(snapshot, i))
    && (forall l :: l in cur.logs <==> l in s.logs && l.characterId !in Swept(snapshot, i))
  }

  /** One more row of the snapshot adds its id when it is a target; with
      unique ids that id was not swept before. */
  lemma SweptNext(snapshot: seq<Character>, i: int)
    requires 0 <= i < |snapshot|
    requires UniqueKeys(snapshot, CharacterId)
    ensures Swept(snapshot, i + 1) == Swept(snapshot, i) + (if IsCleanupTarget(snapshot[i]) then {snapshot[i].id} else {})
    ensures snapshot[i].id !in Swept(snapshot, i)
  {
  }

  /** Deleting the next target of the sweep removes a row that is still
      there, and extends the swept ids by its id. */
  lemma SweepDelete(s: Store, cur: Store, snapshot: seq<Character>, i: int)
    requires 0 <= i < |snapshot| && IsCleanupTarget(snapshot[i])
    requires snapshot[i] in s.characters
    requires snapshot[i].id !in Swept(snapshot, i)
    requires Swept(snapshot, i + 1) == Swept(snapshot, i) + {snapshot[i].id}
    requires forall c :: c in cur.characters <==> c in s.characters && c.id !in Swept(snapshot, i)
    requires forall l :: l in cur.logs <==> l in s.logs && l.characterId !in Swept(snapshot, i)
    ensures var r := DeleteCharacter(cur, snapshot[i].id);
      && r.out
      && (forall c :: c in r.store.characters <==> c in s.characters && c.id !in Swept(snapshot, i + 1))
      && (forall l :: l in r.store.logs <==> l in s.logs && l.characterId !in Swept(snapshot, i + 1))
  {
    var c := snapshot[i];
    assert c in cur.characters;
  }

  /** Sweeping a reordering of a table with unique ids reaches exactly the
      targets' ids, and only targets carry them. */
  lemma SweptAll(t: seq<Character>, snapshot: seq<Character>)
    requires UniqueKeys(t, CharacterId)
    requires multiset(snapshot) == multiset(t)
    ensures Swept(snapshot, |snapshot|) == DoomedIds(t)
    ensures forall c :: c in t ==> (c.id in DoomedIds(t) <==> IsCleanupTarget(c))
  {
    forall id | id in Swept(snapshot, |snapshot|) ensures id in DoomedIds(t) {
      var j :| 0 <= j < |snapshot| && IsCleanupTarget(snapshot[j]) && snapshot[j].id == id;
      assert snapshot[j] in multiset(t);
    }
    forall id | id in DoomedIds(t) ensures id in Swept(snapshot, |snapshot|) {
      var c :| c in t && IsCleanupTarget(c) && c.id == id;
      assert c in multiset(snapshot);
      var j :| 0 <= j < |snapshot| && snapshot[j] == c;
    }
    forall c | c in t && c.id in DoomedIds(t) ensures IsCleanupTarget(c) {
      var d :| d in t && IsCleanupTarget(d) && d.id == c.id;
      UniqueKeysSameRow(t, CharacterId, c, d);
    }
  }

  /** The cleanup loop: walks the list as `getCharacters` returned it and
      deletes each target with `deleteCharacter`, counting the deletes that
      report a removed row. Every target is removed with its logs, every
      other character and log stays, and the count is the number of
      targets. */
  method Cleanup(s: Store) returns (s': Store, deleted: nat)
    requires Valid(s)
    ensures Valid(s') && s'.users == s.users
    ensures forall c :: c in s'.characters <==> c in s.characters && !ShouldDelete(c.name)
    ensures forall l :: l in s'.logs <==> l in s.logs && l.characterId !in DoomedIds(s.characters)
    ensures deleted == |Filter(s.characters, IsCleanupTarget)|
  {
    var snapshot := CleanupSnapshot(s);
    s' := s;
    deleted := 0;
    var i := 0;
    while i < |snapshot|
      invariant 0 <= i <= |snapshot|
      invariant SweptState(s, s', snapshot, i)
      invariant deleted == CountWhere(snapshot[..i], IsCleanupTarget)
    {
      assert snapshot[..i + 1][..i] == snapshot[..i];
      var removed;
      s', removed := SweepOne(s, s', snapshot, i);
      if removed {
        deleted := deleted + 1;
      }
      i := i + 1;
    }
    assert snapshot[..|snapshot|] == snapshot;
    CleanupFinish(s, s', snapshot, deleted);
  }

  /** The list the cleanup loop walks: `getCharacters`, a reordering of the
      table, so its ids are unique and every row of it is stored. */
  method CleanupSnapshot(s: Store) returns (snapshot: seq<Character>)
    requires Valid(s)
    ensures multiset(snapshot) == multiset(s.characters)
    ensures UniqueKeys(snapshot, CharacterId) && UniqueKeys(s.characters, CharacterId)
    ensures forall i :: 0 <= i < |snapshot| ==> snapshot[i] in s.characters
    ensures SweptState(s, s, snapshot, 0)
  {
    snapshot := GetCharacters(s);
    IncreasingUnique(s.characters, CharacterId);
    PermutationUniqueKeys(s.characters, snapshot, CharacterId);
    forall i | 0 <= i < |snapshot| ensures snapshot[i] in s.characters {
      assert snapshot[i] in multiset(s.characters);
    }
  }

  /** One turn of the cleanup loop: the row at `i` is deleted when it is a
      target, and the delete always finds it. */
  method SweepOne(s: Store, cur: Store, snapshot: seq<Character>, i: int) returns (next: Store, removed: bool)
    requires 0 <= i < |snapshot| && snapshot[i] in s.characters
    requires UniqueKeys(snapshot, CharacterId)
    requires SweptState(s, cur, snapshot, i)
    ensures SweptState(s, next, snapshot, i + 1)
    ensures removed <==> IsCleanupTarget(snapshot[i])
  {
    SweptNext(snapshot, i);
    var c := snapshot[i];
    if ShouldDelete(c.name) {
      SweepDelete(s, cur, snapshot, i);
      var step := DeleteCharacter(cur, c.id);
      next, removed := step.store, step.out;
    } else {
      next, removed := cur, false;
    }
  }

  /** Once the whole snapshot is swept, exactly the targets and their logs
      are gone. */
  lemma CleanupFinish(s: Store, s': Store, snapshot: seq<Character>, deleted: nat)
    requires UniqueKeys(s.characters, CharacterId)
    requires multiset(snapshot) == multiset(s.characters)
    requires SweptState(s, s', snapshot, |snapshot|)
    requires deleted == CountWhere(snapshot, IsCleanupTarget)
    ensures forall c :: c in s'.characters <==> c in s.characters && !ShouldDelete(c.name)
    ensures forall l :: l in s'.logs <==> l in s.logs && l.characterId !in DoomedIds(s.characters)
    ensures deleted == |Filter(s.characters, IsCleanupTarget)|
  {
    SweptAll(s.characters, snapshot);
    CountWhereFilter(snapshot, IsCleanupTarget);
    FilterPermutation(snapshot, s.characters, IsCleanupTarget);
  }

  /** The cleanup route: master only; reports how many characters went. */
  method CleanupRoute(s: Store, sess: Session) returns (r: Exchange)
    requires Valid(s)
    ensures !MasterSession(s, sess) ==> r.store == s && r.response.status in {401, 403}
    ensures MasterSession(s, sess) ==> (
              && r.session == sess && r.response.status == 200
              && r.response.body.CleanupReport? && r.response.body.success
              && r.response.body.deleted == |Filter(s.characters, IsCleanupTarget)|
              && forall c :: c in r.store.characters <==> c in s.characters && !ShouldDelete(c.name))
  {
    var gate := RequireMaster(s, sess);
    if gate.gate.Deny? {
      return Exchange(s, gate.session, Response(gate.gate.status, Message(gate.gate.message)));
    }
    var s', n := Cleanup(s);
    var message := "Deleted " + NatString(n) + " extra characters";
    r := Exchange(s', gate.session, Response(200, CleanupReport(true, message, n)));
  }

  // -----------------------------------------------------------------------
  // POST /api/import-knights
  // -----------------------------------------------------------------------

  /** The placeholder the extractor writes where it found no image. */
  const PlaceholderImage: string := "MANUAL_EXTRACT_NEEDED"

  /** The import's filter: a truthy avatar URL other than the placeholder. */
  predicate HasVerifiedImage(k: CharacterBody) {
    k.avatarUrl.Present? && k.avatarUrl.value != "" && k.avatarUrl.value != PlaceholderImage
  }

  /** `existing.some(char => char.name === knight.name)`: a missing or null
      name equals no stored name. */
  predicate NameTaken(rows: seq<Character>, k: CharacterBody) {
    k.name.Present? && exists c :: c in rows && c.name == k.name.value
  }

  function CharacterName(c: Character): string { c.name }

  /** What the import has done to `s` so far, with `cards` the cards it
      may draw from: it appended characters and nothing else, under names
      that are new to `s`, pairwise distinct, and each the name of a card. */
  ghost predicate ImportedFrom(s: Store, cur: Store, cards: seq<CharacterBody>) {
    && |cur.characters| >= |s.characters| && cur.characters[..|s.characters|] == s.characters
    && cur.users == s.users && cur.logs == s.logs
    && (Valid(s) ==> Valid(cur))
    && UniqueKeys(cur.characters[|s.characters|..], CharacterName)
    && (forall a, c :: a in cur.characters[|s.characters|..] && c in s.characters ==> a.name != c.name)
    && (forall a :: a in cur.characters[|s.characters|..] ==> exists k :: k in cards && k.name == Present(a.name))
  }

  /** The import loop: for each card with a verified image, re-reads the
      roster and creates the card unless its name is already there; a
      failed create counts as skipped. Only characters are added, none
      twice under one name, none under a name already in the roster, each
      from a card; afterwards every creatable card's name is in the roster. */
  method ImportKnights(s: Store, knights: seq<CharacterBody>, now: Timestamp)
    returns (s': Store, imported: nat, skipped: nat)
    ensures imported + skipped == |Filter(knights, HasVerifiedImage)|
    ensures |s'.characters| == |s.characters| + imported && s'.characters[..|s.characters|] == s.characters
    ensures s'.users == s.users && s'.logs == s.logs
    ensures Valid(s) ==> Valid(s')
    ensures UniqueKeys(s'.characters[|s.characters|..], CharacterName)
    ensures forall a, c :: a in s'.characters[|s.characters|..] && c in s.characters ==> a.name != c.name
    ensures forall a :: a in s'.characters[|s.characters|..] ==>
              exists k :: k in knights && HasVerifiedImage(k) && k.name == Present(a.name)
    ensures forall k :: k in knights && HasVerifiedImage(k) && CreatableCharacter(k) ==> NameTaken(s'.characters, k)
  {
    var cards := Filter(knights, HasVerifiedImage);
    s' := s;
    imported, skipped := 0, 0;
    var i := 0;
    assert s.characters[..|s.characters|] == s.characters;
    assert s.characters[|s.characters|..] == [];
    while i < |cards|
      invariant 0 <= i <= |cards|
      invariant imported + skipped == i
      invariant |s'.characters| == |s.characters| + imported
      invariant ImportedFrom(s, s', cards)
      invariant forall j :: 0 <= j < i && CreatableCharacter(cards[j]) ==> NameTaken(s'.characters, cards[j])
    {
      var created;
      s', created := ImportOne(s, s', cards, i, now);
      if created {
        imported := imported + 1;
      } else {
        skipped := skipped + 1;
      }
      i := i + 1;
    }
    forall k | k in knights && HasVerifiedImage(k) && CreatableCharacter(k) ensures NameTaken(s'.characters, k) {
      var j :| 0 <= j < |cards| && cards[j] == k;
    }
  }

  /** One turn of the import loop on the card at `i`. */
  method ImportOne(s: Store, cur: Store, cards: seq<CharacterBody>, i: int, now: Timestamp)
    returns (next: Store, created: bool)
    requires 0 <= i < |cards|
    requires ImportedFrom(s, cur, cards)
    ensures ImportedFrom(s, next, cards)
    ensures |next.characters| == |cur.characters| + (if created then 1 else 0)
    ensures forall c :: c in cur.characters ==> c in next.characters
    ensures CreatableCharacter(cards[i]) ==> NameTaken(next.characters, cards[i])
  {
    var k := cards[i];
    var existing := GetCharacters(cur);
    var taken := k.name.Present? && exists c | c in existing :: c.name == k.name.value;
    next, created := cur, false;
    if !taken {
      var step := CreateCharacter(cur, k, now);
      if step.out.Ok? {
        ImportCreated(s, cur, step.store, cards, i, step.out.value);
        next, created := step.store, true;
      }
    }
  }

  /** The import's state after a successful create of card `i`, whose name
      the roster did not hold. */
  lemma ImportCreated(s: Store, cur: Store, next: Store, cards: seq<CharacterBody>, i: int, c: Character)
    requires 0 <= i < |cards| && cards[i].name == Present(c.name)
    requires ImportedFrom(s, cur, cards)
    requires forall d :: d in cur.characters ==> d.name != c.name
    requires next.characters == cur.characters + [c]
    requires next.users == cur.users && next.logs == cur.logs
    requires Valid(cur) ==> Valid(next)
    ensures ImportedFrom(s, next, cards)
    ensures forall d :: d in cur.characters ==> d in next.characters
    ensures NameTaken(next.characters, cards[i])
  {
    ImportAppend(s, cur, next, c, cards[i]);
    assert c in next.characters;
    var n := |s.characters|;
    forall a | a in next.characters[n..] ensures exists k :: k in cards && k.name == Present(a.name) {
      if a != c {
        assert a in cur.characters[n..];
      } else {
        assert cards[i] in cards;
      }
    }
  }

  /** One successful create inside the import loop keeps the loop's facts
      about the added rows. */
  lemma ImportAppend(s: Store, cur: Store, next: Store, c: Character, k: CharacterBody)
    requires |cur.characters| >= |s.characters| && cur.characters[..|s.characters|] == s.characters
    requires next.characters == cur.characters + [c]
    requires k.name == Present(c.name)
    requires forall d :: d in cur.characters ==> d.name != c.name
    requires UniqueKeys(cur.characters[|s.characters|..], CharacterName)
    ensures next.characters[..|s.characters|] == s.characters
    ensures next.characters[|s.characters|..] == cur.characters[|s.characters|..] + [c]
    ensures UniqueKeys(next.characters[|s.characters|..], CharacterName)
    ensures forall d :: d in s.characters ==> d.name != c.name
  {
    var n := |s.characters|;
    assert next.characters[n..] == cur.characters[n..] + [c];
    forall d | d in cur.characters[n..] ensures CharacterName(d) != CharacterName(c) {
      var j :| 0 <= j < |cur.characters[n..]| && cur.characters[n..][j] == d;
      assert d == cur.characters[n + j];
    }
    AppendUniqueKey(cur.characters[n..], CharacterName, c);
    forall d | d in s.characters ensures d.name != c.name {
      var j :| 0 <= j < |s.characters| && s.characters[j] == d;
      assert d == cur.characters[j];
    }
  }

  /** The import route: master only; reports the two counts and the size of
      the whole card list. */
  method ImportRoute(s: Store, sess: Session, knights: seq<CharacterBody>, now: Timestamp) returns (r: Exchange)
    ensures !MasterSession(s, sess) ==> r.store == s && r.response.status in {401, 403}
    ensures MasterSession(s, sess) ==> (
              && r.session == sess && r.response.status == 200 && r.response.body.ImportReport?
              && r.response.body.success
              && r.response.body.imported + r.response.body.skipped == |Filter(knights, HasVerifiedImage)|
              && r.response.body.total == |knights|)
  {
    var gate := RequireMaster(s, sess);
    if gate.gate.Deny? {
      return Exchange(s, gate.session, Response(gate.gate.status, Message(gate.gate.message)));
    }
    var s', imported, skipped := ImportKnights(s, knights, now);
    var message := "Knights of Degen import completed with authentic card data";
    r := Exchange(s', gate.session, Response(200, ImportReport(true, message, imported, skipped, |knights|)));
  }

  // -----------------------------------------------------------------------
  // POST /api/comprehensive-knights-discovery
  // -----------------------------------------------------------------------

  function Images(t: seq<Discovered>): set<string> {
    set d | d in t :: d.image
  }

  lemma ImagesAppend(a: seq<Discovered>, b: seq<Discovered>)
    ensures Images(a + b) == Images(a) + Images(b)
  {
    forall x | x in Images(a + b) ensures x in Images(a) + Images(b) {
      var d :| d in a + b && d.image == x;
    }
    forall x | x in Images(a) + Images(b) ensures x in Images(a + b) {
      if x in Images(a) {
        var d :| d in a && d.image == x;
        assert d in a + b;
      } else {
        var d :| d in b && d.image == x;
        assert d in a + b;
      }
    }
  }

  /** Reference definition of the merge's tail: the entries of `pattern`,
      in order, whose image has not been seen yet, each image taken once. */
  function Unseen(pattern: seq<Discovered>, seen: set<string>): seq<Discovered>
    decreases |pattern|
  {
    if pattern == [] then []
    else if pattern[0].image in seen then Unseen(pattern[1..], seen)
    else [pattern[0]] + Unseen(pattern[1..], seen + {pattern[0].image})
  }

  /** Every entry `Unseen` keeps comes from `pattern` and brings an image
      that is neither seen nor kept earlier. */
  lemma {:induction false} UnseenFresh(pattern: seq<Discovered>, seen: set<string>, j: int)
    requires 0 <= j < |Unseen(pattern, seen)|
    ensures Unseen(pattern, seen)[j] in pattern
    ensures Unseen(pattern, seen)[j].image !in seen + Images(Unseen(pattern, seen)[..j])
    decreases |pattern|
  {
    var rest := pattern[1..];
    var d := pattern[0];
    var u := Unseen(pattern, seen);
    if d.image in seen {
      assert u == Unseen(rest, seen);
      UnseenFresh(rest, seen, j);
    } else {
      var seen' := seen + {d.image};
      var v := Unseen(rest, seen');
      assert u == [d] + v;
      if j > 0 {
        UnseenFresh(rest, seen', j - 1);
        assert u[j] == v[j - 1];
        assert u[..j] == [d] + v[..j - 1];
        ImagesAppend([d], v[..j - 1]);
        assert Images([d]) == {d.image};
      } else {
        assert u[..0] == [];
        assert Images(u[..0]) == {};
      }
    }
  }

  /** Every image of `pattern` is seen or kept by `Unseen`. */
  lemma {:induction false} UnseenCovers(pattern: seq<Discovered>, seen: set<string>)
    ensures forall d :: d in pattern ==> d.image in seen + Images(Unseen(pattern, seen))
    decreases |pattern|
  {
    if pattern != [] {
      var rest := pattern[1..];
      var d0 := pattern[0];
      if d0.image in seen {
        UnseenCovers(rest, seen);
      } else {
        var seen' := seen + {d0.image};
        UnseenCovers(rest, seen');
        ImagesAppend([d0], Unseen(rest, seen'));
        assert Images([d0]) == {d0.image};
      }
      forall d | d in pattern ensures d.image in seen + Images(Unseen(pattern, seen)) {
        if d != d0 {
          assert d in rest;
        }
      }
    }
  }

  /** The merge: the expanded list unchanged, then each pattern entry whose
      image is not yet present, noting its image as it goes. */
  method MergeDiscoveries(expanded: seq<Discovered>, pattern: seq<Discovered>) returns (all: seq<Discovered>)
    ensures all == expanded + Unseen(pattern, Images(expanded))
    ensures |expanded| <= |all| && all[..|expanded|] == expanded
    ensures forall j :: |expanded| <= j < |all| ==> all[j] in pattern && all[j].image !in Images(all[..j])
    ensures forall d :: d in pattern ==> d.image in Images(all)
  {
    all := expanded;
    var seen := Images(expanded);
    var i := 0;
    while i < |pattern|
      invariant 0 <= i <= |pattern|
      invariant seen == Images(all)
      invariant all + Unseen(pattern[i..], seen) == expanded + Unseen(pattern, Images(expanded))
    {
      var d := pattern[i];
      assert pattern[i..][0] == d && pattern[i..][1..] == pattern[i + 1..];
      if d.image !in seen {
        ImagesAppend(all, [d]);
        assert Images([d]) == {d.image};
        all := all + [d];
        seen := seen + {d.image};
      }
      i := i + 1;
    }
    assert pattern[|pattern|..] == [];
    var u := Unseen(pattern, Images(expanded));
    assert all == expanded + u;
    UnseenCovers(pattern, Images(expanded));
    ImagesAppend(expanded, u);
    forall j | |expanded| <= j < |all| ensures all[j] in pattern && all[j].image !in Images(all[..j]) {
      var k := j - |expanded|;
      UnseenFresh(pattern, Images(expanded), k);
      assert all[j] == u[k];
      assert all[..j] == expanded + u[..k];
      ImagesAppend(expanded, u[..k]);
    }
  }

  /** The discovery report: success with the merged list and the counts of
      both sources when anything was found, otherwise failure with the
      (empty) expanded list. */
  function DiscoveryBody(expanded: seq<Discovered>, pattern: seq<Discovered>, all: seq<Discovered>): (r: Body)
    ensures r.DiscoveryReport? && r.strategy == "expanded_discovery"
    ensures r.success <==> |all| > 0
    ensures r.success ==> r.found == all && r.totalFound == |all| && r.counts == Some((|expanded|, |pattern|))
    ensures !r.success ==> r.found == expanded && r.totalFound == |expanded| && r.counts.None?
  {
    if |all| > 0 then
      DiscoveryReport(true, "Expanded discovery complete: found " + NatString(|all|)
                            + " total Knights characters (" + NatString(|expanded|) + " from expansion, "
                            + NatString(|pattern|) + " from pattern analysis)",
                      all, |all|, "expanded_discovery", Some((|expanded|, |pattern|)))
    else
      DiscoveryReport(false, "No additional characters found through expanded discovery",
                      expanded, |expanded|, "expanded_discovery", None)
  }

  /** The discovery route: master only; it writes nothing. It reports
      success exactly when either source found something, and then lists
      every expanded entry followed by the new pattern entries. */
  method DiscoveryRoute(s: Store, sess: Session, expanded: seq<Discovered>, pattern: seq<Discovered>)
    returns (r: Exchange)
    ensures r.store == s
    ensures !MasterSession(s, sess) ==> r.response.status in {401, 403}
    ensures MasterSession(s, sess) ==> (
              && r.session == sess && r.response.status == 200 && r.response.body.DiscoveryReport?
              && (r.response.body.success <==> |expanded| + |pattern| > 0)
              && (r.response.body.success ==>
                    r.response.body.found == expanded + Unseen(pattern, Images(expanded))
                    && r.response.body.totalFound == |r.response.body.found|)
              && (!r.response.body.success ==> r.response.body.found == [] && r.response.body.totalFound == 0))
  {
    var gate := RequireMaster(s, sess);
    if gate.gate.Deny? {
      return Exchange(s, gate.session, Response(gate.gate.status, Message(gate.gate.message)));
    }
    var all := MergeDiscoveries(expanded, pattern);
    if |expanded| == 0 && |pattern| > 0 {
      assert pattern[0].image in Images(all);
    }
    r := Exchange(s, gate.session, Response(200, DiscoveryBody(expanded, pattern, all)));
  }
}

=== FILE: routes.dfy ===
/** The HTTP handlers of the JSON API: login and session routes, character
    and session-log CRUD, search, and the image-proxy guard. Each handler is
    a transition `Store x Session x request -> Store x Session x Response`;
    storage calls are the transitions of `Storage`, and the two gates are
    those of `Auth`. */
module Routes {
  import opened Wrappers
  import opened Text
  import opened Tables
  import opened Schema
  import opened Storage
  import opened Auth

  /** The account fields a response may show: never the password hash. */
  datatype PublicUser = PublicUser(id: int, username: string, role: string)

  function Public(u: User): PublicUser {
    PublicUser(u.id, u.username, u.role)
  }

  /** The JSON bodies the handlers send. */
  datatype Body =
    | Message(message: string)
    | Failure(message: string, error: string)
    | Problem(error: string)
    | LoggedIn(account: PublicUser)
    | AuthState(authenticated: bool, user: Option<PublicUser>)
    | Characters(characters: seq<Character>)
    | OneCharacter(character: Character)
    | Logs(logs: seq<SessionLog>)
    | OneLog(log: SessionLog)
    | Image(contentType: Option<string>, bytes: seq<bv8>)
    | CleanupReport(success: bool, message: string, deleted: nat)
    | ImportReport(success: bool, message: string, imported: nat, skipped: nat, total: nat)
    | DiscoveryReport(success: bool, message: string, found: seq<Discovered>, totalFound: nat,
                      strategy: string, counts: Option<(nat, nat)>)

  /** A character record produced by the discovery scrapers: its image URL
      and the rest of its JSON keys. */
  datatype Discovered = Discovered(image: string, fields: map<string, string>)

  datatype Response = Response(status: int, body: Body)

  /** What a handler leaves behind: the database and the response. */
  datatype Outcome = Outcome(store: Store, response: Response)

  /** A whole request: the database, the session and the response after it. */
  datatype Exchange = Exchange(store: Store, session: Session, response: Response)

  /** A handler that only reads: the store stays as it is. */
  function Read(s: Store, status: int, body: Body): Outcome {
    Outcome(s, Response(status, body))
  }

  // -----------------------------------------------------------------------
  // gates
  // -----------------------------------------------------------------------

  /** A route behind `requireAuth`: a refused request gets the gate's status
      and message and touches nothing; an accepted one runs `handle` once
      on the current store. */
  function Authenticated(s: Store, sess: Session, handle: Store -> Outcome): (r: Exchange)
    ensures LiveSession(s, sess) ==> r == Exchange(handle(s).store, sess, handle(s).response)
    ensures !LiveSession(s, sess) ==> r.store == s && r.response.status == 401
                                      && r.session == RequireAuth(s, sess).session
  {
    var c := RequireAuth(s, sess);
    match c.gate
    case Deny(status, message) => Exchange(s, c.session, Response(status, Message(message)))
    case Allow(_) => var o := handle(s); Exchange(o.store, c.session, o.response)
  }

  /** A route behind `requireMaster`: anyone but a stored master user is
      refused with 401 or 403 and changes nothing in the database. */
  function MasterOnly(s: Store, sess: Session, handle: Store -> Outcome): (r: Exchange)
    ensures MasterSession(s, sess) ==> r == Exchange(handle(s).store, sess, handle(s).response)
    ensures !MasterSession(s, sess) ==> r.store == s && r.response.status in {401, 403}
    ensures !LiveSession(s, sess) ==> r.response.status == 401 && r.session == RequireAuth(s, sess).session
    ensures LiveSession(s, sess) && !MasterSession(s, sess) ==>
              r == Exchange(s, sess, Response(403, Message("Master access required")))
  {
    var c := RequireMaster(s, sess);
    match c.gate
    case Deny(status, message) => Exchange(s, c.session, Response(status, Message(message)))
    case Allow(_) => var o := handle(s); Exchange(o.store, c.session, o.response)
  }

  // -----------------------------------------------------------------------
  // path ids
  // -----------------------------------------------------------------------

  /** `parseInt(req.params.id)` as the database sees it: `NaN`, or a number
      outside the `integer` column's range, makes the query fail. */
  function IdParam(raw: string): (r: Option<int>)
    ensures r.Some? ==> InInt32(r.value) && ParseInt(raw) == Some(r.value)
    ensures r.None? <==> ParseInt(raw).None? || !InInt32(ParseInt(raw).value)
  {
    match ParseInt(raw)
    case None => None
    case Some(n) => if InInt32(n) then Some(n) else None
  }

  /** Every id the database can hold, written in decimal, reaches the query
      as itself. */
  lemma IdParamRoundTrip(id: int)
    requires InInt32(id)
    ensures IdParam(IntString(id)) == Some(id)
  {
    ParseIntRoundTrip(id);
  }

  // -----------------------------------------------------------------------
  // login and session
  // -----------------------------------------------------------------------

  /** `POST /api/login`: wrong credentials answer 401 and leave the session
      alone; right ones record the user's id and role in the session and
      answer with the public part of the account. */
  function Login(s: Store, sess: Session, username: string, password: string,
                 compare: (string, string) -> bool): (r: Exchange)
    ensures r.store == s
    ensures ValidateUser(s, username, password, compare).None? ==>
              r.session == sess && r.response == Response(401, Message("Invalid credentials"))
    ensures ValidateUser(s, username, password, compare).Some? ==> (
              var u := ValidateUser(s, username, password, compare).value;
              && u in s.users && u.username == username && compare(password, u.passwordHash)
              && r.session == Session(Some(u.id), Some(u.role))
              && r.response == Response(200, LoggedIn(PublicUser(u.id, u.username, u.role))))
  {
    match ValidateUser(s, username, password, compare)
    case None => Exchange(s, sess, Response(401, Message("Invalid credentials")))
    case Some(u) =>
      Exchange(s, sess.(userId := Some(u.id), userRole := Some(u.role)), Response(200, LoggedIn(Public(u))))
  }

  /** `POST /api/logout`: the session is destroyed. */
  function Logout(s: Store, sess: Session): (r: Exchange)
    ensures r.store == s && !HasUserId(r.session)
    ensures r.response == Response(200, Message("Logged out"))
  {
    Exchange(s, NoSession, Response(200, Message("Logged out")))
  }

  /** `GET /api/auth/status`: unauthenticated without a user id; a user id
      naming no user is a destroyed session and unauthenticated too;
      otherwise authenticated, with the public part of the stored account. */
  function AuthStatus(s: Store, sess: Session): (r: Exchange)
    ensures r.store == s && r.response.status == 200
    ensures !HasUserId(sess) ==> r.session == sess && r.response.body == AuthState(false, None)
    ensures HasUserId(sess) && !LiveSession(s, sess) ==>
              r.session == NoSession && r.response.body == AuthState(false, None)
    ensures LiveSession(s, sess) ==> (
              var u := GetUser(s, sess.userId.value).value;
              r.session == sess && r.response.body == AuthState(true, Some(PublicUser(u.id, u.username, u.role))))
  {
    if !HasUserId(sess) then Exchange(s, sess, Response(200, AuthState(false, None)))
    else
      match GetUser(s, sess.userId.value)
      case None => Exchange(s, NoSession, Response(200, AuthState(false, None)))
      case Some(u) => Exchange(s, sess, Response(200, AuthState(true, Some(Public(u)))))
  }

  /** The status route and `requireAuth` agree: a request is reported as
      authenticated exactly when the gate would let it through, and both
      leave the same session behind. */
  lemma AuthStatusAgreesWithRequireAuth(s: Store, sess: Session)
    ensures AuthStatus(s, sess).response.body.authenticated <==> RequireAuth(s, sess).gate.Allow?
    ensures AuthStatus(s, sess).session == RequireAuth(s, sess).session
  {
  }

  /** In a consistent store, a successful login opens the session: the
      status route then reports the same account and `requireAuth` lets the
      request through with it. */
  lemma LoginOpensSession(s: Store, sess: Session, username: string, password: string,
                          compare: (string, string) -> bool)
    requires Valid(s)
    requires ValidateUser(s, username, password, compare).Some?
    ensures var r := Login(s, sess, username, password, compare);
      && AuthStatus(r.store, r.session).response.body == AuthState(true, Some(r.response.body.account))
      && RequireAuth(r.store, r.session).gate == Allow(ValidateUser(s, username, password, compare).value)
  {
    var u := ValidateUser(s, username, password, compare).value;
    IncreasingUnique(s.users, UserId);
    FindUnique(s.users, UserId, u);
  }

  /** After logging out, every gated route answers 401 "Authentication
      required". */
  lemma LogoutClosesSession(s: Store, sess: Session)
    ensures var r := Logout(s, sess);
      RequireAuth(r.store, r.session) == Checked(NoSession, Deny(401, "Authentication required"))
  {
  }

  // -----------------------------------------------------------------------
  // characters
  // -----------------------------------------------------------------------

  /** `GET /api/characters`. */
  function ListCharactersHandler(s: Store): (o: Outcome)
    ensures o.store == s && o.response.status == 200
    ensures o.response.body.Characters? && SortedDesc(o.response.body.characters, LastActiveOf)
    ensures multiset(o.response.body.characters) == multiset(s.characters)
  {
    Read(s, 200, Characters(GetCharacters(s)))
  }

  function ListCharacters(s: Store, sess: Session): (r: Exchange)
    ensures r.store == s
    ensures r.response.status == 200 <==> LiveSession(s, sess)
    ensures r.response.status != 200 ==> r.response.status == 401
    ensures LiveSession(s, sess) ==>
              r.response.body.Characters? && multiset(r.response.body.characters) == multiset(s.characters)
    ensures LiveSession(s, sess) ==>
              SortedDesc(r.response.body.characters, LastActiveOf)
              && r == Exchange(s, sess, ListCharactersHandler(s).response)
  {
    Authenticated(s, sess, ListCharactersHandler)
  }

  /** A query-string value as Express parses it: absent, one string, or
      an array or object (a repeated key such as `?q=a&q=b`, or a bracketed
      one such as `?q[x]=a`). */
  datatype QueryParam = NoParam | Single(text: string) | Structured

  /** `GET /api/characters/search?q=`: a missing or blank query answers `[]`
      without reading the table; a structured one has no `trim` and fails
      with 500; otherwise `searchCharacters` runs on the trimmed query, and
      so matches the lowered query case-sensitively. */
  function SearchHandler(s: Store, q: QueryParam): (o: Outcome)
    ensures o.store == s
    ensures q.Structured? ==> o.response == Response(500, Message("Failed to search characters"))
    ensures q.NoParam? || (q.Single? && IsBlank(q.text)) ==> o.response == Response(200, Characters([]))
    ensures q.Single? && !IsBlank(q.text) ==> (
              && o.response.status == 200 && o.response.body.Characters?
              && SortedDesc(o.response.body.characters, LastActiveOf)
              && forall c :: c in o.response.body.characters <==>
                   c in s.characters && MatchesSearch(ToLower(Trim(q.text)))(c))
  {
    match q
    case Structured => Read(s, 500, Message("Failed to search characters"))
    case NoParam => Read(s, 200, Characters([]))
    case Single(text) =>
      if Trim(text) == [] then Read(s, 200, Characters([]))
      else Read(s, 200, Characters(SearchCharacters(s, Trim(text))))
  }

  function Search(s: Store, sess: Session, q: QueryParam): (r: Exchange)
    ensures r.store == s
    ensures !LiveSession(s, sess) ==> r.response.status == 401
    ensures LiveSession(s, sess) ==> r.response == SearchHandler(s, q).response
  {
    Authenticated(s, sess, s0 => SearchHandler(s0, q))
  }

  /** A blank query's answer does not depend on the database at all. */
  lemma SearchBlankIgnoresStore(s: Store, s': Store, q: string)
    requires IsBlank(q)
    ensures SearchHandler(s, Single(q)).response == SearchHandler(s', Single(q)).response == Response(200, Characters([]))
  {
  }

  /** A query is searched the same however much white space surrounds it. */
  lemma SearchIgnoresPadding(s: Store, q: string)
    ensures SearchHandler(s, Single(Trim(q))).response == SearchHandler(s, Single(q)).response
  {
    TrimIdempotent(q);
    assert SearchHandler(s, Single(Trim(q))) == SearchHandler(s, Single(q));
  }

  /** A character is found when its stored name holds the trimmed query
      in lower case: the route as written finds "alice" for "  ALI ", but
      not "Alice". */
  lemma SearchFindsCharacterByName(s: Store, c: Character, q: string)
    requires c in s.characters && !IsBlank(q) && Contains(c.name, ToLower(Trim(q)))
    ensures c in SearchHandler(s, Single(q)).response.body.characters
  {
  }

  /** The route as written misses a capitalised name typed exactly as
      stored, which the corrected route finds. */
  lemma SearchRouteIsCaseSensitive()
    ensures var c := CharacterColumnDefaults(1).(name := "Alice");
            var s := Store([], [c], [], 1, 2, 1);
            && SearchHandler(s, Single("Alice")).response == Response(200, Characters([]))
            && SearchHandlerIgnoringCase(s, Single("Alice")).response == Response(200, Characters([c]))
  {
    assert !IsJsSpace('A') && !IsJsSpace('e');
    TrimUnpadded("Alice");
    SearchIsCaseSensitive();
  }

  /** The evidently intended search route: the same guards, with the
      corrected case-insensitive search behind them. */
  function SearchHandlerIgnoringCase(s: Store, q: QueryParam): (o: Outcome)
    ensures o.store == s
    ensures q.Structured? ==> o.response == Response(500, Message("Failed to search characters"))
    ensures q.NoParam? || (q.Single? && IsBlank(q.text)) ==> o.response == Response(200, Characters([]))
    ensures q.Single? && !IsBlank(q.text) ==> (
              && o.response.status == 200 && o.response.body.Characters?
              && SortedDesc(o.response.body.characters, LastActiveOf)
              && forall c :: c in o.response.body.characters <==>
                   c in s.characters && MatchesSearchIgnoringCase(ToLower(Trim(q.text)))(c))
  {
    match q
    case Structured => Read(s, 500, Message("Failed to search characters"))
    case NoParam => Read(s, 200, Characters([]))
    case Single(text) =>
      if Trim(text) == [] then Read(s, 200, Characters([]))
      else Read(s, 200, Characters(SearchCharactersIgnoringCase(s, Trim(text))))
  }

  /** The corrected route answers every request the route as written
      answers alike, except that its search may find more characters. */
  lemma SearchHandlerIgnoringCaseExtends(s: Store, q: QueryParam)
    ensures var o := SearchHandler(s, q).response;
            var o' := SearchHandlerIgnoringCase(s, q).response;
            && o.status == o'.status
            && (o.body.Characters? <==> o'.body.Characters?)
            && (!o.body.Characters? ==> o == o')
            && (o.body.Characters? ==> forall c :: c in o.body.characters ==> c in o'.body.characters)
  {
    if q.Single? && Trim(q.text) != [] {
      SearchIgnoringCaseExtendsSearch(s, Trim(q.text));
    }
  }

  /** With the corrected route, a character is found by its own name, typed
      in any case and with any surrounding white space. */
  lemma SearchIgnoringCaseFindsCharacterByName(s: Store, c: Character, q: string)
    requires c in s.characters && !IsBlank(q) && ToLower(Trim(q)) == ToLower(c.name)
    ensures c in SearchHandlerIgnoringCase(s, Single(q)).response.body.characters
  {
    SearchIgnoringCaseFindsName(s, c, Trim(q));
  }

  /** `GET /api/characters/:id`: an unusable id fails with 500, an unknown
      one is 404, a known one is the row. */
  function GetCharacterHandler(s: Store, raw: string): (o: Outcome)
    ensures o.store == s
    ensures IdParam(raw).None? ==> o.response == Response(500, Message("Failed to fetch character"))
    ensures IdParam(raw).Some? ==> (
              var id := IdParam(raw).value;
              && (GetCharacter(s, id).None? ==> o.response == Response(404, Message("Character not found")))
              && (GetCharacter(s, id).Some? ==> o.response == Response(200, OneCharacter(GetCharacter(s, id).value))))
  {
    match IdParam(raw)
    case None => Read(s, 500, Message("Failed to fetch character"))
    case Some(id) =>
      match GetCharacter(s, id)
      case None => Read(s, 404, Message("Character not found"))
      case Some(c) => Read(s, 200, OneCharacter(c))
  }

  function GetCharacterRoute(s: Store, sess: Session, raw: string): (r: Exchange)
    ensures r.store == s
    ensures !LiveSession(s, sess) ==> r.response.status == 401
    ensures LiveSession(s, sess) ==> r.response == GetCharacterHandler(s, raw).response && r.session == sess
  {
    Authenticated(s, sess, s0 => GetCharacterHandler(s0, raw))
  }

  /** The text of the error a failed store call reports. */
  function ErrorText(e: DbError): string {
    match e
    case Failed(m) => m
    case NotNullViolation => "null value violates not-null constraint"
    case UniqueViolation => "duplicate key value violates unique constraint"
    case OutOfRange => "integer out of range"
    case ValueTooLong => "value too long for type character varying(255)"
    case EmptyUpdate => "No values to set"
  }

  /** `POST /api/characters`: 201 with the stored row, or 500 with the
      route's message and the store's error text. */
  function CreateCharacterHandler(s: Store, b: CharacterBody, now: Timestamp): (o: Outcome)
    ensures o.response.status == 201 <==> CreatableCharacter(b)
    ensures o.response.status == 201 ==> (
              && o.response.body.OneCharacter?
              && o.response.body.character.id == s.nextCharacterId
              && CharacterFitsColumns(o.response.body.character)
              && o.store == s.(characters := s.characters + [o.response.body.character],
                               nextCharacterId := s.nextCharacterId + 1))
    ensures o.response.status != 201 ==>
              o.store == s && o.response == Response(500, Failure("Failed to create character", "Failed to create character"))
  {
    var step := CreateCharacter(s, b, now);
    match step.out
    case Ok(c) => Outcome(step.store, Response(201, OneCharacter(c)))
    case Err(e) => Outcome(step.store, Response(500, Failure("Failed to create character", ErrorText(e))))
  }

  function CreateCharacterRoute(s: Store, sess: Session, b: CharacterBody, now: Timestamp): (r: Exchange)
    ensures r.response.status == 201 <==> MasterSession(s, sess) && CreatableCharacter(b)
    ensures r.response.status != 201 ==> r.store == s
    ensures r.response.status == 201 ==>
              && r.response.body.OneCharacter?
              && r.store == s.(characters := s.characters + [r.response.body.character],
                               nextCharacterId := s.nextCharacterId + 1)
    ensures MasterSession(s, sess) ==>
              r == Exchange(CreateCharacterHandler(s, b, now).store, sess, CreateCharacterHandler(s, b, now).response)
  {
    MasterOnly(s, sess, s0 => CreateCharacterHandler(s0, b, now))
  }

  /** `PATCH /api/characters/:id`: 500 for an unusable id, an integer
      outside int4 or a null in a NOT NULL column; 404 for an unknown id;
      otherwise the updated row. An existing character is updated exactly
      when the update schema would have accepted the body. */
  function PatchCharacterHandler(s: Store, raw: string, b: CharacterBody, now: Timestamp): (o: Outcome)
    ensures o.response.status in {200, 404, 500}
    ensures o.response.status != 200 ==> o.store == s
    ensures o.response.status == 500 ==> o.response.body == Message("Failed to update character")
    ensures IdParam(raw).None? || !FitsCharacterColumns(b) ==>
              o.response == Response(500, Message("Failed to update character"))
    ensures IdParam(raw).Some? && FitsCharacterColumns(b) && GetCharacter(s, IdParam(raw).value).None? ==>
              o.response == Response(404, Message("Character not found"))
    ensures IdParam(raw).Some? && GetCharacter(s, IdParam(raw).value).Some? ==>
              (o.response.status == 200 <==> ParseUpdateCharacter(b).Some?)
    ensures o.response.status == 404 ==> IdParam(raw).Some? && GetCharacter(s, IdParam(raw).value).None?
    ensures o.response.status == 200 ==> (
              var step := UpdateCharacter(s, IdParam(raw).value, b, now);
              && IdParam(raw).Some? && step.out.Ok? && step.out.value.Some?
              && o == Outcome(step.store, Response(200, OneCharacter(step.out.value.value)))
              && GetCharacter(o.store, IdParam(raw).value) == Some(o.response.body.character))
  {
    match IdParam(raw)
    case None => Read(s, 500, Message("Failed to update character"))
    case Some(id) =>
      var step := UpdateCharacter(s, id, b, now);
      assert GetCharacter(s, id).Some? ==> (ParseUpdateCharacter(b).Some? <==> step.out.Ok?) by {
        if GetCharacter(s, id).Some? {
          UpdateCharacterSchemaMatchesUpdate(s, id, b, now);
        }
      }
      match step.out
      case Err(_) => Read(s, 500, Message("Failed to update character"))
      case Ok(None) => Read(s, 404, Message("Character not found"))
      case Ok(Some(c)) => Outcome(step.store, Response(200, OneCharacter(c)))
  }

  function PatchCharacterRoute(s: Store, sess: Session, raw: string, b: CharacterBody, now: Timestamp): (r: Exchange)
    ensures !MasterSession(s, sess) ==> r.store == s && r.response.status in {401, 403}
    ensures MasterSession(s, sess) ==> r.response == PatchCharacterHandler(s, raw, b, now).response
    ensures MasterSession(s, sess) ==>
              r == Exchange(PatchCharacterHandler(s, raw, b, now).store, sess, PatchCharacterHandler(s, raw, b, now).response)
  {
    MasterOnly(s, sess, s0 => PatchCharacterHandler(s0, raw, b, now))
  }

  /** `DELETE /api/characters/:id`: 404 when no character had that id (its
      logs are deleted all the same), otherwise a confirmation. */
  function DeleteCharacterHandler(s: Store, raw: string): (o: Outcome)
    ensures IdParam(raw).None? ==> o == Read(s, 500, Message("Failed to delete character"))
    ensures IdParam(raw).Some? ==> (
              var id := IdParam(raw).value;
              && o.store == DeleteCharacter(s, id).store
              && o.response == if GetCharacter(s, id).Some? then Response(200, Message("Character deleted"))
                               else Response(404, Message("Character not found")))
  {
    match IdParam(raw)
    case None => Read(s, 500, Message("Failed to delete character"))
    case Some(id) =>
      var step := DeleteCharacter(s, id);
      if step.out then Outcome(step.store, Response(200, Message("Character deleted")))
      else Outcome(step.store, Response(404, Message("Character not found")))
  }

  function DeleteCharacterRoute(s: Store, sess: Session, raw: string): (r: Exchange)
    ensures !MasterSession(s, sess) ==> r.store == s && r.response.status in {401, 403}
    ensures MasterSession(s, sess) ==> r.store == DeleteCharacterHandler(s, raw).store
    ensures MasterSession(s, sess) ==>
              r == Exchange(DeleteCharacterHandler(s, raw).store, sess, DeleteCharacterHandler(s, raw).response)
  {
    MasterOnly(s, sess, s0 => DeleteCharacterHandler(s0, raw))
  }

  /** `GET /api/characters/player/:playerName`. */
  function ByPlayerHandler(s: Store, playerName: string): (o: Outcome)
    ensures o.store == s && o.response.status == 200 && o.response.body.Characters?
    ensures forall c :: c in o.response.body.characters <==> c in s.characters && c.playerName == playerName
    ensures forall c :: multiset(o.response.body.characters)[c] ==
                        if c.playerName == playerName then multiset(s.characters)[c] else 0
    ensures SortedDesc(o.response.body.characters, LastActiveOf)
  {
    Read(s, 200, Characters(GetCharactersByPlayer(s, playerName)))
  }

  function ByPlayer(s: Store, sess: Session, playerName: string): (r: Exchange)
    ensures r.store == s
    ensures r.response.status == 200 <==> LiveSession(s, sess)
    ensures r.response.status != 200 ==> r.response.status == 401
    ensures LiveSession(s, sess) ==>
              && r.response.body.Characters?
              && (forall c :: c in r.response.body.characters <==> c in s.characters && c.playerName == playerName)
              && r == Exchange(s, sess, ByPlayerHandler(s, playerName).response)
  {
    Authenticated(s, sess, s0 => ByPlayerHandler(s0, playerName))
  }

  /** In a consistent store, a character a master has just created can be
      fetched back by its id, by the same session. */
  lemma CreatedCharacterIsFetchable(s: Store, sess: Session, b: CharacterBody, now: Timestamp)
    requires Valid(s) && MasterSession(s, sess)
    requires InInt32(s.nextCharacterId)
    ensures var r := CreateCharacterRoute(s, sess, b, now);
      && (r.response.status == 201 <==> CreatableCharacter(b))
      && (r.response.status == 201 ==>
            var c := r.response.body.character;
            GetCharacterRoute(r.store, r.session, IntString(c.id)).response == Response(200, OneCharacter(c)))
  {
    var o := CreateCharacterHandler(s, b, now);
    if o.response.status == 201 {
      var c := o.response.body.character;
      assert forall y :: y in s.characters ==> CharacterId(y) != CharacterId(c);
      FindAppendFresh(s.characters, CharacterId, c, c.id);
      IdParamRoundTrip(c.id);
      assert GetUser(o.store, sess.userId.value) == GetUser(s, sess.userId.value);
    }
  }

  /** Deleting a stored character by its id succeeds, and afterwards
      fetching the same id answers 404. */
  lemma DeletedCharacterIsGone(s: Store, sess: Session, id: int)
    requires MasterSession(s, sess)
    requires InInt32(id) && GetCharacter(s, id).Some?
    ensures var r := DeleteCharacterRoute(s, sess, IntString(id));
      && r.response == Response(200, Message("Character deleted"))
      && GetCharacterRoute(r.store, r.session, IntString(id)).response == Response(404, Message("Character not found"))
  {
    IdParamRoundTrip(id);
    var o := DeleteCharacterHandler(s, IntString(id));
    assert GetUser(o.store, sess.userId.value) == GetUser(s, sess.userId.value);
  }

  // -----------------------------------------------------------------------
  // session logs
  // -----------------------------------------------------------------------

  /** `GET /api/characters/:id/session-logs`: that character's logs, newest
      first (an unknown character simply has none). */
  function ListLogsHandler(s: Store, raw: string): (o: Outcome)
    ensures o.store == s
    ensures IdParam(raw).None? ==> o.response == Response(500, Message("Failed to fetch session logs"))
    ensures IdParam(raw).Some? ==> (
              && o.response.status == 200 && o.response.body.Logs?
              && SortedDesc(o.response.body.logs, LogCreatedAt)
              && forall l :: l in o.response.body.logs <==> l in s.logs && l.characterId == IdParam(raw).value)
  {
    match IdParam(raw)
    case None => Read(s, 500, Message("Failed to fetch session logs"))
    case Some(id) => Read(s, 200, Logs(GetSessionLogs(s, id)))
  }

  function ListLogs(s: Store, sess: Session, raw: string): (r: Exchange)
    ensures r.store == s
    ensures !LiveSession(s, sess) ==> r.response.status == 401
    ensures LiveSession(s, sess) ==> r.response == ListLogsHandler(s, raw).response
  {
    Authenticated(s, sess, s0 => ListLogsHandler(s0, raw))
  }

  /** `POST /api/session-logs`: 201 with the stored log, or 500. */
  function CreateLogHandler(s: Store, b: SessionLogBody, now: Timestamp): (o: Outcome)
    ensures o.response.status == 201 <==>
              && b.characterId.Present? && b.title.Present? && b.description.Present? && b.sessionDate.Present?
              && FitsSessionLogColumns(b)
    ensures o.response.status == 201 ==> (
              && o.response.body.OneLog?
              && o.store == s.(logs := s.logs + [o.response.body.log], nextLogId := s.nextLogId + 1))
    ensures o.response.status != 201 ==> o == Read(s, 500, Message("Failed to create session log"))
  {
    var step := CreateSessionLog(s, b, now);
    match step.out
    case Ok(l) => Outcome(step.store, Response(201, OneLog(l)))
    case Err(_) => Read(s, 500, Message("Failed to create session log"))
  }

  function CreateLog(s: Store, sess: Session, b: SessionLogBody, now: Timestamp): (r: Exchange)
    ensures r.response.status == 201 <==>
              && MasterSession(s, sess)
              && b.characterId.Present? && b.title.Present? && b.description.Present? && b.sessionDate.Present?
              && FitsSessionLogColumns(b)
    ensures r.response.status != 201 ==> r.store == s
    ensures r.response.status == 201 ==>
              && r.response.body.OneLog?
              && r.store == s.(logs := s.logs + [r.response.body.log], nextLogId := s.nextLogId + 1)
    ensures MasterSession(s, sess) ==>
              r == Exchange(CreateLogHandler(s, b, now).store, sess, CreateLogHandler(s, b, now).response)
  {
    MasterOnly(s, sess, s0 => CreateLogHandler(s0, b, now))
  }

  /** `PATCH /api/session-logs/:id`: 500 for an unusable id, a patch that
      sets nothing, an integer outside int4 or a null in a NOT NULL column;
      404 for an unknown id; otherwise the updated log. */
  function PatchLogHandler(s: Store, raw: string, b: SessionLogBody): (o: Outcome)
    ensures o.response.status in {200, 404, 500}
    ensures o.response.status != 200 ==> o.store == s
    ensures o.response.status == 500 ==> o.response.body == Message("Failed to update session log")
    ensures IdParam(raw).None? || EmptyLogPatch(b) || !FitsSessionLogColumns(b) ==>
              o.response == Response(500, Message("Failed to update session log"))
    ensures IdParam(raw).Some? && !EmptyLogPatch(b) && FitsSessionLogColumns(b)
            && FindSessionLog(s, IdParam(raw).value).None? ==>
              o.response == Response(404, Message("Session log not found"))
    ensures IdParam(raw).Some? && FindSessionLog(s, IdParam(raw).value).Some? ==>
              (o.response.status == 200 <==>
                 ParseUpdateSessionLog(b).Some? && !b.createdAt.Null? && !EmptyLogPatch(b))
    ensures o.response.status == 404 ==> IdParam(raw).Some? && FindSessionLog(s, IdParam(raw).value).None?
    ensures o.response.status == 200 ==> (
              var step := UpdateSessionLog(s, IdParam(raw).value, b);
              && IdParam(raw).Some? && step.out.Ok? && step.out.value.Some?
              && o == Outcome(step.store, Response(200, OneLog(step.out.value.value)))
              && FindSessionLog(o.store, IdParam(raw).value) == Some(o.response.body.log))
  {
    match IdParam(raw)
    case None => Read(s, 500, Message("Failed to update session log"))
    case Some(id) =>
      var step := UpdateSessionLog(s, id, b);
      assert FindSessionLog(s, id).Some? ==>
               (ParseUpdateSessionLog(b).Some? && !b.createdAt.Null? && !EmptyLogPatch(b) <==> step.out.Ok?) by {
        if FindSessionLog(s, id).Some? {
          UpdateSessionLogSchemaMatchesUpdate(s, id, b);
        }
      }
      match step.out
      case Err(_) => Read(s, 500, Message("Failed to update session log"))
      case Ok(None) => Read(s, 404, Message("Session log not found"))
      case Ok(Some(l)) => Outcome(step.store, Response(200, OneLog(l)))
  }

  function PatchLog(s: Store, sess: Session, raw: string, b: SessionLogBody): (r: Exchange)
    ensures !MasterSession(s, sess) ==> r.store == s && r.response.status in {401, 403}
    ensures MasterSession(s, sess) ==> r.response == PatchLogHandler(s, raw, b).response
    ensures MasterSession(s, sess) ==>
              r == Exchange(PatchLogHandler(s, raw, b).store, sess, PatchLogHandler(s, raw, b).response)
  {
    MasterOnly(s, sess, s0 => PatchLogHandler(s0, raw, b))
  }

  /** `DELETE /api/session-logs/:id`. */
  function DeleteLogHandler(s: Store, raw: string): (o: Outcome)
    ensures IdParam(raw).None? ==> o == Read(s, 500, Message("Failed to delete session log"))
    ensures IdParam(raw).Some? ==> (
              var id := IdParam(raw).value;
              && o.store == DeleteSessionLog(s, id).store
              && o.response == if FindSessionLog(s, id).Some? then Response(200, Message("Session log deleted"))
                               else Response(404, Message("Session log not found")))
    ensures o.response.status == 404 ==> o.store.logs == s.logs
  {
    match IdParam(raw)
    case None => Read(s, 500, Message("Failed to delete session log"))
    case Some(id) =>
      var step := DeleteSessionLog(s, id);
      if step.out then Outcome(step.store, Response(200, Message("Session log deleted")))
      else
        FilterKeepsAll(s.logs, (l: SessionLog) => l.id != id);
        Outcome(step.store, Response(404, Message("Session log not found")))
  }

  function DeleteLog(s: Store, sess: Session, raw: string): (r: Exchange)
    ensures !MasterSession(s, sess) ==> r.store == s && r.response.status in {401, 403}
    ensures MasterSession(s, sess) ==> r.store == DeleteLogHandler(s, raw).store
    ensures MasterSession(s, sess) ==>
              r == Exchange(DeleteLogHandler(s, raw).store, sess, DeleteLogHandler(s, raw).response)
  {
    MasterOnly(s, sess, s0 => DeleteLogHandler(s0, raw))
  }

  // -----------------------------------------------------------------------
  // image proxy
  // -----------------------------------------------------------------------

  /** The only origin the proxy relays images from. */
  const ImageOrigin: string := "https://images.ctfassets.net/"

  /** What fetching the image URL gives: a network failure, a non-2xx
      answer, or the image with its content type. */
  datatype Fetch = Unreachable | NotOk | Fetched(contentType: Option<string>, bytes: seq<bv8>)

  /** `GET /api/proxy-image?url=`: no session gate; a missing, empty or
      foreign URL is refused with 400 before any fetch, and a structured
      one (it has no `startsWith`) fails with 500 before any fetch; a
      failed fetch is 500, a non-2xx answer 404, otherwise the image is
      relayed. */
  function ProxyImage(url: QueryParam, fetch: string -> Fetch): (r: Response)
    ensures url.Structured? ==> r == Response(500, Problem("Failed to proxy image"))
    ensures url.NoParam? || (url.Single? && !StartsWith(url.text, "https://images.ctfassets.net/")) ==>
              r == Response(400, Problem("Invalid image URL"))
    ensures r.status == 200 <==> url.Single? && StartsWith(url.text, "https://images.ctfassets.net/")
                                 && fetch(url.text).Fetched?
    ensures r.status == 200 ==> r.body == Image(fetch(url.text).contentType, fetch(url.text).bytes)
    ensures url.Single? && StartsWith(url.text, ImageOrigin) ==>
              && (fetch(url.text).Unreachable? ==> r == Response(500, Problem("Failed to proxy image")))
              && (fetch(url.text).NotOk? ==> r == Response(404, Problem("Image not found")))
  {
    match url
    case Structured => Response(500, Problem("Failed to proxy image"))
    case NoParam => Response(400, Problem("Invalid image URL"))
    case Single(text) =>
      if text == [] || !StartsWith(text, ImageOrigin) then Response(400, Problem("Invalid image URL"))
      else
        match fetch(text)
        case Unreachable => Response(500, Problem("Failed to proxy image"))
        case NotOk => Response(404, Problem("Image not found"))
        case Fetched(contentType, bytes) => Response(200, Image(contentType, bytes))
  }

  /** A refused URL is refused whatever the network would have answered:
      the guard runs before the fetch. */
  lemma ProxyGuardPrecedesFetch(url: QueryParam, fetch: string -> Fetch, fetch': string -> Fetch)
    requires !url.Single? || !StartsWith(url.text, ImageOrigin)
    ensures ProxyImage(url, fetch) == ProxyImage(url, fetch')
  {
  }
}

=== FILE: schema.dfy ===
/** The persistence model: the `users`, `characters` and `session_logs`
    tables with their column defaults and NOT NULL constraints, the JSON
    sub-records stored in `jsonb` columns, the request-body shapes, and the
    insert/update validation schemas derived from the tables. */
module Schema {
  import opened Wrappers

  /** A point in time. Only the order of timestamps matters to the server
      (for `ORDER BY ... DESC`), so they are integers here. */
  type Timestamp = int

  /** The errors the database raises for the writes the server issues, and
      the error a caller reports in their place. */
  datatype DbError =
    | NotNullViolation
    | UniqueViolation
    | OutOfRange
    | ValueTooLong
    | EmptyUpdate
    | Failed(message: string)

  // -----------------------------------------------------------------------
  // column types
  // -----------------------------------------------------------------------

  /** The range of PostgreSQL's `integer` (int4): every `integer` and
      `serial` column, and every parameter compared with one. */
  const Int32Min: int := -0x8000_0000
  const Int32Max: int := 0x7FFF_FFFF

  predicate InInt32(n: int) {
    Int32Min <= n <= Int32Max
  }

  /** A key for an `integer` column: when it carries a number, the column
      can hold it. A number outside the range fails the whole statement
      with "integer out of range". */
  predicate FitsInt32(f: Field<int>) {
    f.Present? ==> InInt32(f.value)
  }

  /** The value a `varchar(n)` column stores for `s`: `s` itself when it is
      at most `n` characters long; `s` cut to `n` characters when everything
      past the `n`-th is a space; otherwise nothing, and the write fails
      with "value too long". */
  function VarChar(s: string, n: nat): (r: Option<string>)
    ensures r.None? <==> |s| > n && exists k :: n <= k < |s| && s[k] != ' '
    ensures r.Some? ==> |r.value| <= n && |r.value| <= |s| && r.value == s[..|r.value|]
                        && forall k :: |r.value| <= k < |s| ==> s[k] == ' '
    ensures |s| <= n ==> r == Some(s)
    ensures |s| > n && r.Some? ==> r.value == s[..n]
  {
    if |s| <= n then Some(s)
    else if forall k | n <= k < |s| :: s[k] == ' ' then Some(s[..n])
    else None
  }

  // -----------------------------------------------------------------------
  // users
  // -----------------------------------------------------------------------

  const MasterRole: string := "master"
  const ReadonlyRole: string := "readonly"

  /** A row of `users`; `role` is free text, "master" or "readonly" in practice. */
  datatype User = User(id: int, username: string, passwordHash: string, role: string, createdAt: Timestamp)

  /** The `role` column's default. */
  const RoleColumnDefault: string := ReadonlyRole

  // -----------------------------------------------------------------------
  // enumerations and jsonb sub-records
  // -----------------------------------------------------------------------

  datatype ItemType = Weapon | Armor | Consumable | Quest | Misc
  datatype Rarity = Common | Uncommon | Rare | Epic | Legendary
  datatype BattleResult = Won | Lost | Fled

  /** The JSON spelling of an inventory item's `type`. */
  function ItemTypeName(t: ItemType): string {
    match t
    case Weapon => "weapon"
    case Armor => "armor"
    case Consumable => "consumable"
    case Quest => "quest"
    case Misc => "misc"
  }

  /** Reads an inventory item's `type`: only the five literals are item types. */
  function ParseItemType(s: string): (r: Option<ItemType>)
    ensures r.Some? <==> s in {"weapon", "armor", "consumable", "quest", "misc"}
    ensures r.Some? ==> ItemTypeName(r.value) == s
  {
    if s == "weapon" then Some(Weapon)
    else if s == "armor" then Some(Armor)
    else if s == "consumable" then Some(Consumable)
    else if s == "quest" then Some(Quest)
    else if s == "misc" then Some(Misc)
    else None
  }

  /** The JSON spelling of an item's `rarity`. */
  function RarityName(r: Rarity): string {
    match r
    case Common => "common"
    case Uncommon => "uncommon"
    case Rare => "rare"
    case Epic => "epic"
    case Legendary => "legendary"
  }

  /** Reads an item's `rarity`: only the five literals are rarities. */
  function ParseRarity(s: string): (r: Option<Rarity>)
    ensures r.Some? <==> s in {"common", "uncommon", "rare", "epic", "legendary"}
    ensures r.Some? ==> RarityName(r.value) == s
  {
    if s == "common" then Some(Common)
    else if s == "uncommon" then Some(Uncommon)
    else if s == "rare" then Some(Rare)
    else if s == "epic" then Some(Epic)
    else if s == "legendary" then Some(Legendary)
    else None
  }

  /** The JSON spelling of a lore battle's `result`. */
  function BattleResultName(b: BattleResult): string {
    match b
    case Won => "Won"
    case Lost => "Lost"
    case Fled => "Fled"
  }

  /** Reads a battle `result`: exactly "Won", "Lost" and "Fled" are results. */
  function ParseBattleResult(s: string): (r: Option<BattleResult>)
    ensures r.Some? <==> s in {"Won", "Lost", "Fled"}
    ensures r.Some? ==> BattleResultName(r.value) == s
  {
    if s == "Won" then Some(Won)
    else if s == "Lost" then Some(Lost)
    else if s == "Fled" then Some(Fled)
    else None
  }

  /** Every enumeration value is read back from its spelling, and distinct
      values are spelled differently. */
  lemma EnumRoundTrips(t: ItemType, r: Rarity, b: BattleResult)
    ensures ParseItemType(ItemTypeName(t)) == Some(t)
    ensures ParseRarity(RarityName(r)) == Some(r)
    ensures ParseBattleResult(BattleResultName(b)) == Some(b)
  {
  }

  datatype WeaponDetails = WeaponDetails(name: string, description: string, effects: seq<string>, bonusStats: Option<string>)
  datatype SupportSkillDetails = SupportSkillDetails(name: string, level: string, description: string)
  datatype Ability = Ability(name: string, description: string, effects: seq<string>)
  datatype EventItem = EventItem(name: string, quantity: int, description: Option<string>)
  datatype QuestItem = QuestItem(name: string, description: string, origin: string)
  datatype ActiveQuest = ActiveQuest(name: string, description: string, location: Option<string>, questGiver: Option<string>)
  datatype StatusEffect = StatusEffect(name: string, description: string, duration: Option<string>, effects: seq<string>)
  datatype Battle = Battle(enemy: string, result: BattleResult, description: Option<string>)
  datatype LoreEntry = LoreEntry(location: string, events: seq<string>, npcsEncountered: Option<seq<string>>, battles: Option<seq<Battle>>)
  datatype InventoryItem = InventoryItem(
    id: string, name: string, itemType: ItemType, quantity: int,
    description: Option<string>, equipped: Option<bool>, rarity: Option<Rarity>,
    effects: Option<string>, mainStat: Option<string>, bonusStats: Option<string>,
    extraEffects: Option<string>, defenseStat: Option<string>)

  // -----------------------------------------------------------------------
  // characters
  // -----------------------------------------------------------------------

  /** A row of `characters`. `Option` marks the nullable columns. */
  datatype Character = Character(
    id: int,
    name: string, playerName: string, className: string,
    faction: Option<string>, backstory: Option<string>, avatarUrl: Option<string>,
    level: int, currentXP: int, nextLevelXP: int, gold: int,
    strength: int, dexterity: int, intelligence: int, wisdom: int, constitution: int,
    charisma: int, stealth: int, intimidation: int, persuasion: int, luck: int,
    customStats: Option<map<string, int>>,
    powerLevel: int, loreLevel: int,
    arenaRanking: string,
    duelistRank: Option<string>, duelistPoints: int,
    weapon: Option<WeaponDetails>, supportSkill: Option<SupportSkillDetails>,
    abilities: Option<seq<Ability>>, traits: Option<seq<string>>,
    skills: Option<map<string, string>>,
    eventItems: Option<seq<EventItem>>, questItems: Option<seq<QuestItem>>,
    activeQuests: Option<seq<ActiveQuest>>, statusEffects: Option<seq<StatusEffect>>,
    loreEntries: Option<seq<LoreEntry>>,
    notoriety: string,
    equipment: Option<seq<InventoryItem>>, inventory: Option<seq<InventoryItem>>,
    notes: Option<string>,
    createdAt: Timestamp, lastActive: Timestamp)

  /** A character-shaped JSON object: one key per column, each missing,
      null or set. Request bodies, insert values and update sets all have
      this shape. */
  datatype CharacterBody = CharacterBody(
    id: Field<int>,
    name: Field<string>, playerName: Field<string>, className: Field<string>,
    faction: Field<string>, backstory: Field<string>, avatarUrl: Field<string>,
    level: Field<int>, currentXP: Field<int>, nextLevelXP: Field<int>, gold: Field<int>,
    strength: Field<int>, dexterity: Field<int>, intelligence: Field<int>, wisdom: Field<int>,
    constitution: Field<int>, charisma: Field<int>, stealth: Field<int>,
    intimidation: Field<int>, persuasion: Field<int>, luck: Field<int>,
    customStats: Field<map<string, int>>,
    powerLevel: Field<int>, loreLevel: Field<int>,
    arenaRanking: Field<string>,
    duelistRank: Field<string>, duelistPoints: Field<int>,
    weapon: Field<WeaponDetails>, supportSkill: Field<SupportSkillDetails>,
    abilities: Field<seq<Ability>>, traits: Field<seq<string>>,
    skills: Field<map<string, string>>,
    eventItems: Field<seq<EventItem>>, questItems: Field<seq<QuestItem>>,
    activeQuests: Field<seq<ActiveQuest>>, statusEffects: Field<seq<StatusEffect>>,
    loreEntries: Field<seq<LoreEntry>>,
    notoriety: Field<string>,
    equipment: Field<seq<InventoryItem>>, inventory: Field<seq<InventoryItem>>,
    notes: Field<string>,
    createdAt: Field<Timestamp>, lastActive: Field<Timestamp>)

  /** The empty JSON object `{}`. */
  const EmptyCharacterBody: CharacterBody := CharacterBody(
    Absent, Absent, Absent, Absent, Absent, Absent, Absent,
    Absent, Absent, Absent, Absent,
    Absent, Absent, Absent, Absent, Absent, Absent, Absent, Absent, Absent, Absent,
    Absent, Absent, Absent, Absent, Absent, Absent,
    Absent, Absent, Absent, Absent, Absent, Absent, Absent, Absent, Absent, Absent,
    Absent, Absent, Absent, Absent, Absent, Absent)

  /** The row an INSERT starts from before the supplied values are written:
      every column at its declared default. The columns with no default
      (`name`, `playerName`, `className`, `createdAt`, `lastActive`) hold
      placeholders; an insert that leaves one of them unset fails instead. */
  function CharacterColumnDefaults(id: int): Character {
    Character(
      id,
      "", "", "",
      None, None, None,
      1, 0, 1000, 0,
      0, 0, 0, 0, 0, 0, 0, 0, 0, 0,
      Some(map[]),
      1, 1,
      "N/A",
      None, 0,
      None, None,
      Some([]), Some([]),
      Some(map[]),
      Some([]), Some([]),
      Some([]), Some([]),
      Some([]),
      "unknown",
      Some([]), Some([]),
      None,
      0, 0)
  }

  /** Some NOT NULL column of `characters` is explicitly set to null. */
  predicate NullsCharacterColumn(b: CharacterBody) {
    || b.name.Null? || b.playerName.Null? || b.className.Null?
    || b.level.Null? || b.currentXP.Null? || b.nextLevelXP.Null? || b.gold.Null?
    || b.strength.Null? || b.dexterity.Null? || b.intelligence.Null? || b.wisdom.Null?
    || b.constitution.Null? || b.charisma.Null? || b.stealth.Null?
    || b.intimidation.Null? || b.persuasion.Null? || b.luck.Null?
    || b.powerLevel.Null? || b.loreLevel.Null? || b.arenaRanking.Null?
    || b.duelistPoints.Null? || b.notoriety.Null?
    || b.createdAt.Null? || b.lastActive.Null?
  }

  /** Every `integer` column of `characters` that `b` gives a number can
      hold it. (The serial `id` is never among the keys written.) */
  predicate FitsCharacterColumns(b: CharacterBody) {
    && FitsInt32(b.level) && FitsInt32(b.currentXP) && FitsInt32(b.nextLevelXP) && FitsInt32(b.gold)
    && FitsInt32(b.strength) && FitsInt32(b.dexterity) && FitsInt32(b.intelligence)
    && FitsInt32(b.wisdom) && FitsInt32(b.constitution) && FitsInt32(b.charisma)
    && FitsInt32(b.stealth) && FitsInt32(b.intimidation) && FitsInt32(b.persuasion)
    && FitsInt32(b.luck) && FitsInt32(b.powerLevel) && FitsInt32(b.loreLevel)
    && FitsInt32(b.duelistPoints)
  }

  /** Every `integer` column of a stored character holds an int4. */
  predicate CharacterFitsColumns(c: Character) {
    && InInt32(c.level) && InInt32(c.currentXP) && InInt32(c.nextLevelXP) && InInt32(c.gold)
    && InInt32(c.strength) && InInt32(c.dexterity) && InInt32(c.intelligence)
    && InInt32(c.wisdom) && InInt32(c.constitution) && InInt32(c.charisma)
    && InInt32(c.stealth) && InInt32(c.intimidation) && InInt32(c.persuasion)
    && InInt32(c.luck) && InInt32(c.powerLevel) && InInt32(c.loreLevel)
    && InInt32(c.duelistPoints)
  }

  /** Some NOT NULL column without a default is not given a value. */
  predicate LacksCharacterColumn(b: CharacterBody) {
    !b.name.Present? || !b.playerName.Present? || !b.className.Present?
    || !b.createdAt.Present? || !b.lastActive.Present?
  }

  /** `UPDATE characters SET <b>` on one row: every key of `b` is written,
      missing keys leave their column alone. The `id` column is never among
      the keys the server sends, and is kept. Callers check
      `NullsCharacterColumn` first. */
  function SetCharacterColumns(c: Character, b: CharacterBody): Character {
    c.(
      name := b.name.Or(c.name), playerName := b.playerName.Or(c.playerName),
      className := b.className.Or(c.className),
      faction := b.faction.Assign(c.faction), backstory := b.backstory.Assign(c.backstory),
      avatarUrl := b.avatarUrl.Assign(c.avatarUrl),
      level := b.level.Or(c.level), currentXP := b.currentXP.Or(c.currentXP),
      nextLevelXP := b.nextLevelXP.Or(c.nextLevelXP), gold := b.gold.Or(c.gold),
      strength := b.strength.Or(c.strength), dexterity := b.dexterity.Or(c.dexterity),
      intelligence := b.intelligence.Or(c.intelligence), wisdom := b.wisdom.Or(c.wisdom),
      constitution := b.constitution.Or(c.constitution), charisma := b.charisma.Or(c.charisma),
      stealth := b.stealth.Or(c.stealth), intimidation := b.intimidation.Or(c.intimidation),
      persuasion := b.persuasion.Or(c.persuasion), luck := b.luck.Or(c.luck),
      customStats := b.customStats.Assign(c.customStats),
      powerLevel := b.powerLevel.Or(c.powerLevel), loreLevel := b.loreLevel.Or(c.loreLevel),
      arenaRanking := b.arenaRanking.Or(c.arenaRanking),
      duelistRank := b.duelistRank.Assign(c.duelistRank),
      duelistPoints := b.duelistPoints.Or(c.duelistPoints),
      weapon := b.weapon.Assign(c.weapon), supportSkill := b.supportSkill.Assign(c.supportSkill),
      abilities := b.abilities.Assign(c.abilities), traits := b.traits.Assign(c.traits),
      skills := b.skills.Assign(c.skills),
      eventItems := b.eventItems.Assign(c.eventItems), questItems := b.questItems.Assign(c.questItems),
      activeQuests := b.activeQuests.Assign(c.activeQuests),
      statusEffects := b.statusEffects.Assign(c.statusEffects),
      loreEntries := b.loreEntries.Assign(c.loreEntries),
      notoriety := b.notoriety.Or(c.notoriety),
      equipment := b.equipment.Assign(c.equipment), inventory := b.inventory.Assign(c.inventory),
      notes := b.notes.Assign(c.notes),
      createdAt := b.createdAt.Or(c.createdAt), lastActive := b.lastActive.Or(c.lastActive))
  }

  /** `INSERT INTO characters VALUES <b>` with serial id `id`: the row is the
      column defaults overwritten by the supplied keys. A number an
      `integer` column cannot hold fails the statement; so does a missing
      value for a NOT NULL column without default, or a null for any NOT
      NULL column. A stored row's integers are all int4. */
  function InsertCharacterRow(id: int, b: CharacterBody): (r: Result<Character, DbError>)
    ensures r.Ok? <==> !LacksCharacterColumn(b) && !NullsCharacterColumn(b) && FitsCharacterColumns(b)
    ensures r.Ok? ==> (
      && r.value.id == id && r.value.name == b.name.value
      && r.value.playerName == b.playerName.value && r.value.className == b.className.value
      && r.value.createdAt == b.createdAt.value && r.value.lastActive == b.lastActive.value
      && CharacterFitsColumns(r.value))
  {
    if !FitsCharacterColumns(b) then Err(OutOfRange)
    else if LacksCharacterColumn(b) || NullsCharacterColumn(b) then Err(NotNullViolation)
    else Ok(SetCharacterColumns(CharacterColumnDefaults(id), b))
  }

  /** A column that an insert does not mention takes its declared default:
      progression 1/0/1000/0, every core stat 0 (not 50), both gauges 1,
      "N/A" ranking, 0 duelist points, "unknown" notoriety, empty JSON
      collections, and null for the nullable columns without a default. */
  lemma CharacterColumnDefaultsApply(id: int, name: string, playerName: string, className: string, t: Timestamp)
    ensures
      var b := EmptyCharacterBody.(name := Present(name), playerName := Present(playerName),
                 className := Present(className), createdAt := Present(t), lastActive := Present(t));
      var r := InsertCharacterRow(id, b);
      && r.Ok?
      && r.value.level == 1 && r.value.currentXP == 0 && r.value.nextLevelXP == 1000 && r.value.gold == 0
      && r.value.strength == 0 && r.value.dexterity == 0 && r.value.intelligence == 0
      && r.value.wisdom == 0 && r.value.constitution == 0 && r.value.charisma == 0
      && r.value.stealth == 0 && r.value.intimidation == 0 && r.value.persuasion == 0
      && r.value.luck == 0
      && r.value.powerLevel == 1 && r.value.loreLevel == 1
      && r.value.arenaRanking == "N/A" && r.value.duelistPoints == 0 && r.value.notoriety == "unknown"
      && r.value.customStats == Some(map[]) && r.value.skills == Some(map[])
      && r.value.abilities == Some([]) && r.value.traits == Some([])
      && r.value.eventItems == Some([]) && r.value.questItems == Some([])
      && r.value.activeQuests == Some([]) && r.value.statusEffects == Some([])
      && r.value.loreEntries == Some([]) && r.value.equipment == Some([])
      && r.value.inventory == Some([])
      && r.value.faction == None && r.value.backstory == None && r.value.avatarUrl == None
      && r.value.duelistRank == None && r.value.weapon == None && r.value.supportSkill == None
      && r.value.notes == None
  {
  }

  // -----------------------------------------------------------------------
  // session_logs
  // -----------------------------------------------------------------------

  /** A row of `session_logs`. `characterId` is a plain integer column: no
      foreign key ties it to `characters`. */
  datatype SessionLog = SessionLog(
    id: int, characterId: int, title: string, description: string,
    xpGained: int, duration: Option<string>, tags: Option<seq<string>>,
    sessionDate: string, createdAt: Timestamp)

  /** A session-log-shaped JSON object. */
  datatype SessionLogBody = SessionLogBody(
    id: Field<int>, characterId: Field<int>, title: Field<string>, description: Field<string>,
    xpGained: Field<int>, duration: Field<string>, tags: Field<seq<string>>,
    sessionDate: Field<string>, createdAt: Field<Timestamp>)

  /** The empty JSON object `{}`. */
  const EmptySessionLogBody: SessionLogBody :=
    SessionLogBody(Absent, Absent, Absent, Absent, Absent, Absent, Absent, Absent, Absent)

  /** Column defaults of `session_logs`, placeholders where there is none. */
  function SessionLogColumnDefaults(id: int): SessionLog {
    SessionLog(id, 0, "", "", 0, None, Some([]), "", 0)
  }

  predicate NullsSessionLogColumn(b: SessionLogBody) {
    || b.characterId.Null? || b.title.Null? || b.description.Null?
    || b.xpGained.Null? || b.sessionDate.Null? || b.createdAt.Null?
  }

  /** Both `integer` columns of `session_logs` can hold what `b` gives them. */
  predicate FitsSessionLogColumns(b: SessionLogBody) {
    FitsInt32(b.characterId) && FitsInt32(b.xpGained)
  }

  predicate LacksSessionLogColumn(b: SessionLogBody) {
    !b.characterId.Present? || !b.title.Present? || !b.description.Present?
    || !b.sessionDate.Present? || !b.createdAt.Present?
  }

  /** `UPDATE session_logs SET <b>` on one row; `id` is kept. */
  function SetSessionLogColumns(l: SessionLog, b: SessionLogBody): SessionLog {
    l.(characterId := b.characterId.Or(l.characterId), title := b.title.Or(l.title),
       description := b.description.Or(l.description), xpGained := b.xpGained.Or(l.xpGained),
       duration := b.duration.Assign(l.duration), tags := b.tags.Assign(l.tags),
       sessionDate := b.sessionDate.Or(l.sessionDate), createdAt := b.createdAt.Or(l.createdAt))
  }

  /** `INSERT INTO session_logs VALUES <b>` with serial id `id`: fails on a
      number outside int4 and on a missing or null NOT NULL column. */
  function InsertSessionLogRow(id: int, b: SessionLogBody): (r: Result<SessionLog, DbError>)
    ensures r.Ok? <==> !LacksSessionLogColumn(b) && !NullsSessionLogColumn(b) && FitsSessionLogColumns(b)
    ensures r.Ok? ==> (
      && r.value.id == id && r.value.characterId == b.characterId.value
      && r.value.createdAt == b.createdAt.value
      && InInt32(r.value.characterId) && InInt32(r.value.xpGained)
      && (b.xpGained.Absent? ==> r.value.xpGained == 0)
      && (b.tags.Absent? ==> r.value.tags == Some([]))
      && (b.duration.Absent? ==> r.value.duration == None))
  {
    if !FitsSessionLogColumns(b) then Err(OutOfRange)
    else if LacksSessionLogColumn(b) || NullsSessionLogColumn(b) then Err(NotNullViolation)
    else Ok(SetSessionLogColumns(SessionLogColumnDefaults(id), b))
  }

  // -----------------------------------------------------------------------
  // Validation schemas (drizzle-zod): insert schemas omit the server-set
  // columns, update schemas make every remaining key optional. An `integer`
  // column becomes a number bounded to int4.
  // -----------------------------------------------------------------------

  /** `insertCharacterSchema.parse(b)`: keys for `id`, `createdAt` and
      `lastActive` are dropped (zod strips keys outside the schema); `name`,
      `playerName` and `className` must be given; no NOT NULL column may be
      null and no integer may leave int4. */
  function ParseInsertCharacter(b: CharacterBody): (r: Option<CharacterBody>)
    ensures r.Some? ==> r.value.id.Absent? && r.value.createdAt.Absent? && r.value.lastActive.Absent?
    ensures r.Some? ==> r.value == b.(id := Absent, createdAt := Absent, lastActive := Absent)
  {
    var v := b.(id := Absent, createdAt := Absent, lastActive := Absent);
    if v.name.Present? && v.playerName.Present? && v.className.Present? && !NullsCharacterColumn(v)
       && FitsCharacterColumns(v)
    then Some(v) else None
  }

  /** `updateCharacterSchema.parse(b)`: the insert schema with every key
      optional. */
  function ParseUpdateCharacter(b: CharacterBody): (r: Option<CharacterBody>)
    ensures r.Some? ==> r.value == b.(id := Absent, createdAt := Absent, lastActive := Absent)
  {
    var v := b.(id := Absent, createdAt := Absent, lastActive := Absent);
    if !NullsCharacterColumn(v) && FitsCharacterColumns(v) then Some(v) else None
  }

  /** `insertSessionLogSchema.parse(b)`: `id` and `createdAt` dropped;
      `characterId`, `title`, `description` and `sessionDate` required. */
  function ParseInsertSessionLog(b: SessionLogBody): (r: Option<SessionLogBody>)
    ensures r.Some? ==> r.value == b.(id := Absent, createdAt := Absent)
  {
    var v := b.(id := Absent, createdAt := Absent);
    if v.characterId.Present? && v.title.Present? && v.description.Present?
       && v.sessionDate.Present? && !NullsSessionLogColumn(v) && FitsSessionLogColumns(v)
    then Some(v) else None
  }

  /** `updateSessionLogSchema.parse(b)`: every key optional. */
  function ParseUpdateSessionLog(b: SessionLogBody): (r: Option<SessionLogBody>)
    ensures r.Some? ==> r.value == b.(id := Absent, createdAt := Absent)
  {
    var v := b.(id := Absent, createdAt := Absent);
    if !NullsSessionLogColumn(v) && FitsSessionLogColumns(v) then Some(v) else None
  }

  /** The insert schema is the table's own check, run ahead of time: once
      the server adds the serial id and the two timestamps, the table
      stores a body exactly when the schema accepts it, and parsing changes
      nothing about the row stored. */
  lemma InsertCharacterSchemaMatchesTable(b: CharacterBody, id: int, t: Timestamp)
    ensures ParseInsertCharacter(b).Some? <==>
            InsertCharacterRow(id, b.(createdAt := Present(t), lastActive := Present(t))).Ok?
    ensures ParseInsertCharacter(b).Some? ==>
            InsertCharacterRow(id, ParseInsertCharacter(b).value.(createdAt := Present(t), lastActive := Present(t)))
            == InsertCharacterRow(id, b.(createdAt := Present(t), lastActive := Present(t)))
  {
  }

  /** Likewise for session logs, with the server's `createdAt` added. */
  lemma InsertSessionLogSchemaMatchesTable(b: SessionLogBody, id: int, t: Timestamp)
    ensures ParseInsertSessionLog(b).Some? <==> InsertSessionLogRow(id, b.(createdAt := Present(t))).Ok?
    ensures ParseInsertSessionLog(b).Some? ==>
            InsertSessionLogRow(id, ParseInsertSessionLog(b).value.(createdAt := Present(t)))
            == InsertSessionLogRow(id, b.(createdAt := Present(t)))
  {
  }

  /** Every body the insert schema accepts, the update schema accepts too,
      with the same result: the update schema is the insert schema made
      partial. */
  lemma UpdateSchemasArePartial(b: CharacterBody, l: SessionLogBody)
    ensures ParseInsertCharacter(b).Some? ==> ParseUpdateCharacter(b) == ParseInsertCharacter(b)
    ensures ParseInsertSessionLog(l).Some? ==> ParseUpdateSessionLog(l) == ParseInsertSessionLog(l)
  {
  }
}

=== FILE: storage.dfy ===
/** The storage gateway (`DatabaseStorage`): every read and write of the
    three tables, as pure transitions `Store x arguments -> Store x result`.
    The clock reading and the bcrypt calls are parameters. */
module Storage {
  import opened Wrappers
  import opened Text
  import opened Tables
  import opened Schema

  /** The database: three tables in insertion order and the next value of
      each table's serial sequence. */
  datatype Store = Store(
    users: seq<User>, characters: seq<Character>, logs: seq<SessionLog>,
    nextUserId: int, nextCharacterId: int, nextLogId: int)

  /** A transition's new store and its result. */
  datatype Step<R> = Step(store: Store, out: R)

  function UserId(u: User): int { u.id }
  function Username(u: User): string { u.username }
  function CharacterId(c: Character): int { c.id }
  function LastActiveOf(c: Character): int { c.lastActive }
  function LogId(l: SessionLog): int { l.id }
  function LogCreatedAt(l: SessionLog): int { l.createdAt }

  /** What the database guarantees of every state: serial primary keys and
      unique usernames. */
  ghost predicate Valid(s: Store) {
    && Serial(s.users, UserId, s.nextUserId)
    && UniqueKeys(s.users, Username)
    && Serial(s.characters, CharacterId, s.nextCharacterId)
    && Serial(s.logs, LogId, s.nextLogId)
  }

  /** A freshly migrated database. */
  const EmptyStore: Store := Store([], [], [], 1, 1, 1)

  // -----------------------------------------------------------------------
  // users
  // -----------------------------------------------------------------------

  /** `getUser(id)`. */
  function GetUser(s: Store, id: int): (r: Option<User>)
    ensures r.Some? ==> r.value in s.users && r.value.id == id
    ensures r.None? <==> forall u :: u in s.users ==> u.id != id
  {
    Find(s.users, UserId, id)
  }

  /** `getUserByUsername(username)`. */
  function GetUserByUsername(s: Store, username: string): (r: Option<User>)
    ensures r.Some? ==> r.value in s.users && r.value.username == username
    ensures r.None? <==> forall u :: u in s.users ==> u.username != username
  {
    Find(s.users, Username, username)
  }

  /** The `InsertUser` object handed to `createUser`: the key called
      `passwordHash` carries the plaintext password; `role` and `createdAt`
      may be missing, null or set. */
  datatype NewUser = NewUser(username: string, password: string, role: Field<string>, createdAt: Field<Timestamp>)

  /** The length bound of the `username` column, `varchar(255)`. */
  const UsernameLength: nat := 255

  /** `createUser(data)`: stores `hash(password)` in place of the supplied
      password. The username is stored as `varchar(255)` stores it (too
      long fails, unless the excess is spaces, which are cut); `role` and
      `createdAt` take their column defaults when missing and violate NOT
      NULL when null; a username already stored violates the UNIQUE
      constraint. The NOT NULL check comes first, as PostgreSQL checks
      column constraints before it inserts into the unique index. */
  function CreateUser(s: Store, u: NewUser, hash: string -> string, now: Timestamp): (r: Step<Result<User, DbError>>)
    ensures r.out.Ok? <==> && VarChar(u.username, UsernameLength).Some?
                           && GetUserByUsername(s, VarChar(u.username, UsernameLength).value).None?
                           && !u.role.Null? && !u.createdAt.Null?
    ensures r.out.Ok? ==> (
      && r.out.value.passwordHash == hash(u.password)
      && r.out.value.username == VarChar(u.username, UsernameLength).value
      && |r.out.value.username| <= 255
      && r.out.value.role == (if u.role.Present? then u.role.value else "readonly")
      && r.out.value.createdAt == (if u.createdAt.Present? then u.createdAt.value else now)
      && r.store == s.(users := s.users + [r.out.value], nextUserId := s.nextUserId + 1))
    ensures r.out.Err? ==> r.store == s
    ensures r.out.Err? ==>
              r.out.error == (if VarChar(u.username, UsernameLength).None? then ValueTooLong
                              else if u.role.Null? || u.createdAt.Null? then NotNullViolation
                              else UniqueViolation)
    ensures Valid(s) ==> Valid(r.store)
  {
    match VarChar(u.username, UsernameLength)
    case None => Step(s, Err(ValueTooLong))
    case Some(username) =>
      if u.role.Null? || u.createdAt.Null? then Step(s, Err(NotNullViolation))
      else if GetUserByUsername(s, username).Some? then Step(s, Err(UniqueViolation))
      else
        var user := User(s.nextUserId, username, hash(u.password), u.role.Or(RoleColumnDefault), u.createdAt.Or(now));
        var s' := s.(users := s.users + [user], nextUserId := s.nextUserId + 1);
        assert Valid(s) ==> Valid(s') by {
          if Valid(s) {
            AppendSerial(s.users, UserId, s.nextUserId, user);
            AppendUniqueKey(s.users, Username, user);
          }
        }
        Step(s', Ok(user))
  }

  /** `validateUser(username, password)`: the user holding `username` when
      `compare(password, storedHash)` accepts, and nothing otherwise. */
  function ValidateUser(s: Store, username: string, password: string, compare: (string, string) -> bool): (r: Option<User>)
    ensures r.Some? <==> (exists u :: u in s.users && u.username == username && compare(password, u.passwordHash)
                                      && GetUserByUsername(s, username) == Some(u))
    ensures r.Some? ==> r.value in s.users && r.value.username == username
  {
    match GetUserByUsername(s, username)
    case None => None
    case Some(u) => if compare(password, u.passwordHash) then Some(u) else None
  }

  const DefaultUsername: string := "master"
  const DefaultPassword: string := "password"

  /** `initializeDefaultUser()`: creates the account "master" with role
      "master" and the hashed default password, unless that username is
      already taken. */
  function InitializeDefaultUser(s: Store, hash: string -> string, now: Timestamp): (r: Store)
    ensures GetUserByUsername(r, "master").Some?
    ensures GetUserByUsername(s, "master").Some? ==> r == s
    ensures GetUserByUsername(s, "master").None? ==>
      r == s.(users := s.users + [User(s.nextUserId, "master", hash("password"), "master", now)],
              nextUserId := s.nextUserId + 1)
    ensures Valid(s) ==> Valid(r)
  {
    if GetUserByUsername(s, DefaultUsername).Some? then s
    else
      var user := User(s.nextUserId, DefaultUsername, hash(DefaultPassword), MasterRole, now);
      var s' := s.(users := s.users + [user], nextUserId := s.nextUserId + 1);
      assert Find(s'.users, Username, DefaultUsername).Some? by {
        assert user in s'.users;
      }
      assert Valid(s) ==> Valid(s') by {
        if Valid(s) {
          AppendSerial(s.users, UserId, s.nextUserId, user);
          AppendUniqueKey(s.users, Username, user);
        }
      }
      s'
  }

  /** Running the bootstrap again, with any hash and clock, changes nothing. */
  lemma InitializeDefaultUserIdempotent(s: Store, hash: string -> string, now: Timestamp, hash': string -> string, now': Timestamp)
    ensures InitializeDefaultUser(InitializeDefaultUser(s, hash, now), hash', now') == InitializeDefaultUser(s, hash, now)
  {
  }

  function IsDefaultAccount(u: User): bool { u.username == DefaultUsername }

  /** After the bootstrap exactly one account is named "master". */
  lemma InitializeDefaultUserSingleMaster(s: Store, hash: string -> string, now: Timestamp)
    requires Valid(s)
    ensures |Filter(InitializeDefaultUser(s, hash, now).users, IsDefaultAccount)| == 1
  {
    var r := InitializeDefaultUser(s, hash, now);
    CountUniqueKey(r.users, Username, DefaultUsername, IsDefaultAccount);
  }

  // -----------------------------------------------------------------------
  // characters: reads
  // -----------------------------------------------------------------------

  /** `getCharacter(id)`. */
  function GetCharacter(s: Store, id: int): (r: Option<Character>)
    ensures r.Some? ==> r.value in s.characters && r.value.id == id
    ensures r.None? <==> forall c :: c in s.characters ==> c.id != id
  {
    Find(s.characters, CharacterId, id)
  }

  /** `getCharacters()`: every character, most recently active first. */
  function GetCharacters(s: Store): (r: seq<Character>)
    ensures multiset(r) == multiset(s.characters)
    ensures SortedDesc(r, LastActiveOf)
    ensures forall c :: c in r <==> c in s.characters
  {
    SortDescMembers(s.characters, LastActiveOf);
    SortDesc(s.characters, LastActiveOf)
  }

  /** `getCharactersByPlayer(playerName)`: the characters whose player name
      equals `playerName` exactly, most recently active first. */
  function GetCharactersByPlayer(s: Store, playerName: string): (r: seq<Character>)
    ensures forall c :: c in r <==> c in s.characters && c.playerName == playerName
    ensures forall c :: multiset(r)[c] == if c.playerName == playerName then multiset(s.characters)[c] else 0
    ensures SortedDesc(r, LastActiveOf)
  {
    var keep := (c: Character) => c.playerName == playerName;
    var rows := Filter(s.characters, keep);
    FilterMultiset(s.characters, keep);
    SortDescMembers(rows, LastActiveOf);
    SortDesc(rows, LastActiveOf)
  }

  /** The `WHERE` of `searchCharacters`: `pattern` occurs in the name, the
      player name, the class, or a non-null faction. The columns are compared
      as stored (LIKE is case-sensitive); a null faction matches nothing. */
  function MatchesSearch(pattern: string): Character -> bool {
    (c: Character) =>
      || Contains(c.name, pattern) || Contains(c.playerName, pattern)
      || Contains(c.className, pattern)
      || (c.faction.Some? && Contains(c.faction.value, pattern))
  }

  /** `searchCharacters(query)` as written: the characters with
      `query.toLowerCase()` in one of the four searched columns, compared
      case-sensitively, most recently active first. */
  function SearchCharacters(s: Store, query: string): (r: seq<Character>)
    ensures forall c :: c in r <==> (
      && c in s.characters
      && var q := ToLower(query);
      || Contains(c.name, q) || Contains(c.playerName, q) || Contains(c.className, q)
      || (c.faction.Some? && Contains(c.faction.value, q)))
    ensures forall c :: multiset(r)[c] == if MatchesSearch(ToLower(query))(c) then multiset(s.characters)[c] else 0
    ensures SortedDesc(r, LastActiveOf)
  {
    var rows := Filter(s.characters, MatchesSearch(ToLower(query)));
    FilterMultiset(s.characters, MatchesSearch(ToLower(query)));
    SortDescMembers(rows, LastActiveOf);
    SortDesc(rows, LastActiveOf)
  }

  /** A character named "Alice" is not found by the query "alice", nor by
      "Alice" itself: the query is lowered but the columns are not. */
  lemma SearchIsCaseSensitive()
    ensures var c := CharacterColumnDefaults(1).(name := "Alice");
            var s := Store([], [c], [], 1, 2, 1);
            && SearchCharacters(s, "Alice") == []
            && SearchCharactersIgnoringCase(s, "Alice") == [c]
  {
    var c := CharacterColumnDefaults(1).(name := "Alice");
    var s := Store([], [c], [], 1, 2, 1);
    AliceIsNotalice();
    assert !MatchesSearch("alice")(c);
    SearchFindsNothing(s, "Alice");
    var r' := SearchCharactersIgnoringCase(s, "Alice");
    assert MatchesSearchIgnoringCase("alice")(c) by {
      StartsWithAppend("alice", []);
      assert "alice" + [] == "alice";
    }
    assert multiset(r') == multiset([c]);
    MultisetSingleton(r', c);
  }

  /** The string facts behind the example above. */
  lemma AliceIsNotalice()
    ensures ToLower("Alice") == "alice"
    ensures !Contains("Alice", "alice") && !Contains("", "alice")
  {
    assert ToLower("Alice")[0] == 'a';
    assert !OccursAt("Alice", "alice", 0) by {
      assert "Alice"[0..5][0] == 'A';
    }
  }

  /** A search whose every stored character misses the query finds nothing. */
  lemma SearchFindsNothing(s: Store, query: string)
    requires forall c :: c in s.characters ==> !MatchesSearch(ToLower(query))(c)
    ensures SearchCharacters(s, query) == []
  {
  }

  /** A sequence whose multiset is that of `[x]` is `[x]`. */
  lemma MultisetSingleton<T>(t: seq<T>, x: T)
    requires multiset(t) == multiset([x])
    ensures t == [x]
  {
    assert |t| == |multiset(t)| == 1;
    assert t[0] in multiset(t);
  }

  /** The evidently intended `WHERE`: the lowered query occurs in one of
      the four columns once that column is lowered too (an `ilike`). */
  function MatchesSearchIgnoringCase(pattern: string): Character -> bool {
    (c: Character) =>
      || Contains(ToLower(c.name), pattern) || Contains(ToLower(c.playerName), pattern)
      || Contains(ToLower(c.className), pattern)
      || (c.faction.Some? && Contains(ToLower(c.faction.value), pattern))
  }

  /** The corrected search: like `SearchCharacters`, but comparing
      the lowered query with lowered columns. */
  function SearchCharactersIgnoringCase(s: Store, query: string): (r: seq<Character>)
    ensures forall c :: c in r <==> (
      && c in s.characters
      && var q := ToLower(query);
      || Contains(ToLower(c.name), q) || Contains(ToLower(c.playerName), q)
      || Contains(ToLower(c.className), q)
      || (c.faction.Some? && Contains(ToLower(c.faction.value), q)))
    ensures forall c :: multiset(r)[c] == if MatchesSearchIgnoringCase(ToLower(query))(c) then multiset(s.characters)[c] else 0
    ensures SortedDesc(r, LastActiveOf)
  {
    var rows := Filter(s.characters, MatchesSearchIgnoringCase(ToLower(query)));
    FilterMultiset(s.characters, MatchesSearchIgnoringCase(ToLower(query)));
    SortDescMembers(rows, LastActiveOf);
    SortDesc(rows, LastActiveOf)
  }

  /** The case of the query does not matter. */
  lemma SearchIgnoringCaseLowersQuery(s: Store, query: string)
    ensures SearchCharactersIgnoringCase(s, ToLower(query)) == SearchCharactersIgnoringCase(s, query)
  {
    ToLowerIdempotent(query);
  }

  /** Whatever the search as written finds, the corrected search finds. */
  lemma SearchIgnoringCaseExtendsSearch(s: Store, query: string)
    ensures forall c :: c in SearchCharacters(s, query) ==> c in SearchCharactersIgnoringCase(s, query)
  {
    forall c | c in SearchCharacters(s, query)
      ensures c in SearchCharactersIgnoringCase(s, query)
    {
      ContainsLowered(c.name, query);
      ContainsLowered(c.playerName, query);
      ContainsLowered(c.className, query);
      if c.faction.Some? {
        ContainsLowered(c.faction.value, query);
      }
    }
  }

  /** A character whose name is the query up to case is found. */
  lemma SearchIgnoringCaseFindsName(s: Store, c: Character, query: string)
    requires c in s.characters && ToLower(c.name) == ToLower(query)
    ensures c in SearchCharactersIgnoringCase(s, query)
  {
    StartsWithAppend(ToLower(c.name), []);
    assert ToLower(c.name) + [] == ToLower(c.name);
  }

  // -----------------------------------------------------------------------
  // characters: writes
  // -----------------------------------------------------------------------

  /** The object `createCharacter` builds and inserts: the three identity
      keys as given, `?? null` for the nullable texts, `?? default` for the
      numbers, texts and collections it names, both timestamps at `now`.
      Every other key of the input is left out. Only the identity keys can
      still be missing or null, and only the numbers the input supplied can
      be out of range (`duelistPoints` is not forwarded). */
  function CreateCharacterValues(b: CharacterBody, now: Timestamp): (r: CharacterBody)
    ensures LacksCharacterColumn(r) || NullsCharacterColumn(r) <==>
            !(b.name.Present? && b.playerName.Present? && b.className.Present?)
    ensures FitsCharacterColumns(r) <==> FitsCharacterColumns(b.(duelistPoints := Absent))
    ensures r.id.Absent? && r.createdAt == Present(now) && r.lastActive == Present(now)
  {
    var r := CharacterBody(
      Absent,
      b.name, b.playerName, b.className,
      b.faction.OrNull(), b.backstory.OrNull(), b.avatarUrl.OrNull(),
      Present(b.level.Or(1)), Present(b.currentXP.Or(0)), Present(b.nextLevelXP.Or(1000)), Present(b.gold.Or(0)),
      Present(b.strength.Or(50)), Present(b.dexterity.Or(50)), Present(b.intelligence.Or(50)),
      Present(b.wisdom.Or(50)), Present(b.constitution.Or(50)), Present(b.charisma.Or(50)),
      Present(b.stealth.Or(50)), Present(b.intimidation.Or(50)), Present(b.persuasion.Or(50)),
      Present(b.luck.Or(50)),
      Present(b.customStats.Or(map[])),
      Present(b.powerLevel.Or(1)), Present(b.loreLevel.Or(1)),
      Present(b.arenaRanking.Or("N/A")),
      Absent, Absent,
      Absent, Absent,
      Absent, Absent,
      Absent,
      Absent, Absent,
      Absent, Absent,
      Absent,
      Present(b.notoriety.Or("unknown")),
      Present(b.equipment.Or([])), Present(b.inventory.Or([])),
      b.notes.OrNull(),
      Present(now), Present(now));
    assert NullsCharacterColumn(r) <==> r.name.Null? || r.playerName.Null? || r.className.Null?;
    assert forall f: Field<int>, d: int :: InInt32(d) ==> (FitsInt32(Present(f.Or(d))) <==> FitsInt32(f));
    r
  }

  /** The message every failed character insert is reported with. */
  const CreateCharacterFailure: string := "Failed to create character"

  /** The bodies `createCharacter` can store: the three identity keys are
      given, and every number it forwards fits its `integer` column. */
  predicate CreatableCharacter(b: CharacterBody) {
    && b.name.Present? && b.playerName.Present? && b.className.Present?
    && FitsCharacterColumns(b.(duelistPoints := Absent))
  }

  /** `createCharacter(data)`: inserts the defaulted record, stamped `now`,
      under the next serial id. It fails exactly when one of `name`,
      `playerName`, `className` is missing or null or a forwarded number is
      outside int4, and then only with the fixed error, leaving the store
      as it was. */
  function CreateCharacter(s: Store, b: CharacterBody, now: Timestamp): (r: Step<Result<Character, DbError>>)
    ensures r.out.Ok? <==> CreatableCharacter(b)
    ensures r.out.Ok? ==> (
      && r.out.value.id == s.nextCharacterId
      && r.out.value.name == b.name.value
      && r.out.value.playerName == b.playerName.value
      && r.out.value.className == b.className.value
      && r.out.value.createdAt == now && r.out.value.lastActive == now
      && CharacterFitsColumns(r.out.value)
      && r.store == s.(characters := s.characters + [r.out.value], nextCharacterId := s.nextCharacterId + 1))
    ensures r.out.Err? ==> r.store == s && r.out.error == Failed("Failed to create character")
    ensures Valid(s) ==> Valid(r.store)
  {
    match InsertCharacterRow(s.nextCharacterId, CreateCharacterValues(b, now))
    case Err(_) => Step(s, Err(Failed(CreateCharacterFailure)))
    case Ok(c) =>
      var s' := s.(characters := s.characters + [c], nextCharacterId := s.nextCharacterId + 1);
      assert Valid(s) ==> Valid(s') by {
        if Valid(s) {
          AppendSerial(s.characters, CharacterId, s.nextCharacterId, c);
        }
      }
      Step(s', Ok(c))
  }

  /** What a created character holds in the columns `createCharacter`
      defaults: a supplied value (even 0 or "") is kept, a missing or null
      one becomes 1/0/1000/0 for progression, 50 for each core stat, `{}`
      custom stats, level 1 gauges, "N/A" ranking, "unknown" notoriety,
      empty equipment and inventory, and null for the four nullable texts. */
  lemma CreateCharacterDefaults(s: Store, b: CharacterBody, now: Timestamp)
    ensures var r := CreateCharacter(s, b, now);
      r.out.Ok? ==> (
      var c := r.out.value;
      && c.level == (if b.level.Present? then b.level.value else 1)
      && c.currentXP == (if b.currentXP.Present? then b.currentXP.value else 0)
      && c.nextLevelXP == (if b.nextLevelXP.Present? then b.nextLevelXP.value else 1000)
      && c.gold == (if b.gold.Present? then b.gold.value else 0)
      && c.strength == (if b.strength.Present? then b.strength.value else 50)
      && c.dexterity == (if b.dexterity.Present? then b.dexterity.value else 50)
      && c.intelligence == (if b.intelligence.Present? then b.intelligence.value else 50)
      && c.wisdom == (if b.wisdom.Present? then b.wisdom.value else 50)
      && c.constitution == (if b.constitution.Present? then b.constitution.value else 50)
      && c.charisma == (if b.charisma.Present? then b.charisma.value else 50)
      && c.stealth == (if b.stealth.Present? then b.stealth.value else 50)
      && c.intimidation == (if b.intimidation.Present? then b.intimidation.value else 50)
      && c.persuasion == (if b.persuasion.Present? then b.persuasion.value else 50)
      && c.luck == (if b.luck.Present? then b.luck.value else 50)
      && c.customStats == Some(if b.customStats.Present? then b.customStats.value else map[])
      && c.powerLevel == (if b.powerLevel.Present? then b.powerLevel.value else 1)
      && c.loreLevel == (if b.loreLevel.Present? then b.loreLevel.value else 1)
      && c.arenaRanking == (if b.arenaRanking.Present? then b.arenaRanking.value else "N/A")
      && c.notoriety == (if b.notoriety.Present? then b.notoriety.value else "unknown")
      && c.equipment == Some(if b.equipment.Present? then b.equipment.value else [])
      && c.inventory == Some(if b.inventory.Present? then b.inventory.value else [])
      && c.faction == (if b.faction.Present? then Some(b.faction.value) else None)
      && c.backstory == (if b.backstory.Present? then Some(b.backstory.value) else None)
      && c.avatarUrl == (if b.avatarUrl.Present? then Some(b.avatarUrl.value) else None)
      && c.notes == (if b.notes.Present? then Some(b.notes.value) else None))
  {
  }

  /** The keys `createCharacter` never forwards: the twelve game-state
      columns it leaves out, plus the server-controlled `id`, `createdAt`
      and `lastActive`. */
  function WithoutDroppedKeys(b: CharacterBody): (r: CharacterBody)
    ensures r.name == b.name && r.playerName == b.playerName && r.className == b.className
    ensures r.weapon.Absent? && r.abilities.Absent? && r.lastActive.Absent?
  {
    b.(id := Absent, duelistRank := Absent, duelistPoints := Absent,
       weapon := Absent, supportSkill := Absent, abilities := Absent, traits := Absent,
       skills := Absent, eventItems := Absent, questItems := Absent, activeQuests := Absent,
       statusEffects := Absent, loreEntries := Absent, createdAt := Absent, lastActive := Absent)
  }

  /** `createCharacter` ignores the dropped keys entirely: whatever they
      hold, the outcome is that of the body without them, and the stored
      row carries the column defaults there (null rank and weapon and
      support skill, 0 duelist points, empty lists and skill map). */
  lemma CreateCharacterDropsFields(s: Store, b: CharacterBody, now: Timestamp)
    ensures CreateCharacter(s, b, now) == CreateCharacter(s, WithoutDroppedKeys(b), now)
    ensures var r := CreateCharacter(s, b, now);
      r.out.Ok? ==> (
        var c := r.out.value;
        && c.duelistRank == None && c.duelistPoints == 0
        && c.weapon == None && c.supportSkill == None
        && c.abilities == Some([]) && c.traits == Some([]) && c.skills == Some(map[])
        && c.eventItems == Some([]) && c.questItems == Some([]) && c.activeQuests == Some([])
        && c.statusEffects == Some([]) && c.loreEntries == Some([]))
  {
    assert CreateCharacterValues(b, now) == CreateCharacterValues(WithoutDroppedKeys(b), now);
  }

  /** A body the insert schema accepts always makes a character: the
      constraint errors `createCharacter` can raise are exactly the ones the
      schema (which the route does not apply) would have caught. */
  lemma InsertSchemaPreventsCreateFailure(s: Store, b: CharacterBody, now: Timestamp)
    requires ParseInsertCharacter(b).Some?
    ensures CreateCharacter(s, ParseInsertCharacter(b).value, now).out.Ok?
    ensures CreateCharacter(s, b, now).out.Ok?
  {
  }

  /** Likewise a body the update schema accepts never violates a constraint
      when written by `updateCharacter`. */
  lemma UpdateSchemaPreventsUpdateFailure(s: Store, id: int, b: CharacterBody, now: Timestamp)
    requires ParseUpdateCharacter(b).Some?
    ensures !UpdateCharacter(s, id, b, now).out.Err?
  {
  }

  /** The update schema against a stored row: `updateCharacter` writes a
      patch exactly when the schema would have accepted it. */
  lemma UpdateCharacterSchemaMatchesUpdate(s: Store, id: int, b: CharacterBody, now: Timestamp)
    requires GetCharacter(s, id).Some?
    ensures ParseUpdateCharacter(b).Some? <==> UpdateCharacter(s, id, b, now).out.Ok?
  {
  }

  /** The set `updateCharacter` sends: the patch without `id` and
      `createdAt`, and with `lastActive` forced to `now`. Only the client's
      keys can make it fail: the server's own values are never null or out
      of range, and the two stripped keys are never written. */
  function CharacterUpdateSet(b: CharacterBody, now: Timestamp): (r: CharacterBody)
    ensures NullsCharacterColumn(r) <==> NullsCharacterColumn(b.(createdAt := Absent, lastActive := Absent))
    ensures FitsCharacterColumns(r) <==> FitsCharacterColumns(b)
    ensures r.id.Absent? && r.createdAt.Absent? && r.lastActive == Present(now)
  {
    b.(id := Absent, createdAt := Absent, lastActive := Present(now))
  }

  /** A patch written over `before` gives `after`: for every column but the
      three the server controls, a supplied value is stored, a null clears a
      nullable column, and a missing key keeps the old value. */
  ghost predicate FollowsPatch(before: Character, after: Character, b: CharacterBody) {
    && Kept(b.name, before.name, after.name) && Kept(b.playerName, before.playerName, after.playerName)
    && Kept(b.className, before.className, after.className)
    && KeptNullable(b.faction, before.faction, after.faction)
    && KeptNullable(b.backstory, before.backstory, after.backstory)
    && KeptNullable(b.avatarUrl, before.avatarUrl, after.avatarUrl)
    && Kept(b.level, before.level, after.level) && Kept(b.currentXP, before.currentXP, after.currentXP)
    && Kept(b.nextLevelXP, before.nextLevelXP, after.nextLevelXP) && Kept(b.gold, before.gold, after.gold)
    && Kept(b.strength, before.strength, after.strength) && Kept(b.dexterity, before.dexterity, after.dexterity)
    && Kept(b.intelligence, before.intelligence, after.intelligence) && Kept(b.wisdom, before.wisdom, after.wisdom)
    && Kept(b.constitution, before.constitution, after.constitution)
    && Kept(b.charisma, before.charisma, after.charisma) && Kept(b.stealth, before.stealth, after.stealth)
    && Kept(b.intimidation, before.intimidation, after.intimidation)
    && Kept(b.persuasion, before.persuasion, after.persuasion) && Kept(b.luck, before.luck, after.luck)
    && KeptNullable(b.customStats, before.customStats, after.customStats)
    && Kept(b.powerLevel, before.powerLevel, after.powerLevel) && Kept(b.loreLevel, before.loreLevel, after.loreLevel)
    && Kept(b.arenaRanking, before.arenaRanking, after.arenaRanking)
    && KeptNullable(b.duelistRank, before.duelistRank, after.duelistRank)
    && Kept(b.duelistPoints, before.duelistPoints, after.duelistPoints)
    && KeptNullable(b.weapon, before.weapon, after.weapon)
    && KeptNullable(b.supportSkill, before.supportSkill, after.supportSkill)
    && KeptNullable(b.abilities, before.abilities, after.abilities)
    && KeptNullable(b.traits, before.traits, after.traits)
    && KeptNullable(b.skills, before.skills, after.skills)
    && KeptNullable(b.eventItems, before.eventItems, after.eventItems)
    && KeptNullable(b.questItems, before.questItems, after.questItems)
    && KeptNullable(b.activeQuests, before.activeQuests, after.activeQuests)
    && KeptNullable(b.statusEffects, before.statusEffects, after.statusEffects)
    && KeptNullable(b.loreEntries, before.loreEntries, after.loreEntries)
    && Kept(b.notoriety, before.notoriety, after.notoriety)
    && KeptNullable(b.equipment, before.equipment, after.equipment)
    && KeptNullable(b.inventory, before.inventory, after.inventory)
    && KeptNullable(b.notes, before.notes, after.notes)
  }

  /** A NOT NULL column: the supplied value, else the old one. */
  ghost predicate Kept<T>(f: Field<T>, before: T, after: T) {
    (f.Present? ==> after == f.value) && (!f.Present? ==> after == before)
  }

  /** A nullable column: the supplied value, null when null is supplied,
      else the old one. */
  ghost predicate KeptNullable<T>(f: Field<T>, before: Option<T>, after: Option<T>) {
    && (f.Present? ==> after == Some(f.value))
    && (f.Null? ==> after == None)
    && (f.Absent? ==> after == before)
  }

  /** `updateCharacter(id, patch)`. A number outside int4 fails the
      statement before any row is looked at. Otherwise, with no row under
      `id` nothing changes and the result is "not found"; a null for a NOT
      NULL column (other than the stripped `createdAt` and the forced
      `lastActive`) is a constraint violation that changes nothing; else the
      row keeps its `id` and `createdAt` whatever the patch says, gets
      `lastActive = now`, takes every other supplied key, and is returned.
      No other row changes. */
  function UpdateCharacter(s: Store, id: int, b: CharacterBody, now: Timestamp): (r: Step<Result<Option<Character>, DbError>>)
    ensures !FitsCharacterColumns(b) ==> r == Step(s, Err(OutOfRange))
    ensures FitsCharacterColumns(b) && GetCharacter(s, id).None? ==> r == Step(s, Ok(None))
    ensures FitsCharacterColumns(b) && GetCharacter(s, id).Some? ==> (
      var before := GetCharacter(s, id).value;
      && (r.out.Err? <==> NullsCharacterColumn(b.(createdAt := Absent, lastActive := Absent)))
      && (r.out.Err? ==> r.store == s && r.out.error == NotNullViolation)
      && (r.out.Ok? ==> (
        && r.out.value.Some?
        && var after := r.out.value.value;
        && after.id == id && after.createdAt == before.createdAt && after.lastActive == now
        && FollowsPatch(before, after, b)
        && GetCharacter(r.store, id) == Some(after))))
    ensures forall k :: k != id ==> GetCharacter(r.store, k) == GetCharacter(s, k)
    ensures r.store.users == s.users && r.store.logs == s.logs
    ensures r.store.nextCharacterId == s.nextCharacterId && |r.store.characters| == |s.characters|
    ensures Valid(s) ==> Valid(r.store)
  {
    var changes := CharacterUpdateSet(b, now);
    if !FitsCharacterColumns(changes) then Step(s, Err(OutOfRange))
    else
    match GetCharacter(s, id)
    case None => Step(s, Ok(None))
    case Some(before) =>
      if NullsCharacterColumn(changes) then Step(s, Err(NotNullViolation))
      else
        var f := (c: Character) => SetCharacterColumns(c, changes);
        var s' := s.(characters := UpdateWhere(s.characters, CharacterId, id, f));
        PatchedCharacter(before, b, now);
        forall k ensures GetCharacter(s', k) == if k == id then Some(f(before)) else GetCharacter(s, k) {
          FindUpdateWhere(s.characters, CharacterId, id, f, k);
        }
        assert Valid(s) ==> Valid(s') by {
          if Valid(s) {
            UpdateWhereSerial(s.characters, CharacterId, s.nextCharacterId, id, f);
          }
        }
        Step(s', Ok(Some(f(before))))
  }

  /** The row `updateCharacter` writes keeps `id` and `createdAt`, is
      stamped `now`, and follows the patch everywhere else. */
  lemma PatchedCharacter(before: Character, b: CharacterBody, now: Timestamp)
    requires !NullsCharacterColumn(CharacterUpdateSet(b, now))
    ensures var after := SetCharacterColumns(before, CharacterUpdateSet(b, now));
      && after.id == before.id && after.createdAt == before.createdAt && after.lastActive == now
      && FollowsPatch(before, after, b)
  {
  }

  /** `deleteCharacter(id)`: first every session log of the character is
      removed, then the character; the result says whether a character row
      existed. Logs are removed even when it did not. */
  function DeleteCharacter(s: Store, id: int): (r: Step<bool>)
    ensures r.out <==> GetCharacter(s, id).Some?
    ensures forall c :: c in r.store.characters <==> c in s.characters && c.id != id
    ensures forall l :: l in r.store.logs <==> l in s.logs && l.characterId != id
    ensures GetCharacter(r.store, id).None?
    ensures forall k :: k != id ==> GetCharacter(r.store, k) == GetCharacter(s, k)
    ensures r.store.users == s.users
    ensures r.store.nextCharacterId == s.nextCharacterId && r.store.nextLogId == s.nextLogId
    ensures Valid(s) ==> Valid(r.store)
  {
    var logs := Filter(s.logs, (l: SessionLog) => l.characterId != id);
    var existed := GetCharacter(s, id).Some?;
    var keep := (c: Character) => c.id != id;
    var characters := Filter(s.characters, keep);
    var s' := s.(logs := logs, characters := characters);
    forall k | k != id ensures GetCharacter(s', k) == GetCharacter(s, k) {
      FindFilter(s.characters, CharacterId, k, keep);
    }
    assert Valid(s) ==> Valid(s') by {
      if Valid(s) {
        FilterSerial(s.characters, CharacterId, s.nextCharacterId, keep);
        FilterSerial(s.logs, LogId, s.nextLogId, (l: SessionLog) => l.characterId != id);
      }
    }
    Step(s', existed)
  }

  // -----------------------------------------------------------------------
  // session logs
  // -----------------------------------------------------------------------

  /** `getSessionLogs(characterId)`: that character's logs, newest first. */
  function GetSessionLogs(s: Store, characterId: int): (r: seq<SessionLog>)
    ensures forall l :: l in r <==> l in s.logs && l.characterId == characterId
    ensures forall l :: multiset(r)[l] == if l.characterId == characterId then multiset(s.logs)[l] else 0
    ensures SortedDesc(r, LogCreatedAt)
  {
    var keep := (l: SessionLog) => l.characterId == characterId;
    var rows := Filter(s.logs, keep);
    FilterMultiset(s.logs, keep);
    SortDescMembers(rows, LogCreatedAt);
    SortDesc(rows, LogCreatedAt)
  }

  /** The log with primary key `id`: the row `updateSessionLog` and
      `deleteSessionLog` address. */
  function FindSessionLog(s: Store, id: int): (r: Option<SessionLog>)
    ensures r.Some? ==> r.value in s.logs && r.value.id == id
    ensures r.None? <==> forall l :: l in s.logs ==> l.id != id
  {
    Find(s.logs, LogId, id)
  }

  /** The object `createSessionLog` inserts: the four identity keys as given,
      `xpGained ?? 0`, `duration ?? null`, `tags ?? []`, `createdAt = now`. */
  function CreateSessionLogValues(b: SessionLogBody, now: Timestamp): (r: SessionLogBody)
    ensures LacksSessionLogColumn(r) || NullsSessionLogColumn(r) <==>
            !(b.characterId.Present? && b.title.Present? && b.description.Present? && b.sessionDate.Present?)
    ensures FitsSessionLogColumns(r) <==> FitsSessionLogColumns(b)
    ensures r.id.Absent? && r.createdAt == Present(now)
  {
    var r := SessionLogBody(Absent, b.characterId, b.title, b.description,
                            Present(b.xpGained.Or(0)), b.duration.OrNull(),
                            Present(b.tags.Or([])), b.sessionDate, Present(now));
    assert FitsInt32(r.xpGained) <==> FitsInt32(b.xpGained);
    r
  }

  /** `createSessionLog(data)`: inserts the defaulted log stamped `now`
      under the next serial id. An integer outside int4 is refused first;
      then a missing or null `characterId`, `title`, `description` or
      `sessionDate` is a constraint violation. Nothing checks that
      `characterId` names a character. */
  function CreateSessionLog(s: Store, b: SessionLogBody, now: Timestamp): (r: Step<Result<SessionLog, DbError>>)
    ensures r.out.Ok? <==>
            && b.characterId.Present? && b.title.Present? && b.description.Present? && b.sessionDate.Present?
            && FitsSessionLogColumns(b)
    ensures r.out.Ok? ==> (
      var l := r.out.value;
      && l.id == s.nextLogId && l.characterId == b.characterId.value
      && l.title == b.title.value && l.description == b.description.value
      && l.sessionDate == b.sessionDate.value
      && l.xpGained == (if b.xpGained.Present? then b.xpGained.value else 0)
      && l.duration == (if b.duration.Present? then Some(b.duration.value) else None)
      && l.tags == Some(if b.tags.Present? then b.tags.value else [])
      && l.createdAt == now
      && InInt32(l.characterId) && InInt32(l.xpGained)
      && r.store == s.(logs := s.logs + [l], nextLogId := s.nextLogId + 1))
    ensures r.out.Err? ==> r.store == s && r.out.error == (if FitsSessionLogColumns(b) then NotNullViolation else OutOfRange)
    ensures Valid(s) ==> Valid(r.store)
  {
    match InsertSessionLogRow(s.nextLogId, CreateSessionLogValues(b, now))
    case Err(e) => Step(s, Err(e))
    case Ok(l) =>
      var s' := s.(logs := s.logs + [l], nextLogId := s.nextLogId + 1);
      assert Valid(s) ==> Valid(s') by {
        if Valid(s) {
          AppendSerial(s.logs, LogId, s.nextLogId, l);
        }
      }
      Step(s', Ok(l))
  }

  /** A log patch that sets no column once `id` is stripped: drizzle
      refuses to build an UPDATE with an empty SET list. */
  predicate EmptyLogPatch(b: SessionLogBody) {
    b.(id := Absent) == EmptySessionLogBody
  }

  /** `updateSessionLog(id, patch)`: only `id` is stripped, so `createdAt`
      and `characterId` can be rewritten. A patch that sets nothing fails
      before any query; an integer outside int4 fails at parameter binding,
      before any row is looked up. Then: no row is "not found" and no
      change; a null for a NOT NULL column is a violation and no change;
      otherwise every supplied key is written and no other log changes. */
  function UpdateSessionLog(s: Store, id: int, b: SessionLogBody): (r: Step<Result<Option<SessionLog>, DbError>>)
    ensures EmptyLogPatch(b) ==> r == Step(s, Err(EmptyUpdate))
    ensures !EmptyLogPatch(b) && !FitsSessionLogColumns(b) ==> r == Step(s, Err(OutOfRange))
    ensures !EmptyLogPatch(b) && FitsSessionLogColumns(b) && FindSessionLog(s, id).None? ==> r == Step(s, Ok(None))
    ensures !EmptyLogPatch(b) && FitsSessionLogColumns(b) && FindSessionLog(s, id).Some? ==> (
      var before := FindSessionLog(s, id).value;
      && (r.out.Err? <==> NullsSessionLogColumn(b))
      && (r.out.Err? ==> r == Step(s, Err(NotNullViolation)))
      && (r.out.Ok? ==> (
        && r.out.value.Some?
        && var after := r.out.value.value;
        && after.id == id
        && Kept(b.characterId, before.characterId, after.characterId)
        && Kept(b.title, before.title, after.title)
        && Kept(b.description, before.description, after.description)
        && Kept(b.xpGained, before.xpGained, after.xpGained)
        && KeptNullable(b.duration, before.duration, after.duration)
        && KeptNullable(b.tags, before.tags, after.tags)
        && Kept(b.sessionDate, before.sessionDate, after.sessionDate)
        && Kept(b.createdAt, before.createdAt, after.createdAt)
        && FindSessionLog(r.store, id) == Some(after))))
    ensures forall k :: k != id ==> FindSessionLog(r.store, k) == FindSessionLog(s, k)
    ensures r.store.users == s.users && r.store.characters == s.characters
    ensures r.store.nextLogId == s.nextLogId
    ensures Valid(s) ==> Valid(r.store)
  {
    var changes := b.(id := Absent);
    if changes == EmptySessionLogBody then Step(s, Err(EmptyUpdate))
    else if !FitsSessionLogColumns(changes) then Step(s, Err(OutOfRange))
    else
    match FindSessionLog(s, id)
    case None => Step(s, Ok(None))
    case Some(before) =>
      if NullsSessionLogColumn(changes) then Step(s, Err(NotNullViolation))
      else
        var f := (l: SessionLog) => SetSessionLogColumns(l, changes);
        var s' := s.(logs := UpdateWhere(s.logs, LogId, id, f));
        forall k ensures FindSessionLog(s', k) == if k == id then Some(f(before)) else FindSessionLog(s, k) {
          FindUpdateWhere(s.logs, LogId, id, f, k);
        }
        assert Valid(s) ==> Valid(s') by {
          if Valid(s) {
            UpdateWhereSerial(s.logs, LogId, s.nextLogId, id, f);
          }
        }
        Step(s', Ok(Some(f(before))))
  }

  /** A log body the insert schema accepts is always stored; one the
      update schema accepts is always written unless it sets nothing. */
  lemma SessionLogSchemasPreventFailure(s: Store, id: int, b: SessionLogBody, now: Timestamp)
    ensures ParseInsertSessionLog(b).Some? ==> CreateSessionLog(s, ParseInsertSessionLog(b).value, now).out.Ok?
    ensures ParseUpdateSessionLog(b).Some? && !EmptyLogPatch(ParseUpdateSessionLog(b).value) ==>
            !UpdateSessionLog(s, id, ParseUpdateSessionLog(b).value).out.Err?
  {
  }

  /** For a log that exists, the PATCH body the route hands over (parsed
      only by JSON, not by the update schema) is written exactly when the
      update schema would have accepted it, it does not null `createdAt`
      (a key the schema strips), and it sets something. */
  lemma UpdateSessionLogSchemaMatchesUpdate(s: Store, id: int, b: SessionLogBody)
    requires FindSessionLog(s, id).Some?
    ensures UpdateSessionLog(s, id, b).out.Ok? <==>
            ParseUpdateSessionLog(b).Some? && !b.createdAt.Null? && !EmptyLogPatch(b)
  {
  }

  /** `{}` passes the update schema, yet the update it leads to fails:
      schema acceptance alone does not make a log PATCH succeed. */
  lemma EmptyLogPatchPassesSchemaButFails(s: Store, id: int)
    ensures ParseUpdateSessionLog(EmptySessionLogBody) == Some(EmptySessionLogBody)
    ensures UpdateSessionLog(s, id, EmptySessionLogBody) == Step(s, Err(EmptyUpdate))
  {
  }

  /** `deleteSessionLog(id)`: removes that log; the result says whether it
      existed; nothing else changes. */
  function DeleteSessionLog(s: Store, id: int): (r: Step<bool>)
    ensures r.out <==> FindSessionLog(s, id).Some?
    ensures forall l :: l in r.store.logs <==> l in s.logs && l.id != id
    ensures forall k :: k != id ==> FindSessionLog(r.store, k) == FindSessionLog(s, k)
    ensures r.store == s.(logs := r.store.logs)
    ensures Valid(s) ==> Valid(r.store)
  {
    var keep := (l: SessionLog) => l.id != id;
    var s' := s.(logs := Filter(s.logs, keep));
    forall k | k != id ensures FindSessionLog(s', k) == FindSessionLog(s, k) {
      FindFilter(s.logs, LogId, k, keep);
    }
    assert Valid(s) ==> Valid(s') by {
      if Valid(s) {
        FilterSerial(s.logs, LogId, s.nextLogId, keep);
      }
    }
    Step(s', FindSessionLog(s, id).Some?)
  }
}

=== FILE: tables.dfy ===
/** Rows of a table as a sequence in insertion order, with the handful of
    query shapes the storage gateway issues: lookup by key (`WHERE k = v`,
    first row), filtering (`WHERE p`), update in place (`UPDATE ... WHERE
    k = v`) and ordering (`ORDER BY key DESC`). */
module Tables {
  import opened Wrappers

  /** The first row whose key is `k`, as `const [row] = await select...`. */
  function Find<T, K(==)>(t: seq<T>, key: T -> K, k: K): (r: Option<T>)
    ensures r.Some? ==> r.value in t && key(r.value) == k
    ensures r.None? <==> forall x :: x in t ==> key(x) != k
  {
    if t == [] then None
    else if key(t[0]) == k then Some(t[0])
    else Find(t[1..], key, k)
  }

  /** `WHERE p`: the rows satisfying `p`, in table order, each as often as
      it occurs. */
  function Filter<T(!new)>(t: seq<T>, p: T -> bool): (r: seq<T>)
    ensures forall x :: x in r <==> x in t && p(x)
    ensures |r| <= |t|
  {
    if t == [] then []
    else
      var rest := Filter(t[1..], p);
      assert t == [t[0]] + t[1..];
      if p(t[0]) then [t[0]] + rest else rest
  }

  /** A filter keeps every copy of each row that passes and none of the rest. */
  lemma {:induction false} FilterMultiset<T(!new)>(t: seq<T>, p: T -> bool)
    ensures forall x :: multiset(Filter(t, p))[x] == if p(x) then multiset(t)[x] else 0
  {
    if t != [] {
      FilterMultiset(t[1..], p);
      assert t == [t[0]] + t[1..];
    }
  }

  /** `UPDATE ... SET f(row) WHERE key = k`: every row with key `k` is
      rewritten by `f`, every other row is kept as it is. */
  function UpdateWhere<T, K(==)>(t: seq<T>, key: T -> K, k: K, f: T -> T): (r: seq<T>)
    ensures |r| == |t|
    ensures forall i :: 0 <= i < |t| ==> r[i] == if key(t[i]) == k then f(t[i]) else t[i]
  {
    if t == [] then []
    else [if key(t[0]) == k then f(t[0]) else t[0]] + UpdateWhere(t[1..], key, k, f)
  }

  /** Keys strictly increase along the table: the shape of a table whose
      key is a serial primary key and whose rows are kept in insertion order.
      In particular no two rows share a key. */
  ghost predicate Increasing<T>(t: seq<T>, key: T -> int) {
    forall i, j :: 0 <= i < j < |t| ==> key(t[i]) < key(t[j])
  }

  /** No two rows share a key (a UNIQUE column). */
  ghost predicate UniqueKeys<T, K>(t: seq<T>, key: T -> K) {
    forall i, j :: 0 <= i < j < |t| ==> key(t[i]) != key(t[j])
  }

  /** Rows are ordered by `key`, largest first (`ORDER BY key DESC`). */
  ghost predicate SortedDesc<T>(t: seq<T>, key: T -> int) {
    forall i, j :: 0 <= i < j < |t| ==> key(t[i]) >= key(t[j])
  }

  /** Inserting one row into a table already ordered by `key` descending. */
  function InsertDesc<T>(x: T, t: seq<T>, key: T -> int): (r: seq<T>)
    requires SortedDesc(t, key)
    ensures SortedDesc(r, key)
    ensures multiset(r) == multiset(t) + multiset{x}
  {
    if t == [] then [x]
    else if key(x) >= key(t[0]) then [x] + t
    else
      var tail := t[1..];
      assert SortedDesc(tail, key) by {
        forall i, j | 0 <= i < j < |tail| ensures key(tail[i]) >= key(tail[j]) {
          assert tail[i] == t[i + 1] && tail[j] == t[j + 1];
        }
      }
      var rest := InsertDesc(x, tail, key);
      assert t == [t[0]] + tail;
      InsertDescBelow(t[0], x, tail, rest, key);
      [t[0]] + rest
  }

  lemma InsertDescBelow<T>(head: T, x: T, tail: seq<T>, rest: seq<T>, key: T -> int)
    requires SortedDesc([head] + tail, key)
    requires SortedDesc(rest, key)
    requires key(x) < key(head)
    requires multiset(rest) == multiset(tail) + multiset{x}
    ensures SortedDesc([head] + rest, key)
  {
    var r := [head] + rest;
    forall i, j | 0 <= i < j < |r| ensures key(r[i]) >= key(r[j]) {
      if i == 0 {
        var y := rest[j - 1];
        assert r[0] == head && r[j] == y;
        assert y in multiset(rest);
        if y != x {
          assert y in multiset(tail);
          var k :| 0 <= k < |tail| && tail[k] == y;
          assert ([head] + tail)[k + 1] == y && ([head] + tail)[0] == head;
        }
      } else {
        assert r[i] == rest[i - 1] && r[j] == rest[j - 1];
      }
    }
  }

  /** `ORDER BY key DESC`: the same rows, as a multiset, largest key first. */
  function SortDesc<T>(t: seq<T>, key: T -> int): (r: seq<T>)
    ensures SortedDesc(r, key)
    ensures multiset(r) == multiset(t)
    ensures |r| == |t|
  {
    if t == [] then []
    else
      assert t == [t[0]] + t[1..];
      InsertDesc(t[0], SortDesc(t[1..], key), key)
  }

  /** Sorting keeps exactly the rows it was given. */
  lemma SortDescMembers<T>(t: seq<T>, key: T -> int)
    ensures forall x :: x in SortDesc(t, key) <==> x in t
  {
    var r := SortDesc(t, key);
    forall x ensures x in r <==> x in t {
      assert x in r <==> x in multiset(r);
      assert x in t <==> x in multiset(t);
    }
  }

  /** With unique keys, the row `Find` returns is the one holding the key. */
  lemma FindUnique<T, K>(t: seq<T>, key: T -> K, x: T)
    requires UniqueKeys(t, key)
    requires x in t
    ensures Find(t, key, key(x)) == Some(x)
  {
    if t[0] != x {
      assert x in t[1..];
      assert key(t[0]) != key(x) by {
        var j :| 0 <= j < |t| && t[j] == x;
        assert j > 0;
      }
      assert UniqueKeys(t[1..], key) by {
        forall i, j | 0 <= i < j < |t[1..]| ensures key(t[1..][i]) != key(t[1..][j]) {
          assert t[1..][i] == t[i + 1] && t[1..][j] == t[j + 1];
        }
      }
      FindUnique(t[1..], key, x);
    }
  }

  lemma IncreasingUnique<T>(t: seq<T>, key: T -> int)
    requires Increasing(t, key)
    ensures UniqueKeys(t, key)
  {
  }

  /** The rows after the first of an ordered table are ordered too, and all
      lie above the first. */
  lemma IncreasingTail<T>(t: seq<T>, key: T -> int)
    requires t != [] && Increasing(t, key)
    ensures Increasing(t[1..], key)
    ensures forall y :: y in t[1..] ==> key(t[0]) < key(y)
  {
    var tail := t[1..];
    forall i, j | 0 <= i < j < |tail| ensures key(tail[i]) < key(tail[j]) {
      assert tail[i] == t[i + 1] && tail[j] == t[j + 1];
    }
    forall y | y in tail ensures key(t[0]) < key(y) {
      var j :| 0 <= j < |tail| && tail[j] == y;
      assert y == t[j + 1];
    }
  }

  /** A row below every row of an ordered table can go in front of it. */
  lemma IncreasingCons<T>(x: T, r: seq<T>, key: T -> int)
    requires Increasing(r, key)
    requires forall y :: y in r ==> key(x) < key(y)
    ensures Increasing([x] + r, key)
  {
    var u := [x] + r;
    forall i, j | 0 <= i < j < |u| ensures key(u[i]) < key(u[j]) {
      assert u[j] == r[j - 1] && u[j] in r;
      if i > 0 {
        assert u[i] == r[i - 1];
      }
    }
  }

  /** Deleting rows keeps a serial table in insertion order. */
  lemma {:induction false} FilterIncreasing<T(!new)>(t: seq<T>, key: T -> int, p: T -> bool)
    requires Increasing(t, key)
    ensures Increasing(Filter(t, p), key)
  {
    if t != [] {
      IncreasingTail(t, key);
      FilterIncreasing(t[1..], key, p);
      if p(t[0]) {
        IncreasingCons(t[0], Filter(t[1..], p), key);
      }
    }
  }

  /** A key-preserving update keeps a serial table in insertion order. */
  lemma UpdateWhereIncreasing<T>(t: seq<T>, key: T -> int, k: int, f: T -> T)
    requires Increasing(t, key)
    requires forall x :: key(f(x)) == key(x)
    ensures Increasing(UpdateWhere(t, key, k, f), key)
  {
  }

  /** A key-preserving update leaves the lookup of every other key alone and
      turns the row under `k` into its image under `f`. */
  lemma {:induction false} FindUpdateWhere<T>(t: seq<T>, key: T -> int, k: int, f: T -> T, j: int)
    requires forall x :: key(f(x)) == key(x)
    ensures Find(UpdateWhere(t, key, k, f), key, j)
         == if j == k then (match Find(t, key, j) case Some(x) => Some(f(x)) case None => None)
            else Find(t, key, j)
  {
    if t != [] {
      FindUpdateWhere(t[1..], key, k, f, j);
      assert UpdateWhere(t, key, k, f)[1..] == UpdateWhere(t[1..], key, k, f);
    }
  }

  /** Appending a row with a key above every key keeps the table serial. */
  lemma AppendIncreasing<T>(t: seq<T>, key: T -> int, x: T)
    requires Increasing(t, key)
    requires forall y :: y in t ==> key(y) < key(x)
    ensures Increasing(t + [x], key)
  {
    var r := t + [x];
    forall i, j | 0 <= i < j < |r| ensures key(r[i]) < key(r[j]) {
      assert r[i] in t;
    }
  }

  /** A table whose key is a serial primary key: keys increase along the
      table, start at 1, and stay below the sequence's next value. */
  ghost predicate Serial<T>(t: seq<T>, key: T -> int, next: int) {
    && 1 <= next
    && Increasing(t, key)
    && forall x :: x in t ==> 1 <= key(x) < next
  }

  /** Appending a row that takes the sequence's next value keeps a table
      serial once the sequence is advanced. */
  lemma AppendSerial<T>(t: seq<T>, key: T -> int, next: int, x: T)
    requires Serial(t, key, next)
    requires key(x) == next
    ensures Serial(t + [x], key, next + 1)
  {
    AppendIncreasing(t, key, x);
  }

  /** After appending a row whose key no earlier row has, looking up that
      key finds the new row and every other lookup is unchanged. */
  lemma {:induction false} FindAppendFresh<T, K>(t: seq<T>, key: T -> K, x: T, k: K)
    requires forall y :: y in t ==> key(y) != key(x)
    ensures Find(t + [x], key, k) == if k == key(x) then Some(x) else Find(t, key, k)
  {
    if t != [] {
      assert (t + [x])[1..] == t[1..] + [x];
      FindAppendFresh(t[1..], key, x, k);
    }
  }

  /** Appending a row whose key is new keeps the keys unique. */
  lemma AppendUniqueKey<T, K>(t: seq<T>, key: T -> K, x: T)
    requires UniqueKeys(t, key)
    requires forall y :: y in t ==> key(y) != key(x)
    ensures UniqueKeys(t + [x], key)
  {
    var r := t + [x];
    forall i, j | 0 <= i < j < |r| ensures key(r[i]) != key(r[j]) {
      assert r[i] in t;
    }
  }

  /** A key-preserving update keeps a table serial. */
  lemma UpdateWhereSerial<T>(t: seq<T>, key: T -> int, next: int, k: int, f: T -> T)
    requires Serial(t, key, next)
    requires forall x :: key(f(x)) == key(x)
    ensures Serial(UpdateWhere(t, key, k, f), key, next)
  {
    var r := UpdateWhere(t, key, k, f);
    forall y | y in r ensures 1 <= key(y) < next {
      var i :| 0 <= i < |r| && r[i] == y;
      assert t[i] in t;
    }
  }

  /** Deleting rows keeps a table serial. */
  lemma FilterSerial<T(!new)>(t: seq<T>, key: T -> int, next: int, p: T -> bool)
    requires Serial(t, key, next)
    ensures Serial(Filter(t, p), key, next)
  {
    FilterIncreasing(t, key, p);
  }

  /** A filter every row passes keeps the table as it is. */
  lemma {:induction false} FilterKeepsAll<T(!new)>(t: seq<T>, p: T -> bool)
    requires forall x :: x in t ==> p(x)
    ensures Filter(t, p) == t
  {
    if t != [] {
      FilterKeepsAll(t[1..], p);
      assert t == [t[0]] + t[1..];
    }
  }

  /** Filtering a table with one more row at the end. */
  lemma {:induction false} FilterAppend<T(!new)>(t: seq<T>, x: T, p: T -> bool)
    ensures Filter(t + [x], p) == Filter(t, p) + (if p(x) then [x] else [])
  {
    var u := t + [x];
    if t == [] {
      assert u == [x] && u[1..] == [];
    } else {
      var rest := t[1..];
      var head := if p(t[0]) then [t[0]] else [];
      assert u[0] == t[0] && u[1..] == rest + [x];
      assert Filter(u, p) == head + Filter(rest + [x], p);
      assert Filter(t, p) == head + Filter(rest, p);
      FilterAppend(rest, x, p);
    }
  }

  /** The number of rows satisfying `p`, counted from the end. */
  function CountWhere<T>(t: seq<T>, p: T -> bool): nat {
    if t == [] then 0 else CountWhere(t[..|t| - 1], p) + (if p(t[|t| - 1]) then 1 else 0)
  }

  /** Counting the rows that pass a filter is the length of the filter. */
  lemma {:induction false} CountWhereFilter<T(!new)>(t: seq<T>, p: T -> bool)
    ensures CountWhere(t, p) == |Filter(t, p)|
  {
    if t != [] {
      var init := t[..|t| - 1];
      assert t == init + [t[|t| - 1]];
      CountWhereFilter(init, p);
      FilterAppend(init, t[|t| - 1], p);
    }
  }

  /** Filtering two tables holding the same rows keeps as many rows of each. */
  lemma FilterPermutation<T(!new)>(t: seq<T>, u: seq<T>, p: T -> bool)
    requires multiset(t) == multiset(u)
    ensures |Filter(t, p)| == |Filter(u, p)|
  {
    FilterMultiset(t, p);
    FilterMultiset(u, p);
    assert multiset(Filter(t, p)) == multiset(Filter(u, p));
    assert |multiset(Filter(t, p))| == |Filter(t, p)|;
    assert |multiset(Filter(u, p))| == |Filter(u, p)|;
  }

  /** With unique keys, a key determines the row. */
  lemma UniqueKeysSameRow<T, K>(t: seq<T>, key: T -> K, x: T, y: T)
    requires UniqueKeys(t, key)
    requires x in t && y in t
    ensures key(x) == key(y) ==> x == y
  {
    var i :| 0 <= i < |t| && t[i] == x;
    var j :| 0 <= j < |t| && t[j] == y;
    assert i < j || j < i || i == j;
  }

  /** With unique keys, no row occurs twice. */
  lemma {:induction false} UniqueKeysNoRepeat<T, K>(t: seq<T>, key: T -> K, x: T)
    requires UniqueKeys(t, key)
    ensures multiset(t)[x] <= 1
  {
    if t != [] {
      var rest := t[1..];
      assert t == [t[0]] + rest;
      assert UniqueKeys(rest, key) by {
        forall i, j | 0 <= i < j < |rest| ensures key(rest[i]) != key(rest[j]) {
          assert rest[i] == t[i + 1] && rest[j] == t[j + 1];
        }
      }
      UniqueKeysNoRepeat(rest, key, x);
    }
  }

  /** A row found at two positions occurs at least twice. */
  lemma TwoPositions<T>(r: seq<T>, i: int, j: int)
    requires 0 <= i < j < |r| && r[i] == r[j]
    ensures multiset(r)[r[i]] >= 2
  {
    assert r == r[..j] + [r[j]] + r[j + 1..];
    assert r[..j][i] == r[i];
  }

  /** Any reordering of a table with unique keys has unique keys. */
  lemma PermutationUniqueKeys<T, K>(t: seq<T>, r: seq<T>, key: T -> K)
    requires UniqueKeys(t, key)
    requires multiset(r) == multiset(t)
    ensures UniqueKeys(r, key)
  {
    forall i, j | 0 <= i < j < |r| ensures key(r[i]) != key(r[j]) {
      assert r[i] in multiset(t) && r[j] in multiset(t);
      if r[i] == r[j] {
        TwoPositions(r, i, j);
        UniqueKeysNoRepeat(t, key, r[i]);
      } else {
        UniqueKeysSameRow(t, key, r[i], r[j]);
      }
    }
  }

  /** Removing rows whose key is not `k` does not change the lookup of `k`. */
  lemma {:induction false} FindFilter<T(!new), K>(t: seq<T>, key: T -> K, k: K, p: T -> bool)
    requires forall x :: key(x) == k ==> p(x)
    ensures Find(Filter(t, p), key, k) == Find(t, key, k)
  {
    if t != [] {
      FindFilter(t[1..], key, k, p);
    }
  }

  /** With unique keys, exactly the rows under an existing key `k` satisfy a
      predicate that selects key `k`: one row, or none. */
  lemma {:induction false} CountUniqueKey<T(!new), K>(t: seq<T>, key: T -> K, k: K, p: T -> bool)
    requires UniqueKeys(t, key)
    requires forall x :: p(x) <==> key(x) == k
    ensures |Filter(t, p)| == if Find(t, key, k).Some? then 1 else 0
  {
    if t != [] {
      var tail := t[1..];
      assert UniqueKeys(tail, key) by {
        forall i, j | 0 <= i < j < |tail| ensures key(tail[i]) != key(tail[j]) {
          assert tail[i] == t[i + 1] && tail[j] == t[j + 1];
        }
      }
      CountUniqueKey(tail, key, k, p);
      if key(t[0]) == k {
        forall x | x in tail ensures key(x) != k {
          var j :| 0 <= j < |tail| && tail[j] == x;
          assert x == t[j + 1];
        }
        assert Find(tail, key, k).None?;
      }
    }
  }
}

=== FILE: text.dfy ===
/** The string operations the server relies on: JavaScript's `trim`,
    `toLowerCase`, `includes`, `startsWith` and `parseInt`. */
module Text {
  import opened Wrappers

  /** The characters JavaScript's `String.prototype.trim` removes: the
      WhiteSpace and LineTerminator code points of ECMAScript. */
  predicate IsJsSpace(c: char) {
    if c < '\U{00A0}' then c == ' ' || '\t' <= c <= '\r'
    else || c == '\U{00A0}' || c == '\U{1680}' || '\U{2000}' <= c <= '\U{200A}'
         || c == '\U{2028}' || c == '\U{2029}' || c == '\U{202F}' || c == '\U{205F}'
         || c == '\U{3000}' || c == '\U{FEFF}'
  }

  /** Every character of `s` is white space (so `s.trim()` is empty). */
  predicate IsBlank(s: string) {
    forall k :: 0 <= k < |s| ==> IsJsSpace(s[k])
  }

  /** `s.trimStart()`: the longest suffix that does not begin with white space. */
  function TrimStart(s: string): (r: string)
    ensures |r| <= |s| && r == s[|s| - |r|..]
    ensures forall k :: 0 <= k < |s| - |r| ==> IsJsSpace(s[k])
    ensures r != [] ==> !IsJsSpace(r[0])
  {
    if s == [] || !IsJsSpace(s[0]) then s else TrimStart(s[1..])
  }

  /** `s.trimEnd()`: the longest prefix that does not end with white space. */
  function TrimEnd(s: string): (r: string)
    ensures |r| <= |s| && r == s[..|r|]
    ensures forall k :: |r| <= k < |s| ==> IsJsSpace(s[k])
    ensures r != [] ==> !IsJsSpace(r[|r| - 1])
  {
    if s == [] || !IsJsSpace(s[|s| - 1]) then s else TrimEnd(s[..|s| - 1])
  }

  /** `s.trim()`: `s` without its leading and trailing white space. It is
      a contiguous piece of `s` with only white space before and after it;
      it is empty exactly when `s` is blank, and otherwise starts and ends
      with a character that is not white space. */
  function Trim(s: string): (r: string)
    ensures exists i :: PaddedAt(s, r, i)
    ensures r == [] <==> IsBlank(s)
    ensures r != [] ==> !IsJsSpace(r[0]) && !IsJsSpace(r[|r| - 1])
  {
    var front := TrimStart(s);
    var r := TrimEnd(front);
    TrimPadded(s, front, r);
    r
  }

  /** Cutting white space from the front, then from the back, leaves a
      piece of `s` with white space all around it. Stated on the facts
      `TrimStart` and `TrimEnd` promise, not on their definitions. */
  lemma TrimPadded(s: string, front: string, r: string)
    requires |front| <= |s| && front == s[|s| - |front|..]
    requires forall k :: 0 <= k < |s| - |front| ==> IsJsSpace(s[k])
    requires front != [] ==> !IsJsSpace(front[0])
    requires |r| <= |front| && r == front[..|r|]
    requires forall k :: |r| <= k < |front| ==> IsJsSpace(front[k])
    requires r != [] ==> !IsJsSpace(r[|r| - 1])
    ensures exists i :: PaddedAt(s, r, i)
    ensures r == [] <==> IsBlank(s)
    ensures r != [] ==> !IsJsSpace(r[0]) && !IsJsSpace(r[|r| - 1])
  {
    var i := |s| - |front|;
    assert r == s[i..i + |r|];
    forall k | i + |r| <= k < |s| ensures IsJsSpace(s[k]) {
      assert s[k] == front[k - i];
    }
    if r != [] {
      assert r[0] == front[0];
    }
    assert PaddedAt(s, r, i);
    PaddedBlank(s, r, i);
  }

  /** A padded piece that does not start with white space is empty exactly
      when the whole string is white space. */
  lemma PaddedBlank(s: string, r: string, i: int)
    requires PaddedAt(s, r, i) && (r != [] ==> !IsJsSpace(r[0]))
    ensures r == [] <==> IsBlank(s)
  {
    if r != [] {
      assert s[i] == r[0];
    }
  }

  /** `r` is the piece of `s` at offset `i`, and everything in `s` before
      and after that piece is white space. */
  predicate PaddedAt(s: string, r: string, i: int) {
    && 0 <= i <= |s| - |r| && r == s[i..i + |r|]
    && (forall k :: 0 <= k < i ==> IsJsSpace(s[k]))
    && (forall k :: i + |r| <= k < |s| ==> IsJsSpace(s[k]))
  }

  /** Trimming twice is trimming once. */
  lemma {:induction false} TrimIdempotent(s: string)
    ensures Trim(Trim(s)) == Trim(s)
  {
    var t := Trim(s);
    assert TrimStart(t) == t;
    assert TrimEnd(t) == t;
  }

  /** Text that neither starts nor ends with white space is its own trim. */
  lemma TrimUnpadded(s: string)
    requires s != [] ==> !IsJsSpace(s[0]) && !IsJsSpace(s[|s| - 1])
    ensures Trim(s) == s
  {
    assert TrimStart(s) == s;
    assert TrimEnd(s) == s;
  }

  /** ASCII `toLowerCase` of one character. */
  function LowerChar(c: char): char {
    if 'A' <= c <= 'Z' then (c as int + 32) as char else c
  }

  /** `s.toLowerCase()`, restricted to the ASCII letters. */
  function ToLower(s: string): (r: string)
    ensures |r| == |s|
    ensures forall k :: 0 <= k < |s| ==> r[k] == LowerChar(s[k])
    ensures forall k :: 0 <= k < |r| ==> !('A' <= r[k] <= 'Z')
  {
    if s == [] then [] else [LowerChar(s[0])] + ToLower(s[1..])
  }

  /** Lowering twice is lowering once. */
  lemma ToLowerIdempotent(s: string)
    ensures ToLower(ToLower(s)) == ToLower(s)
  {
  }

  /** `hay.includes(needle)`: `needle` occurs in `hay` at some offset. The
      empty string occurs everywhere, nothing longer than `hay` occurs in
      it, and a prefix always occurs. */
  function Contains(hay: string, needle: string): (r: bool)
    ensures needle == [] ==> r
    ensures |needle| > |hay| ==> !r
    ensures StartsWith(hay, needle) ==> r
  {
    assert StartsWith(hay, needle) ==> OccursAt(hay, needle, 0);
    exists i | 0 <= i <= |hay| - |needle| :: OccursAt(hay, needle, i)
  }

  /** `needle` occurs in `hay` starting at offset `i`. */
  predicate OccursAt(hay: string, needle: string, i: int) {
    0 <= i <= |hay| - |needle| && hay[i..i + |needle|] == needle
  }

  /** Whatever surrounds a string, the result contains it. */
  lemma ContainsInfix(pre: string, needle: string, post: string)
    ensures Contains(pre + needle + post, needle)
  {
    assert OccursAt(pre + needle + post, needle, |pre|) by {
      assert (pre + needle + post)[|pre|..|pre| + |needle|] == needle;
    }
  }

  /** An occurrence of an already lower-case needle survives lowering the
      haystack: lowering can only turn other characters into its letters. */
  lemma ContainsLowered(hay: string, needle: string)
    ensures Contains(hay, ToLower(needle)) ==> Contains(ToLower(hay), ToLower(needle))
  {
    var n := ToLower(needle);
    if Contains(hay, n) {
      var i :| 0 <= i <= |hay| - |n| && OccursAt(hay, n, i);
      var h := ToLower(hay);
      forall k | 0 <= k < |n| ensures h[i + k] == n[k] {
        assert hay[i + k] == hay[i..i + |n|][k];
      }
      assert h[i..i + |n|] == n;
      assert OccursAt(h, n, i);
    }
  }

  /** `s.startsWith(prefix)`: `s` is at least as long as `prefix` and agrees
      with it character by character. */
  function StartsWith(s: string, prefix: string): (r: bool)
    ensures r <==> |prefix| <= |s| && forall k :: 0 <= k < |prefix| ==> s[k] == prefix[k]
  {
    |prefix| <= |s| && s[..|prefix|] == prefix
  }

  /** A string starts with anything it was built from by appending. */
  lemma StartsWithAppend(prefix: string, rest: string)
    ensures StartsWith(prefix + rest, prefix)
  {
  }

  // ---------------------------------------------------------------------
  // parseInt
  // ---------------------------------------------------------------------

  /** The value of `c` as a digit in base 10 or 16, if it is one. */
  function DigitValue(c: char, radix: nat): (r: Option<nat>)
    requires radix == 10 || radix == 16
    ensures r.Some? ==> r.value < radix
  {
    if '0' <= c <= '9' then Some(c as int - '0' as int)
    else if radix == 16 && 'a' <= c <= 'f' then Some(c as int - 'a' as int + 10)
    else if radix == 16 && 'A' <= c <= 'F' then Some(c as int - 'A' as int + 10)
    else None
  }

  /** The number of leading characters of `s` that are digits in `radix`. */
  function LeadingDigits(s: string, radix: nat): (n: nat)
    requires radix == 10 || radix == 16
    ensures n <= |s|
    ensures forall k :: 0 <= k < n ==> DigitValue(s[k], radix).Some?
    ensures n < |s| ==> DigitValue(s[n], radix).None?
  {
    if s == [] || DigitValue(s[0], radix).None? then 0 else 1 + LeadingDigits(s[1..], radix)
  }

  /** The number a string of digits denotes, most significant first. */
  function DigitsValue(s: string, radix: nat): nat
    requires radix == 10 || radix == 16
    requires forall k :: 0 <= k < |s| ==> DigitValue(s[k], radix).Some?
  {
    if s == [] then 0
    else DigitsValue(s[..|s| - 1], radix) * radix + DigitValue(s[|s| - 1], radix).value
  }

  /** JavaScript's `parseInt(s)` with no radix: leading white space is
      skipped, one sign is accepted, and the rest is read by `ParseUnsigned`;
      `NaN` is written `None`. A number is read only where, after the white
      space, a sign or a digit comes first; blank text is `NaN`; and only a
      leading `-` gives a negative number. */
  function ParseInt(s: string): (r: Option<int>)
    ensures IsBlank(s) ==> r.None?
    ensures r.Some? ==> |TrimStart(s)| > 0 && (TrimStart(s)[0] in "+-" || '0' <= TrimStart(s)[0] <= '9')
    ensures r.Some? && r.value < 0 ==> TrimStart(s)[0] == '-'
  {
    var t := TrimStart(s);
    if |t| > 0 && (t[0] == '-' || t[0] == '+') then
      match ParseUnsigned(t[1..])
      case None => None
      case Some(m) =>
        var v: int := if t[0] == '-' then 0 - (m as int) else m;
        Some(v)
    else
      match ParseUnsigned(t)
      case None => None
      case Some(m) => Some(m)
  }

  /** The unsigned part of `parseInt`: a `0x`/`0X` prefix selects base 16,
      then the longest run of digits is read; with no digit there is no
      number, so a number always starts with a decimal digit. */
  function ParseUnsigned(u: string): (r: Option<nat>)
    ensures r.Some? ==> |u| > 0 && '0' <= u[0] <= '9'
  {
    var hex := |u| >= 2 && u[0] == '0' && (u[1] == 'x' || u[1] == 'X');
    var radix := if hex then 16 else 10;
    var body := if hex then u[2..] else u;
    var n := LeadingDigits(body, radix);
    if n == 0 then None else Some(DigitsValue(body[..n], radix))
  }

  /** The decimal spelling of a natural number, as JavaScript's `String(n)`. */
  function NatString(n: nat): (r: string)
    ensures |r| > 0
    ensures forall k :: 0 <= k < |r| ==> '0' <= r[k] <= '9'
    ensures r[0] == '0' ==> n == 0
  {
    var digit := ['0' + (n % 10) as char];
    if n < 10 then digit else NatString(n / 10) + digit
  }

  /** The decimal spelling of an integer, with a leading `-` when negative. */
  function IntString(n: int): string {
    if n < 0 then "-" + NatString(-n) else NatString(n)
  }

  lemma {:induction false} NatStringValue(n: nat)
    ensures LeadingDigits(NatString(n), 10) == |NatString(n)|
    ensures DigitsValue(NatString(n), 10) == n
  {
    var s := NatString(n);
    assert forall k :: 0 <= k < |s| ==> DigitValue(s[k], 10).Some?;
    LeadingDigitsAll(s, 10);
    if n >= 10 {
      NatStringValue(n / 10);
      assert s[..|s| - 1] == NatString(n / 10);
    }
  }

  lemma {:induction false} LeadingDigitsAll(s: string, radix: nat)
    requires radix == 10 || radix == 16
    requires forall k :: 0 <= k < |s| ==> DigitValue(s[k], radix).Some?
    ensures LeadingDigits(s, radix) == |s|
  {
    if s != [] {
      LeadingDigitsAll(s[1..], radix);
    }
  }

  /** `parseInt` stops at the first character that cannot continue the
      number: the decimal spelling of any integer, followed by text that
      starts with neither a digit nor an `x`, reads as that integer. So
      `parseInt("12abc")` is 12. */
  lemma ParseIntStopsAtNonDigit(n: int, rest: string)
    requires rest == [] || (DigitValue(rest[0], 10).None? && rest[0] != 'x' && rest[0] != 'X')
    ensures ParseInt(IntString(n) + rest) == Some(n)
  {
    if n < 0 {
      ParseIntNegativeThen(n, rest);
    } else {
      ParseIntNatStringThen(n, rest);
    }
  }

  /** The negative half of `ParseIntStopsAtNonDigit`. */
  lemma ParseIntNegativeThen(n: int, rest: string)
    requires n < 0
    requires rest == [] || (DigitValue(rest[0], 10).None? && rest[0] != 'x' && rest[0] != 'X')
    ensures ParseInt(IntString(n) + rest) == Some(n)
  {
    var m: nat := -n;
    ParseIntNatStringThen(m, rest);
    NegativeSpelling(n, rest);
    assert ParseInt("-" + (NatString(m) + rest)) == Some(n);
  }

  /** A negative integer's spelling is a minus sign before its magnitude's. */
  lemma NegativeSpelling(n: int, rest: string)
    requires n < 0
    ensures IntString(n) + rest == "-" + (NatString(-n) + rest)
  {
  }

  /** The two signs of `ParseIntStopsAtNonDigit`, on a natural number. */
  lemma ParseIntNatStringThen(m: nat, rest: string)
    requires rest == [] || (DigitValue(rest[0], 10).None? && rest[0] != 'x' && rest[0] != 'X')
    ensures ParseInt(NatString(m) + rest) == Some(m)
    ensures ParseInt("-" + (NatString(m) + rest)) == Some(0 - m)
  {
    var u := NatString(m) + rest;
    ParseUnsignedNatStringThen(m, rest);
    assert u[0] == NatString(m)[0];
    ParseIntUnsigned(u);
    ParseIntNegative(u);
  }

  /** `parseInt` of a minus sign before a number is the negated number. */
  lemma ParseIntNegative(u: string)
    requires |u| > 0 && '0' <= u[0] <= '9' && ParseUnsigned(u).Some?
    ensures ParseInt("-" + u) == Some(0 - ParseUnsigned(u).value)
  {
    var s := "-" + u;
    TrimStartKeeps(s);
    assert s[1..] == u;
    assert |s| > 0 && s[0] == '-';
    assert ParseUnsigned(s[1..]) == ParseUnsigned(u);
  }

  /** `parseInt` of text that starts with a digit is its unsigned reading. */
  lemma ParseIntUnsigned(u: string)
    requires |u| > 0 && '0' <= u[0] <= '9' && ParseUnsigned(u).Some?
    ensures ParseInt(u) == Some(ParseUnsigned(u).value)
  {
    TrimStartKeeps(u);
  }

  /** Text that starts with a sign or a digit has no white space to skip. */
  lemma TrimStartKeeps(s: string)
    requires |s| > 0 && (s[0] == '-' || '0' <= s[0] <= '9')
    ensures TrimStart(s) == s
  {
  }

  /** Reading back the decimal spelling of any integer with `parseInt`
      gives the integer: an id printed into a URL path is the id the
      handler looks up. */
  lemma ParseIntRoundTrip(n: int)
    ensures ParseInt(IntString(n)) == Some(n)
  {
    ParseIntStopsAtNonDigit(n, []);
    assert IntString(n) + [] == IntString(n);
  }

  lemma ParseUnsignedNatStringThen(m: nat, rest: string)
    requires rest == [] || (DigitValue(rest[0], 10).None? && rest[0] != 'x' && rest[0] != 'X')
    ensures ParseUnsigned(NatString(m) + rest) == Some(m)
  {
    var digits := NatString(m);
    var u := digits + rest;
    NatStringValue(m);
    if |u| >= 2 && u[0] == '0' {
      assert m == 0;
      assert digits == "0";
      assert u[1] == rest[0];
    }
    assert forall k :: 0 <= k < |digits| ==> DigitValue(digits[k], 10).Some?;
    LeadingDigitsThen(digits, rest);
    assert u[..|digits|] == digits;
  }

  /** A run of digits followed by a non-digit is read up to the non-digit. */
  lemma {:induction false} LeadingDigitsThen(s: string, rest: string)
    requires forall k :: 0 <= k < |s| ==> DigitValue(s[k], 10).Some?
    requires rest == [] || DigitValue(rest[0], 10).None?
    ensures LeadingDigits(s + rest, 10) == |s|
  {
    if s == [] {
      assert s + rest == rest;
    } else {
      assert (s + rest)[1..] == s[1..] + rest;
      LeadingDigitsThen(s[1..], rest);
    }
  }
}

=== FILE: wrappers.dfy ===
/** Optional values, results, and the three-way key of a JSON request body. */
module Wrappers {

  /** A nullable column or an absent lookup result. */
  datatype Option<+T> = None | Some(value: T) {

    /** The value, or `default` when there is none. */
    function GetOr(default: T): T {
      match this
      case Some(v) => v
      case None => default
    }
  }

  /** A store operation that either yields a value or raises an error. */
  datatype Result<+T, +E> = Ok(value: T) | Err(error: E)

  /** One key of a JSON request body: missing (`undefined`), explicitly
      `null`, or carrying a value. Route handlers hand bodies to the store
      without validation, so every key can take any of the three forms. */
  datatype Field<+T> = Absent | Null | Present(value: T) {

    /** JavaScript's `field ?? default`: both `undefined` and `null` fall back. */
    function Or(default: T): T {
      if Present? then value else default
    }

    /** JavaScript's `field ?? null`: a missing key becomes an explicit null. */
    function OrNull(): Field<T> {
      if Present? then this else Null
    }

    /** The value a nullable column takes when this key is written over
        `current`: a value sets it, `null` clears it, a missing key keeps it. */
    function Assign(current: Option<T>): Option<T> {
      match this
      case Present(v) => Some(v)
      case Null => None
      case Absent => current
    }
  }
}
